=== FILE: README.md ===
# Personal library — a verified model

This project models the logic of a personal-library web application and
of a small print widget for a Grist document, and proves properties of
that model in Dafny.

The application stores its books in one browser-storage slot, behind a
persistence service (`getBooks`, `addBook`, `updateBook`, `removeBook`,
`importBooks`). A React hook (`useBooks`) keeps an in-memory copy of the
list. Several other parts are modelled:

- the pure utilities: ISBN validation and hyphenation, sorting, filtering
  and grouping by any field;
- the ISBN lookup, which tries Google Books, Open Library, the BNF and
  WorldCat in turn, and the cover search;
- the barcode-scanner hook, as a state machine driven by events;
- the list view's search, genre badges, edit dialog and file import;
- the add-book form.

The print widget turns the column-major table that Grist returns into
records. It keeps the merchants assigned to the selected distributor and
totals their piggy banks ("tirelires").

Modules follow the source files:

| module | file | models |
|---|---|---|
| `Wrappers` | wrappers.dfy | `Option`, `Result` |
| `Seqs` | seqs.dfy | order-preserving filter, subsequences |
| `Text` | text.dfy | `toLowerCase`, `includes`, `indexOf`, `join`, `trim`, number printing |
| `Books` | books.dfy | `types/book.ts`, reading and writing a field by name |
| `BookUtils` | book_utils.dfy | `utils/book-utils.ts` |
| `BookService` | book_service.dfy | `services/book-service.ts` |
| `UseBooks` | use_books.dfy | `hooks/use-books.ts` |
| `BookSearch` | book_search.dfy | `services/book-search-service.ts` |
| `Scanner` | scanner.dfy | `hooks/use-barcode-scanner.ts` |
| `BookList` | book_list.dfy | `components/book-list.tsx` |
| `AddBookForm` | add_book_form.dfy | `components/add-book-form.tsx` |
| `PrintWidget` | print_widget.dfy | `TDN_gris_impression_widget.js` |

Some things the program gets from its environment are parameters of the
model instead:

- **Storage.** The storage slot is a value. It is `None` when the key is
  absent or its text does not parse, and `available` is false where no
  browser window exists.
- **Generated values.** Identifiers the code builds from `Date.now()` and
  `Math.random()` are parameters (`freshId`, `freshIds`, `stamp`).
- **Responses.** HTTP responses and the Grist fetch are parameters. A
  request that throws is `None`.
- **Scanner events.** The scanner's timers, the library's callbacks and
  the lookup completions are events of the state machine.
- **Comparison.** `localeCompare` is an arbitrary comparison whose sign
  flips when its arguments are swapped.

## Model

| member | source | states |
|---|---|---|
| Books.ParseStatus | types/book.ts:12 | A stored string denotes a reading status exactly when it is that status's name, so parsing and naming are inverse. |
| Books.With | types/book.ts:1-20 | Writing a field by name (`{ ...book, [field]: value }`) sets that field to the value, and every other field reads as before. |
| Books.WithOwnValue | types/book.ts:1-20 | Writing back the value a field already holds gives the same book. |
| BookUtils.CleanIsbn | utils/book-utils.ts:11 | The cleaned ISBN contains no hyphen or whitespace and is no longer than the input. |
| BookUtils.CleanIsbnIsFilter | utils/book-utils.ts:11 | Cleaning keeps exactly the characters other than hyphens and whitespace, in order. |
| BookUtils.CleanAppend | utils/book-utils.ts:11 | Cleaning the concatenation of two strings gives the concatenation of their cleanings. |
| BookUtils.CleanClean | utils/book-utils.ts:11 | A string with nothing to remove is its own cleaning, so cleaning is idempotent. |
| BookUtils.AllChars | utils/book-utils.ts:19-27 | A fixed-length character-class pattern accepts exactly the strings whose every character is in the class. |
| BookUtils.IsValidIsbn | utils/book-utils.ts:9-30 | Valid means that, after cleaning, the ISBN is 10 characters from digits and 'X', or 13 digits. Both directions are stated for each length. |
| BookUtils.IsValidIsbnAcceptsLeadingX | utils/book-utils.ts:19-22 | An 'X' followed by nine digits passes the check, although the comment says 'X' may only end an ISBN-10. |
| BookUtils.IsValidIsbnStrict | utils/book-utils.ts:19-27 | The corrected check accepts 'X' in the tenth position only, and accepts nothing the original rejects. |
| BookUtils.StrictRejectsLeadingX | utils/book-utils.ts:19-22 | The corrected check rejects an ISBN-10 that starts with 'X'. |
| BookUtils.FormatIsbn | utils/book-utils.ts:33-45 | An ISBN-10 gets hyphens at positions 1, 5 and 11, and an ISBN-13 at 3, 5, 9 and 15. Cleaning the result gives back the cleaned input. Any other input is returned unchanged. |
| BookUtils.CleanHyphen | utils/book-utils.ts:11 | A hyphen between two pieces disappears when the result is cleaned. |
| BookUtils.FormatIsbnIdempotent | utils/book-utils.ts:33-45 | Formatting an already formatted ISBN changes nothing. |
| BookUtils.FormatIsbnKeepsValidity | utils/book-utils.ts:9-45 | Formatting neither makes an invalid ISBN valid nor a valid one invalid. |
| BookUtils.FilterBooks | utils/book-utils.ts:64-80 | The result is a subsequence of the books, and a book is in it exactly when every filter entry accepts it. Its length is the number of accepted books, so every accepted occurrence is kept, in order. |
| BookUtils.FilterBooksIgnoredKeepsAll | utils/book-utils.ts:67-69 | Entries that are `undefined`, `null` or `""` are ignored, so such a filter keeps every book. |
| BookUtils.FilterBooksSingleEntry | utils/book-utils.ts:71-77 | A string entry against a string field matches by case-insensitive substring. Any other entry matches by strict equality. |
| BookUtils.FilterBooksReadMatchesUnread | utils/book-utils.ts:73-75 | A reading-status filter of "read" also keeps every book whose status is "unread". |
| BookUtils.SingleEntryMatch | utils/book-utils.ts:66-78 | A one-entry filter accepts a book exactly when that entry accepts the book's value. |
| BookUtils.FilterBooksExact | utils/book-utils.ts:64-80 | The corrected filter returns a subsequence of the books, keeping a book exactly when every entry accepts it, with the status compared exactly. Its length is the number of accepted books. Without a status entry it agrees with the original. |
| BookUtils.FilterBooksExactStatus | utils/book-utils.ts:73-77 | Under the corrected filter, every book kept by a status entry has exactly that status. |
| BookUtils.ExactAgreesWithoutStatus | utils/book-utils.ts:64-80 | Without a status entry, the corrected filter and the original agree on every list. |
| BookUtils.GroupKey | utils/book-utils.ts:87 | A falsy field value gives the key "Non spécifié". A non-empty string is its own key. |
| BookUtils.AddToGroupKeys | utils/book-utils.ts:89-91 | Adding a book keeps every existing key in place and creates a new group last only when the key is new. |
| BookUtils.AddToGroupValues | utils/book-utils.ts:93 | Adding appends the book to the group of its key and to no other group. |
| BookUtils.AddToGroupSize | utils/book-utils.ts:89-93 | Adding a book grows the total size of the groups by exactly one. |
| BookUtils.AddToGroupDistinct | utils/book-utils.ts:89-91 | Group keys stay pairwise distinct. |
| BookUtils.GroupFromSpec | utils/book-utils.ts:84-97 | The fold produces distinct keys, each group holding exactly the books of its key in order, with sizes summing to the number of books. |
| BookUtils.AddToGroupNonEmpty | utils/book-utils.ts:90-94 | A push creates a group holding its book or appends to an existing one, so no group becomes empty. |
| BookUtils.GroupFromNonEmpty | utils/book-utils.ts:84-97 | The whole reduce keeps every group non-empty. |
| BookUtils.GroupBooksByField | utils/book-utils.ts:83-98 | Keys are distinct, and every book's key has a group. Each group holds exactly the books with that key, in input order, and no group is empty. The group sizes add up to the number of books. |
| BookUtils.GroupedOnce | utils/book-utils.ts:83-98 | A book is in a group exactly when the group's key is the book's key. |
| BookUtils.GroupBooksByFieldAsWritten | utils/book-utils.ts:84-97 | On a plain object, grouping throws exactly when some book's key names an inherited property. Otherwise it equals the intended grouping. |
| BookUtils.GroupByGenreConstructorThrows | utils/book-utils.ts:89-93 | Grouping by genre a book whose genre is "constructor" throws. |
| BookUtils.Insert | utils/book-utils.ts:48-61 | Inserting into a sorted list keeps it sorted and adds one element. |
| BookUtils.InsertStable | utils/book-utils.ts:48-61 | When ties form classes, among the elements tied with any given one the inserted element comes first and the others keep their order. |
| BookUtils.InsertPermutation | utils/book-utils.ts:48-61 | Insertion adds exactly the inserted book to the multiset. |
| BookUtils.SortWith | utils/book-utils.ts:48-61 | The result is sorted and is a permutation of the input, for any comparator whose sign flips with its arguments. |
| BookUtils.SortWithSorted | utils/book-utils.ts:48-61 | A list already in comparator order comes back unchanged, so ties are never swapped. |
| BookUtils.SortWithStable | utils/book-utils.ts:48-61 | Stability: when ties form classes, the elements tied with any given one keep their input order. |
| BookUtils.ComparatorSignSymmetric | utils/book-utils.ts:49-60 | The book comparator inherits the sign flip of `localeCompare`, in both orders. |
| BookUtils.SortBooks | utils/book-utils.ts:48-61 | Neighbours are in comparator order (strings by `localeCompare`, reversed for descending), and the result is a permutation of the input. A list already in comparator order comes back unchanged. |
| BookUtils.SortBooksStable | utils/book-utils.ts:48-61 | `Array.prototype.sort` is stable: when the comparator's ties form classes, books it ties keep their input order. |
| BookUtils.SortBooksNonStringKeepsOrder | utils/book-utils.ts:50-60 | Sorting by a field every book holds as a truthy non-string value compares every pair as equal, so the list comes back as it was. |
| BookService.GetBooks | services/book-service.ts:9-19 | Returns the stored list, or `[]` when storage is missing, the key is absent or the content is corrupt. It never throws. |
| BookService.Write | services/book-service.ts:37-40 | After a write, reading returns exactly the written list. |
| BookService.WithDefaults | services/book-service.ts:27-31 | An empty id is replaced by the fresh one and a missing status by "unread". The result's id is never empty. |
| BookService.WithDefaultsKeepsRest | services/book-service.ts:27-31 | Only the id and the reading status change, and a book that has both is unchanged. |
| BookService.AddBook | services/book-service.ts:22-47 | Throws exactly when storage is unavailable, leaving the store as it was. Otherwise it appends the defaulted book and returns it. |
| BookService.AddBookAllowsDuplicateIds | services/book-service.ts:22-47 | Adding a book whose id is already stored produces two entries with that id. |
| BookService.ReplaceById | services/book-service.ts:58 | Every entry with the updated book's id becomes that book, and every other entry keeps its place and value. |
| BookService.ReplaceUnknownId | services/book-service.ts:58 | Updating an id that is not stored changes nothing, so there is no upsert. |
| BookService.ReplaceKeepsIds | services/book-service.ts:58 | Replacement keeps the id sequence and is idempotent. |
| BookService.UpdateBook | services/book-service.ts:50-68 | Throws exactly when storage is unavailable. Otherwise it stores the list with every entry of that id replaced, and returns the argument. |
| BookService.RemoveById | services/book-service.ts:79 | The result is a subsequence of the list, containing exactly the entries whose id differs, so the id is gone. |
| BookService.RemoveUnknownId | services/book-service.ts:79 | Removing an id that is not stored changes nothing. |
| BookService.RemoveCount | services/book-service.ts:79 | Exactly the entries that carry the id are removed. |
| BookService.RemoveBook | services/book-service.ts:71-87 | Throws exactly when storage is unavailable. Otherwise it stores the list without the entries of that id. |
| BookService.AddKey | services/book-service.ts:109 | Setting a key on a `Map` adds it to the key set. |
| BookService.AddKeys | services/book-service.ts:98-109 | Setting several keys keeps the old keys first, in order, and adds the new ones. |
| BookService.Lookup | services/book-service.ts:98 | `map.get` finds an entry with the key exactly when the key is present. |
| BookService.LastWithId | services/book-service.ts:101-110 | The last entry with a given id, which is the one a run of `set` leaves behind. |
| BookService.UpsertIds | services/book-service.ts:109 | `map.set` keeps an existing key in place and appends a new one. |
| BookService.UpsertLookup | services/book-service.ts:109 | After `set`, the key reads the new value and every other key reads what it read before. |
| BookService.UpsertAllIds | services/book-service.ts:101-110 | Keys after a run of `set` follow `Map` insertion order. |
| BookService.UpsertAllLookup | services/book-service.ts:101-110 | Each key holds the last value set for it, or else its old value. |
| BookService.AddKeysDistinct | services/book-service.ts:98-113 | `Map` keys stay pairwise distinct. |
| BookService.UpsertAllFresh | services/book-service.ts:101-110 | Entries whose ids are all new are simply appended. |
| BookService.UpsertAllSelf | services/book-service.ts:98-113 | Setting every entry of a list with distinct ids into its own map changes nothing. |
| BookService.Prepare | services/book-service.ts:102-108 | Each imported book is defaulted with its own fresh id. |
| BookService.ImportBooks | services/book-service.ts:90-123 | Throws exactly when storage is unavailable. Otherwise it stores and returns the merge of the prepared imports into the stored list, whose ids are distinct and are the union of both id sets. |
| BookService.MergeOrder | services/book-service.ts:98-113 | The merged ids are the stored ids, then each new imported id at its first occurrence, all distinct. |
| BookService.MergeKeepsStoredOrder | services/book-service.ts:98-113 | Stored ids that are already distinct keep their positions at the front. |
| BookService.MergeValues | services/book-service.ts:98-113 | Under each id the merged list holds the last import with that id, or else the stored entry. |
| BookService.ImportedEntriesDefaulted | services/book-service.ts:90-123 | After an import, each imported id is non-empty. Its entry is the last import carrying that id, and it has a reading status. |
| BookService.ImportSnapshotIdempotent | services/book-service.ts:90-123 | Re-importing the stored list, when its ids are distinct and its books defaulted, leaves storage unchanged. |
| UseBooks.Load | hooks/use-books.ts:13-29 | After mounting, the in-memory list equals storage and no error is shown. |
| UseBooks.AddBook | hooks/use-books.ts:32-42 | Fails exactly when the service does. On success the returned book is appended. An in-sync copy stays in sync. |
| UseBooks.UpdateBook | hooks/use-books.ts:45-55 | Fails exactly when the service does. On success the same replacement by id is applied. An in-sync copy stays in sync. |
| UseBooks.RemoveBook | hooks/use-books.ts:58-67 | Fails exactly when the service does. On success the same removal by id is applied. An in-sync copy stays in sync. |
| UseBooks.ImportBooksAsWritten | hooks/use-books.ts:70-91 | The copy merges the imports as passed in, without the ids and statuses the service assigned. |
| UseBooks.ImportAsWrittenDiverges | hooks/use-books.ts:73-84 | Importing a book without an id into an empty, in-sync store leaves the copy out of sync with storage. |
| UseBooks.ImportAsWrittenSyncsDefaulted | hooks/use-books.ts:73-84 | When every import already has an id and a status, the as-written copy stays in sync. |
| UseBooks.ImportBooks | hooks/use-books.ts:70-91 | The corrected import takes the list the service stored, so after success the copy equals storage. |
| UseBooks.Apply | hooks/use-books.ts:32-91 | In the corrected hook, any single call that runs to completion before the next starts keeps an in-sync copy in sync. |
| UseBooks.RunStaysInSync | hooks/use-books.ts:13-91 | In the corrected hook, with each call finished before the next starts, any run of calls, failed or not, keeps the in-memory list equal to storage. |
| BookSearch.SearchGoogle | services/book-search-service.ts:32-63 | Answers exactly when the response has a non-empty item list. It maps the first item with a fallback for each missing field: "Titre inconnu", "Auteur inconnu", "Éditeur inconnu", "Date inconnue", "" for the description and the cover, 0 pages and "Genre non spécifié". |
| BookSearch.GoogleEmptyAuthors | services/book-search-service.ts:43 | An empty author array gives the author "", not the unknown-author fallback. |
| BookSearch.SubjectText | services/book-search-service.ts:94 | A subject string is its own text. A subject object gives its name, or "[object Object]" when it has no non-empty name. |
| BookSearch.CoverUrl | services/book-search-service.ts:87 | The cover is one of the medium, large or small images, the medium one whenever it is non-empty. It is "" exactly when none of the three is a non-empty string. |
| BookSearch.SearchOpenLibrary | services/book-search-service.ts:66-106 | Answers exactly when the record under `ISBN:<isbn>` exists. Authors and publishers are joined, or fall back to "Auteur inconnu" and "Éditeur inconnu". The date falls back to "Date inconnue", the description to the first excerpt or "", the page count to 0, and the genre to "Genre non spécifié" when there are no subjects, otherwise the first three. |
| BookSearch.OpenLibraryDescription | services/book-search-service.ts:88 | Non-empty notes win; any other non-empty description is the first excerpt's text. |
| BookSearch.XmlMatch | services/book-search-service.ts:119-123 | Gives the leftmost opening tag and the nearest closing tag after it, or no match when there is none. |
| BookSearch.GetXmlValue | services/book-search-service.ts:119-123 | The text between the matched tags, or "" when nothing matches. |
| BookSearch.GetXmlValueSingle | services/book-search-service.ts:119-123 | In `pre<tag>body</tag>post` with no '<' in `pre` or `body`, the extracted value is `body`. |
| BookSearch.SearchBnf | services/book-search-service.ts:109-152 | Answers exactly when the response has a title element and does not report zero records. Title, author, publisher, date and genre are extracted, or fall back to "Titre inconnu", "Auteur inconnu", "Éditeur inconnu", "Date inconnue" and "Genre non spécifié". The description is extracted or "", the cover is "", and the page count is 0. |
| BookSearch.BnfUnclosedTitle | services/book-search-service.ts:117-125 | An unclosed title tag still counts as a hit, with the unknown-title fallback. |
| BookSearch.SearchWorldCat | services/book-search-service.ts:155-180 | Any successful status yields the placeholder record: fixed title, author and publisher, an empty date and cover, 0 pages, "Non spécifié" as genre, and a description ending in the search-page URL. |
| BookSearch.Answers | services/book-search-service.ts:9-22 | The four catalogues in the order tried: Google Books, Open Library, BNF, WorldCat. |
| BookSearch.FirstHit | services/book-search-service.ts:9-24 | The first present answer wins and later ones are not consulted. It fails only when every answer is absent. |
| BookSearch.SearchByIsbn | services/book-search-service.ts:6-29 | Returns the first catalogue's answer, after exactly the catalogues that did not answer. When none answers it throws "not found". |
| BookSearch.WorldCatOkNeverFails | services/book-search-service.ts:20-24 | A successful WorldCat request means the search never throws. |
| BookSearch.CoverQuery | services/book-search-service.ts:185 | The query is `title author` with every space replaced by '+'. |
| BookSearch.SpacesToPlus | services/book-search-service.ts:185 | Every space becomes '+', and nothing else changes. |
| BookSearch.Thumbnails | services/book-search-service.ts:189-197 | Equals the `.map` result, with a missing or empty thumbnail falsy, filtered to its non-empty strings, in item order. A text is kept exactly when it is non-empty and some item carries it. |
| BookSearch.ThumbnailTextsHave | services/book-search-service.ts:190 | A non-empty text comes out of the `.map` step exactly when some item carries it. |
| BookSearch.ThumbnailsInOrder | services/book-search-service.ts:189-197 | The covers are a subsequence of the mapped items, one per non-empty text. |
| BookSearch.SearchBookCovers | services/book-search-service.ts:183-198 | No items or a failed request give no covers. Otherwise it gives the non-empty thumbnails in item order, and exactly those. |
| Scanner.Initial | hooks/use-barcode-scanner.ts:8-15 | Starts not scanning, with nothing pending or in flight. |
| Scanner.Mount | hooks/use-barcode-scanner.ts:19-25 | A library already on the page counts as loaded. Otherwise nothing changes. |
| Scanner.StopCamera | hooks/use-barcode-scanner.ts:142-160 | Scanning is off afterwards, and nothing else changes. |
| Scanner.Unmount | hooks/use-barcode-scanner.ts:28-34 | Scanning, loading and the error are cleared. |
| Scanner.StartCamera | hooks/use-barcode-scanner.ts:119-139 | Clears the error and schedules a start when the library is loaded. Otherwise it reports that the library is not loaded. |
| Scanner.CameraTimer | hooks/use-barcode-scanner.ts:134-138 | The start timer switches scanning on. |
| Scanner.InitFailed | hooks/use-barcode-scanner.ts:67-110 | A failed or throwing init turns scanning off with its own message, in any state, including a late callback after a stop. |
| Scanner.Detected | hooks/use-barcode-scanner.ts:79-103 | A code of at least ten characters stops the camera, is recorded and is queued for lookup. A shorter code changes nothing. |
| Scanner.FetchStart | hooks/use-barcode-scanner.ts:163-169 | Starting a lookup sets loading, clears the error and the source, and logs the ISBN. |
| Scanner.LookupTimer | hooks/use-barcode-scanner.ts:97-100 | The oldest queued code is looked up. |
| Scanner.LookupDone | hooks/use-barcode-scanner.ts:171-185 | A found book goes to the callback and clears the last code. A miss shows the not-found message. Loading ends either way. |
| Scanner.ImageDecoded | hooks/use-barcode-scanner.ts:191-240 | A decoded code is looked up with no length check. No code shows an error. |
| Scanner.ManualSearch | hooks/use-barcode-scanner.ts:243-255 | The trimmed input is looked up exactly when it has at least ten characters. Otherwise an error is shown. |
| Scanner.ScriptLoad | hooks/use-barcode-scanner.ts:265-269 | After the script loads, the library counts as loaded. |
| Scanner.ScriptError | hooks/use-barcode-scanner.ts:272-276 | After a script error, the error flag is set and loaded is cleared. If the scanner is on, the effect's cleanup stops the camera; otherwise scanning is unchanged. |
| Scanner.Next | hooks/use-barcode-scanner.ts:19-276 | Every event keeps the invariant, and no event but a decoded image looks up a short code. |
| Scanner.InitialInv | hooks/use-barcode-scanner.ts:8-15 | The initial state satisfies the invariant. |
| Scanner.RunInv | hooks/use-barcode-scanner.ts:19-276 | Any run of events keeps the invariant. |
| Scanner.StopCameraIdempotent | hooks/use-barcode-scanner.ts:142-160 | Stopping the camera a second time changes nothing. |
| Scanner.LateInitFailureShowsError | hooks/use-barcode-scanner.ts:67-73 | An init error that arrives after a stop still shows its message and leaves scanning off. |
| Scanner.SimulateLooksUpTestIsbn | hooks/use-barcode-scanner.ts:258-262 | The simulated scan starts a lookup of "9782253093008", with loading on and the error cleared. |
| Scanner.ImageSkipsLengthCheck | hooks/use-barcode-scanner.ts:221-231 | A decoded image shorter than ten characters is still looked up. |
| Scanner.RunLookupsLongEnough | hooks/use-barcode-scanner.ts:85 | Over any run without decoded images, only codes of at least ten characters are looked up. |
| Scanner.FoundBookDelivered | hooks/use-barcode-scanner.ts:171-179 | A lookup answered with a book hands exactly that book to the callback. |
| BookList.FilteredBooks | components/book-list.tsx:53-63 | The list shown is a subsequence of the books, keeping exactly those matching both the search and the genre. Its length is the number of matching books, so every matching occurrence shows, in order. |
| BookList.EmptySearchShowsAll | components/book-list.tsx:53-63 | With an empty search and no genre, every book is shown. |
| BookList.GenreFilterExact | components/book-list.tsx:60 | With a genre selected, every shown book has exactly that genre. |
| BookList.StrLessIrreflexive | components/book-list.tsx:50 | The default string order never puts a string before itself. |
| BookList.StrLessAsymmetric | components/book-list.tsx:50 | The default string order is asymmetric. |
| BookList.StrLessTransitive | components/book-list.tsx:50 | The default string order is transitive. |
| BookList.StrLessTotal | components/book-list.tsx:50 | The default string order is total on distinct strings. |
| BookList.InsertString | components/book-list.tsx:50 | Inserting a new string into a strictly sorted list keeps it strictly sorted, with the same members plus the new one. |
| BookList.SortStrings | components/book-list.tsx:50 | Sorting distinct strings gives a strictly sorted list of the same members. |
| BookList.Dedupe | components/book-list.tsx:48 | Removing duplicates keeps each value once and loses none. |
| BookList.UniqueGenres | components/book-list.tsx:48-50 | The badges are strictly sorted and show exactly the non-empty genres of the books. |
| BookList.SortedUnique | components/book-list.tsx:48-50 | A strictly sorted list is determined by its members, so the badges do not depend on the order of the books. |
| BookList.ToggleGenre | components/book-list.tsx:205-215 | Clicking a badge selects it unless it was already selected, in which case the selection is cleared. |
| BookList.FindLabel | components/book-list.tsx:188 | `find` gives the label of the first entry with the value, or nothing when no entry has it. |
| BookList.StatusLabel | components/book-list.tsx:187-189 | The label is always one of the three status labels. |
| BookList.StatusLabelOfStatus | components/book-list.tsx:173-189 | Each status shows its own label, and a missing or unknown status reads "Pas lu". |
| BookList.EditChange | components/book-list.tsx:66-73 | An edit sets the field on the open book and leaves the other fields. Nothing happens without an open book. |
| BookList.EditThenSaveStores | components/book-list.tsx:66-81 | Editing a field of the open book and saving it closes the dialog and stores the new value in every entry with that book's id. Those entries keep the book's other fields, and every other entry is unchanged. |
| BookList.SelectCover | components/book-list.tsx:101-109 | Choosing a cover sets it on the open book and clears the results. |
| BookList.CoverResults | components/book-list.tsx:84-98 | Nothing happens without an open book. Otherwise the picker shows the non-empty thumbnails of the response in item order, and nothing when the search found no items or failed. |
| BookList.WithId | components/book-list.tsx:150-153 | An imported book keeps its id, or takes the fresh one when it has none, and nothing else changes. |
| BookList.HandleImport | components/book-list.tsx:135-170 | A parse error and a non-array or empty array each alert. A declined confirmation does nothing. Otherwise there is one update per book, with ids filled in. |
| BookList.UpdateAll | components/book-list.tsx:148-155 | Updates that each finish before the next starts keep the stored list's length, and each entry ends as it was or as an update carrying its id. Unavailable storage is left alone. |
| BookList.ImportNeverAdds | components/book-list.tsx:148-155 | Importing through updates never changes the stored ids, so it never adds a book. |
| BookList.ImportUnknownBookDropped | components/book-list.tsx:148-155 | An imported book whose id is not stored is dropped. |
| BookList.ImportUpdatesAsWritten | components/book-list.tsx:148-155 | With the updates started without awaiting, storage ends as the list read before the import with only the last update applied, while the in-memory list applies every update. The stored ids do not change. |
| BookList.ImportOverlapLosesUpdate | components/book-list.tsx:148-155 | Importing edits of both books of a two-book store: storage keeps only the second edit, the in-memory list has both, and the two disagree. |
| BookList.ImportUpdatesAwaited | components/book-list.tsx:148-155 | With each update awaited through the hook, storage ends as the sequential updates leave it, and an in-sync list stays in sync. |
| BookList.ImportAwaitedKeepsEveryUpdate | components/book-list.tsx:148-155 | With the updates awaited, both edits of the two-book example reach storage and the in-memory list agrees. |
| AddBookForm.SetText | components/add-book-form.tsx:55-58 | The named input takes the value, and nothing else changes. |
| AddBookForm.SetPageCount | components/add-book-form.tsx:60-63 | The page count becomes the parsed integer, or 0 when the input does not parse. |
| AddBookForm.SetGenre | components/add-book-form.tsx:65-67 | Only the genre changes. |
| AddBookForm.SetStatus | components/add-book-form.tsx:70-72 | Only the reading status changes. |
| AddBookForm.Submit | components/add-book-form.tsx:75-109 | Rejected exactly when the title or author is empty, keeping the form. Otherwise it builds the book from every form field with the default genre, leaves the fields the form lacks unset, and resets the form. |
| AddBookForm.SubmitDefaults | components/add-book-form.tsx:19-30 | An untouched form submits the default genre, "unread", 0 pages and an empty ISBN. |
| AddBookForm.SubmittedBookStoredAsIs | components/add-book-form.tsx:82-94 | A submitted book is stored exactly as the form built it. |
| PrintWidget.Row | TDN_gris_impression_widget.js:53-59 | A row holds each array column's entry at that index. |
| PrintWidget.Rows | TDN_gris_impression_widget.js:49-61 | There is one row per entry of the id column, in order. |
| PrintWidget.ConvertGristRecords | TDN_gris_impression_widget.js:49-61 | The records are exactly the rows with a defined id, in order. There are none without an id array. |
| PrintWidget.RowKeptIffIdDefined | TDN_gris_impression_widget.js:52-60 | A row is kept exactly when its id entry is defined. |
| PrintWidget.FetchCommerces | TDN_gris_impression_widget.js:29-47 | No distributor id or a failed fetch gives no merchants. Otherwise it gives the records whose distributor list includes the id, in table order: a subsequence of the records, one per assigned record. |
| PrintWidget.Total | TDN_gris_impression_widget.js:106 | With no merchants the total is 0. When no count is negative, every merchant's count lies between 0 and the total. |
| PrintWidget.TotalAppend | TDN_gris_impression_widget.js:106 | The total splits over concatenation. |
| PrintWidget.TotalNonNegative | TDN_gris_impression_widget.js:106 | Non-negative counts give a non-negative total. |
| PrintWidget.SumTirelires | TDN_gris_impression_widget.js:106 | The loop computes the `reduce` total. |
| PrintWidget.Summarise | TDN_gris_impression_widget.js:96-120 | With no merchants the summary says so. Otherwise it gives the number of merchants and their total. |

## Left out

- I/O is out of scope: `localStorage`, JSON text, `fetch`, `FileReader`, the camera library, audio feedback and `console` logging. Their results are parameters or events.
- Time is out of scope: timer delays are events without durations, and `Date.now`/`Math.random` identifiers are parameters.
- The service's `exportBooks` and the hook's `exportBooks` are not modelled. They only pretty-print the list as JSON.
- The list view's export handler is not modelled, for the same reason.
- The hook's `isLoading` flag is not modelled. The load-error branch is unreachable, because `getBooks` never throws.
- Rendering is out of scope, including icons and the genre choices offered by the edit dialog.
- Text handling is ASCII-only: `toLowerCase` lowers only ASCII letters, and `\s` matches only ASCII whitespace.
- Strings are sequences of characters, while JavaScript strings are sequences of UTF-16 code units. A character outside the Basic Multilingual Plane counts once here and twice in JavaScript. So every `.length` check differs for such text: ISBN cleaning and validation lengths, `formatIsbn`'s substrings, and the scanner's ten-character checks. For example, `|CleanIsbn("123456789\u{1F600}")|` is 10 here, while JavaScript's length is 11. The default string sort, which compares code units, also differs there.
- Book fields hold values of their declared types only. Imported JSON with other value types is not modelled.
- `localeCompare` is an arbitrary comparison, constrained only by the sign flip.
- A storage write never fails: quota errors are not modelled.
- UseBooks.RunStaysInSync: holds for calls that each finish before the next starts. Overlapping calls that a user starts while an earlier one is pending are not modelled. The one overlap the code itself creates, the file import, is modelled by `BookList.ImportUpdatesAsWritten`.
- UseBooks.Apply: the same restriction to calls that run one after another.
- Scanner.Enabled: a detection or an init failure may arrive whenever the library is present, including after the camera stopped. This covers every time the source can deliver one. Two details are not modelled: repeated inits registering the detection handler again, so that one code is queued once per registration; and the library's own running state, which `stopCamera` consults through `_isInitialized` before calling `stop`.
- Scanner.ScriptError: the effect's cleanup is modelled only for the script error. When `isScanning` changes, the cleanup's `stopCamera` only repeats what the handler already did.
- BookUtils.SortBooksStable: stability is proved when the comparator's ties form classes. `CompareBooks` ties a non-string value with everything, so on a field that mixes numbers and strings, such as `pageCount` or `rating`, the lemma does not apply. `SortBooks` still returns a list already in order unchanged.
- BookUtils.GroupBooksByField: keys are kept in first-occurrence order. A JavaScript object lists integer-like keys first, so the model's key order can differ; the group contents do not.
- The request URLs and the cover search's `maxResults=5` are not modelled: each response is a parameter.
- BookSearch.WorldCatOkNeverFails: states only that the search succeeds. An earlier catalogue may still answer first, which `SearchByIsbn` states.
- PrintWidget.NumberOf: cells are integers, strings (through a parameter for `Number()`), booleans or arrays. An array counts as 0, although `Number()` converts a one-element array to its element. Fractions and `NaN` are not modelled.
- PrintWidget.SameValueZero: arrays compare by reference, so a fresh cell never equals one.
- The list view's genre filter compares exactly, while `filterBooks` matches substrings. The code does this, and the model follows it.
- `filterBooks` on a `tags` array entry compares by reference, so it never matches.

## Findings

| source | as written | input that shows it | evidently intended | confidence | as-written member | corrected member |
|---|---|---|---|---|---|---|
| utils/book-utils.ts:19-22 | the ISBN-10 pattern `[\dX]{10}` allows 'X' anywhere | "X123456789" is accepted | 'X' only as the tenth character, as the comment says | likely; not executed | BookUtils.IsValidIsbnAcceptsLeadingX | BookUtils.IsValidIsbnStrict, BookUtils.StrictRejectsLeadingX |
| utils/book-utils.ts:73-75 | string filter values match by substring, the reading status included | filter `{ readingStatus: "read" }` keeps a book whose status is "unread" | the enumerated status compared exactly | likely; not executed | BookUtils.FilterBooksReadMatchesUnread | BookUtils.FilterBooksExact, BookUtils.FilterBooksExactStatus |
| hooks/use-books.ts:73-84 | the in-memory list merges the imports as passed in | importing `[{ id: "", … }]` into an empty store: storage holds the book under a generated id, the in-memory list under "" | the in-memory list equals what the service stored and returned | likely; not executed | UseBooks.ImportBooksAsWritten, UseBooks.ImportAsWrittenDiverges | UseBooks.ImportBooks, UseBooks.RunStaysInSync |
| components/book-list.tsx:148-155 | `forEach` starts one `updateBook` per imported book without awaiting it. Each call reads storage (services/book-service.ts:55) before any call writes (services/book-service.ts:61), so every write starts from the same list and the last one wins | a store holding books "1" and "2" and a file with edits of both: storage keeps book "1" unedited and "2" edited, while the list shown has both edits | each update awaited, so that every edit reaches storage and the list shown agrees with it | likely; not executed | BookList.ImportUpdatesAsWritten, BookList.ImportOverlapLosesUpdate | BookList.ImportUpdatesAwaited, BookList.ImportAwaitedKeepsEveryUpdate |
| utils/book-utils.ts:86-93 | groups live in a plain object `{}` | grouping by genre a book whose genre is "constructor": `groups["constructor"]` is the inherited function, so no group is created and `push` throws | every key gets its own group | likely; not executed | BookUtils.GroupBooksByFieldAsWritten, BookUtils.GroupByGenreConstructorThrows | BookUtils.GroupBooksByField, BookUtils.GroupedOnce |

=== FILE: add_book_form.dfy ===
/** The add-book form: its state, the field handlers, and the submit
    handler's validation, defaulting and reset. */
module AddBookForm {
  import opened Wrappers
  import opened Text
  import opened Books
  import BS = BookService

  /** The form's partial book. */
  datatype Form = Form(
    title: string,
    author: string,
    isbn: string,
    publisher: string,
    publishedDate: string,
    coverUrl: string,
    description: string,
    pageCount: int,
    genre: string,
    readingStatus: ReadingStatus)

  /** The state the form starts in and returns to after each submission. */
  const InitialForm := Form("", "", "", "", "", "", "", 0, "", Unread)

  /** The text inputs, named as the fields they edit. */
  datatype TextInput = TitleInput | AuthorInput | IsbnInput | PublisherInput | DateInput | CoverInput | DescriptionInput

  function TextOf(f: Form, i: TextInput): string {
    match i
    case TitleInput => f.title
    case AuthorInput => f.author
    case IsbnInput => f.isbn
    case PublisherInput => f.publisher
    case DateInput => f.publishedDate
    case CoverInput => f.coverUrl
    case DescriptionInput => f.description
  }

  /** `handleChange`: the named input takes the value; nothing else changes. */
  function SetText(f: Form, i: TextInput, value: string): (r: Form)
    ensures TextOf(r, i) == value
    ensures forall j :: j != i ==> TextOf(r, j) == TextOf(f, j)
    ensures r.pageCount == f.pageCount && r.genre == f.genre && r.readingStatus == f.readingStatus
  {
    match i
    case TitleInput => f.(title := value)
    case AuthorInput => f.(author := value)
    case IsbnInput => f.(isbn := value)
    case PublisherInput => f.(publisher := value)
    case DateInput => f.(publishedDate := value)
    case CoverInput => f.(coverUrl := value)
    case DescriptionInput => f.(description := value)
  }

  /** `handleNumberChange` on the page count: the parsed integer, or 0 when
      the input does not parse. */
  function SetPageCount(f: Form, parsed: Option<int>): (r: Form)
    ensures r.pageCount == (if parsed.Some? then parsed.value else 0)
    ensures r.(pageCount := f.pageCount) == f
  {
    f.(pageCount := parsed.GetOr(0))
  }

  function SetGenre(f: Form, g: string): (r: Form)
    ensures r.genre == g && r.(genre := f.genre) == f
  {
    f.(genre := g)
  }

  function SetStatus(f: Form, st: ReadingStatus): (r: Form)
    ensures r.readingStatus == st && r.(readingStatus := f.readingStatus) == f
  {
    f.(readingStatus := st)
  }

  const MissingFieldsAlert := "Veuillez remplir au moins le titre et l'auteur."
  const DefaultGenre := "Non spécifié"

  /** The outcome of a submission: an alert with the form kept, or the book
      handed to the add callback with the form reset. */
  datatype Submission = Rejected(alert: string, form: Form) | Submitted(book: Book, form: Form)

  /** `handleSubmit`, with the timestamp used as the id as a parameter. */
  function Submit(f: Form, stamp: string): (r: Submission)
    ensures r.Rejected? <==> f.title == "" || f.author == ""
    ensures r.Rejected? ==> r.alert == MissingFieldsAlert && r.form == f
    ensures r.Submitted? ==>
      && r.form == InitialForm
      && r.book.id == stamp
      && r.book.title == f.title && r.book.author == f.author
      && r.book.genre == (if f.genre != "" then f.genre else DefaultGenre)
      && r.book.readingStatus == Some(f.readingStatus)
      && r.book.pageCount == Some(f.pageCount)
      && r.book.isbn == Some(f.isbn) && r.book.publisher == Some(f.publisher)
      && r.book.publishedDate == Some(f.publishedDate) && r.book.coverUrl == Some(f.coverUrl)
      && r.book.description == Some(f.description)
      && r.book.language.None? && r.book.rating.None? && r.book.notes.None? && r.book.tags.None?
      && r.book.dateAdded.None? && r.book.dateModified.None?
  {
    if f.title == "" || f.author == "" then Rejected(MissingFieldsAlert, f)
    else
      Submitted(Book(stamp, f.title, f.author, Or(Some(f.genre), DefaultGenre),
                     Some(f.publisher), Some(f.publishedDate), Some(f.isbn), Some(f.coverUrl),
                     Some(f.description), Some(f.pageCount), Some(f.readingStatus),
                     None, None, None, None, None, None),
                InitialForm)
  }

  /** A fresh form with the defaults untouched submits a book whose genre is
      the default and whose status is unread. */
  lemma SubmitDefaults(title: string, author: string, stamp: string)
    requires title != "" && author != ""
    ensures var r := Submit(InitialForm.(title := title, author := author), stamp);
            r.Submitted? && r.book.genre == DefaultGenre && r.book.readingStatus == Some(Unread) &&
            r.book.pageCount == Some(0) && r.book.isbn == Some("")
  {
  }

  /** A submitted book with a non-empty timestamp is stored exactly as the
      form built it: the service's defaulting has nothing left to fill. */
  lemma SubmittedBookStoredAsIs(f: Form, stamp: string, st: BS.Store, freshId: string)
    requires stamp != "" && freshId != "" && st.available
    requires Submit(f, stamp).Submitted?
    ensures var b := Submit(f, stamp).book;
            BS.GetBooks(BS.AddBook(st, b, freshId).store) == BS.GetBooks(st) + [b]
  {
    BS.WithDefaultsKeepsRest(Submit(f, stamp).book, freshId);
  }
}

=== FILE: book_list.dfy ===
/** The book-list view's logic: the text and genre filter, the genre
    badges, the edit dialog, the cover picker, the status labels and the
    file import, which goes through the update operation one book at a
    time. Rendering is left out. */
module BookList {
  import opened Wrappers
  import opened Text
  import opened Books
  import Seqs
  import BS = BookService
  import UB = UseBooks
  import BookSearch

  // ---------------------------------------------------------- search filter

  /** A present, non-empty optional field that contains the lowered term. */
  predicate OptionalContains(o: Option<string>, term: string) {
    o.Some? && o.value != "" && Contains(Lower(o.value), Lower(term))
  }

  /** The search box: title, author, ISBN or publisher contains the term,
      ignoring ASCII case. */
  predicate MatchesSearch(b: Book, term: string) {
    || Contains(Lower(b.title), Lower(term))
    || Contains(Lower(b.author), Lower(term))
    || OptionalContains(b.isbn, term)
    || OptionalContains(b.publisher, term)
  }

  /** The genre badge: no selection (or an empty one) keeps every book,
      otherwise the genre must be equal. */
  predicate MatchesGenre(b: Book, genre: Option<string>) {
    genre.None? || genre.value == "" || b.genre == genre.value
  }

  function Visible(term: string, genre: Option<string>): Book -> bool {
    (b: Book) => MatchesSearch(b, term) && MatchesGenre(b, genre)
  }

  /** The list shown: the books matching both the search and the genre, in order. */
  function FilteredBooks(books: seq<Book>, term: string, genre: Option<string>): (r: seq<Book>)
    ensures Seqs.Subsequence(r, books)
    ensures forall b :: b in r <==> b in books && MatchesSearch(b, term) && MatchesGenre(b, genre)
    ensures |r| == Seqs.Count(Visible(term, genre), books)
  {
    Seqs.FilterCount(Visible(term, genre), books);
    Seqs.Filter(Visible(term, genre), books)
  }

  /** The empty term occurs in every title, so with no genre selected the
      whole list shows. */
  lemma EmptySearchShowsAll(books: seq<Book>)
    ensures FilteredBooks(books, "", None) == books
  {
    forall b | b in books
      ensures Visible("", None)(b)
    {
      assert OccursAt(Lower(b.title), Lower(""), 0);
    }
    Seqs.FilterAll(Visible("", None), books);
  }

  /** With a genre selected, every shown book has exactly that genre. */
  lemma GenreFilterExact(books: seq<Book>, term: string, g: string)
    requires g != ""
    ensures forall i :: 0 <= i < |FilteredBooks(books, term, Some(g))| ==>
      FilteredBooks(books, term, Some(g))[i].genre == g
  {
    var r := FilteredBooks(books, term, Some(g));
    assert forall i :: 0 <= i < |r| ==> r[i] in r;
  }

  // ------------------------------------------------------------ genre badges

  /** JavaScript's default sort order on strings: lexicographic on characters. */
  predicate StrLess(a: string, b: string)
    decreases |a|
  {
    if a == [] then b != []
    else if b == [] then false
    else if a[0] != b[0] then a[0] < b[0]
    else StrLess(a[1..], b[1..])
  }

  lemma {:induction false} StrLessIrreflexive(a: string)
    ensures !StrLess(a, a)
    decreases |a|
  {
    if a != [] {
      StrLessIrreflexive(a[1..]);
    }
  }

  lemma {:induction false} StrLessAsymmetric(a: string, b: string)
    requires StrLess(a, b)
    ensures !StrLess(b, a)
    decreases |a|
  {
    if a != [] && b != [] && a[0] == b[0] {
      StrLessAsymmetric(a[1..], b[1..]);
    }
  }

  lemma {:induction false} StrLessTransitive(a: string, b: string, c: string)
    requires StrLess(a, b) && StrLess(b, c)
    ensures StrLess(a, c)
    decreases |a|
  {
    if a != [] && b != [] && c != [] && a[0] == b[0] && b[0] == c[0] {
      StrLessTransitive(a[1..], b[1..], c[1..]);
    }
  }

  lemma {:induction false} StrLessTotal(a: string, b: string)
    requires a != b
    ensures StrLess(a, b) || StrLess(b, a)
    decreases |a|
  {
    if a != [] && b != [] && a[0] == b[0] {
      assert a == [a[0]] + a[1..] && b == [b[0]] + b[1..];
      StrLessTotal(a[1..], b[1..]);
    }
  }

  /** Strictly increasing, hence without repeats. */
  ghost predicate StrictlySorted(s: seq<string>) {
    forall i, j :: 0 <= i < j < |s| ==> StrLess(s[i], s[j])
  }

  ghost predicate Distinct(s: seq<string>) {
    forall i, j :: 0 <= i < j < |s| ==> s[i] != s[j]
  }

  lemma SortedDistinct(s: seq<string>)
    requires StrictlySorted(s)
    ensures Distinct(s)
  {
    forall i, j | 0 <= i < j < |s|
      ensures s[i] != s[j]
    {
      if s[i] == s[j] {
        StrLessIrreflexive(s[i]);
      }
    }
  }

  /** Inserts a new string into a strictly sorted list. */
  function InsertString(x: string, s: seq<string>): (r: seq<string>)
    requires StrictlySorted(s) && x !in s
    ensures StrictlySorted(r)
    ensures |r| == |s| + 1
    ensures forall y :: y in r <==> y == x || y in s
  {
    if s == [] then [x]
    else if StrLess(x, s[0]) then
      assert forall j :: 0 < j < |s| ==> StrLess(x, s[j]) by {
        forall j | 0 < j < |s|
          ensures StrLess(x, s[j])
        {
          StrLessTransitive(x, s[0], s[j]);
        }
      }
      [x] + s
    else
      StrLessTotal(x, s[0]);
      var t := InsertString(x, s[1..]);
      assert forall y :: y in s[1..] ==> StrLess(s[0], y);
      [s[0]] + t
  }

  /** `.sort()` on strings that are pairwise distinct. */
  function SortStrings(s: seq<string>): (r: seq<string>)
    requires Distinct(s)
    ensures StrictlySorted(r)
    ensures |r| == |s|
    ensures forall y :: y in r <==> y in s
  {
    if s == [] then []
    else
      var t := SortStrings(s[1..]);
      assert s[0] !in s[1..];
      InsertString(s[0], t)
  }

  /** `Array.from(new Set(s))`: each value once, at its first occurrence. */
  function Dedupe(s: seq<string>): (r: seq<string>)
    ensures Distinct(r)
    ensures forall y :: y in r <==> y in s
    decreases |s|
  {
    if s == [] then []
    else
      var r := Dedupe(s[..|s| - 1]);
      assert s == s[..|s| - 1] + [s[|s| - 1]];
      if s[|s| - 1] in r then r else r + [s[|s| - 1]]
  }

  function Genres(books: seq<Book>): (r: seq<string>)
    ensures |r| == |books| && forall i :: 0 <= i < |books| ==> r[i] == books[i].genre
  {
    if books == [] then [] else [books[0].genre] + Genres(books[1..])
  }

  /** The genre badges: every non-empty genre once, in sort order. */
  function UniqueGenres(books: seq<Book>): (r: seq<string>)
    ensures StrictlySorted(r)
    ensures forall g :: g in r <==> g != "" && exists i :: 0 <= i < |books| && books[i].genre == g
  {
    var d := Dedupe(Genres(books));
    var f := Seqs.Filter(BookSearch.NonEmpty, d);
    assert Distinct(f) by {
      DistinctSubsequence(f, d);
    }
    assert forall g :: g in Genres(books) <==> exists i :: 0 <= i < |books| && books[i].genre == g by {
      forall g | g in Genres(books)
        ensures exists i :: 0 <= i < |books| && books[i].genre == g
      {
        var i :| 0 <= i < |books| && Genres(books)[i] == g;
      }
      forall g | exists i :: 0 <= i < |books| && books[i].genre == g
        ensures g in Genres(books)
      {
        var i :| 0 <= i < |books| && books[i].genre == g;
        assert Genres(books)[i] == g;
      }
    }
    SortStrings(f)
  }

  lemma {:induction false} DistinctSubsequence(a: seq<string>, b: seq<string>)
    requires Seqs.Subsequence(a, b) && Distinct(b)
    ensures Distinct(a)
    decreases |b|
  {
    if a != [] && b != [] {
      if a[0] == b[0] && Seqs.Subsequence(a[1..], b[1..]) {
        DistinctSubsequence(a[1..], b[1..]);
        SubsequenceMembers(a[1..], b[1..]);
        forall i, j | 0 <= i < j < |a|
          ensures a[i] != a[j]
        {
          if i == 0 {
            assert a[j] == a[1..][j - 1];
            assert a[j] in a[1..];
            assert a[j] in b[1..];
            var k :| 0 <= k < |b[1..]| && b[1..][k] == a[j];
            assert b[k + 1] == a[j];
          } else {
            assert a[i] == a[1..][i - 1] && a[j] == a[1..][j - 1];
          }
        }
      } else {
        DistinctSubsequence(a, b[1..]);
      }
    }
  }

  lemma {:induction false} SubsequenceMembers<T>(a: seq<T>, b: seq<T>)
    requires Seqs.Subsequence(a, b)
    ensures forall x :: x in a ==> x in b
    decreases |b|
  {
    if a != [] && b != [] {
      if a[0] == b[0] && Seqs.Subsequence(a[1..], b[1..]) {
        SubsequenceMembers(a[1..], b[1..]);
        assert a == [a[0]] + a[1..];
      } else {
        SubsequenceMembers(a, b[1..]);
      }
    }
  }

  /** A strictly sorted list is determined by its elements, so the badges
      do not depend on the order of the books. */
  lemma {:induction false} SortedUnique(a: seq<string>, b: seq<string>)
    requires StrictlySorted(a) && StrictlySorted(b)
    requires forall y :: y in a <==> y in b
    ensures a == b
    decreases |a|
  {
    if a != [] {
      assert a[0] in b;
    }
    if b != [] {
      assert b[0] in a;
    }
    if a != [] {
      var i :| 0 <= i < |b| && b[i] == a[0];
      var j :| 0 <= j < |a| && a[j] == b[0];
      SortedDistinct(a);
      SortedDistinct(b);
      if i != 0 {
        assert StrLess(b[0], a[0]) && b[0] != b[i];
        assert j != 0;
        assert StrLess(a[0], b[0]);
        StrLessAsymmetric(a[0], b[0]);
      }
      assert a == [a[0]] + a[1..] && b == [b[0]] + b[1..];
      forall y
        ensures y in a[1..] <==> y in b[1..]
      {
        if y in a[1..] {
          var k :| 0 <= k < |a[1..]| && a[1..][k] == y;
          assert a[k + 1] == y && a[0] != a[k + 1];
          assert y in b && y != b[0];
        }
        if y in b[1..] {
          var k :| 0 <= k < |b[1..]| && b[1..][k] == y;
          assert b[k + 1] == y && b[0] != b[k + 1];
          assert y in a && y != a[0];
        }
      }
      SortedUnique(a[1..], b[1..]);
    }
  }

  /** Clicking a genre badge selects it, or clears the selection when it was
      already selected; the "all" badge always clears it. */
  function ToggleGenre(current: Option<string>, clicked: string): (r: Option<string>)
    ensures r == Some(clicked) <==> current != Some(clicked)
    ensures r.Some? ==> r.value == clicked
  {
    if current == Some(clicked) then None else Some(clicked)
  }

  // ------------------------------------------------------------ status label

  /** The reading-status table: stored value and displayed label. */
  const StatusTable: seq<(string, string)> :=
    [("unread", "Pas lu"), ("reading", "En cours de lecture"), ("read", "Lu")]

  /** `find` on the table: the label of the first entry with that value. */
  function FindLabel(table: seq<(string, string)>, v: Option<string>): (r: Option<string>)
    ensures r.None? <==> forall i :: 0 <= i < |table| ==> Some(table[i].0) != v
    ensures r.Some? ==> exists i :: 0 <= i < |table| && Some(table[i].0) == v && table[i].1 == r.value &&
                          forall j :: 0 <= j < i ==> Some(table[j].0) != v
  {
    if table == [] then None
    else if Some(table[0].0) == v then Some(table[0].1)
    else
      var r := FindLabel(table[1..], v);
      assert forall i :: 0 < i < |table| ==> table[i] == table[1..][i - 1];
      r
  }

  /** `getReadingStatusLabel`: the table's label, else "Pas lu". */
  function StatusLabel(v: Option<string>): (r: string)
    ensures r in ["Pas lu", "En cours de lecture", "Lu"]
  {
    Or(FindLabel(StatusTable, v), "Pas lu")
  }

  /** Every status has its own label, a missing or unknown value reads as
      unread, and the label gives the status back. */
  lemma StatusLabelOfStatus(st: ReadingStatus, other: string)
    requires ParseStatus(other).None?
    ensures StatusLabel(Some(StatusName(st))) ==
      match st case Unread => "Pas lu" case Reading => "En cours de lecture" case Read => "Lu"
    ensures StatusLabel(None) == "Pas lu" && StatusLabel(Some(other)) == "Pas lu"
  {
    assert FindLabel(StatusTable, Some(other)).None? by {
      assert forall i :: 0 <= i < |StatusTable| ==> ParseStatus(StatusTable[i].0).Some?;
    }
  }

  // ------------------------------------------------------------ edit dialog

  /** A field edit in the dialog; nothing happens when no book is open. */
  function EditChange(editing: Option<Book>, f: Field, v: Value): (r: Option<Book>)
    requires Fits(f, v)
    ensures editing.None? ==> r.None?
    ensures editing.Some? ==>
      r.Some? && Get(r.value, f) == v && forall g :: g != f ==> Get(r.value, g) == Get(editing.value, g)
  {
    if editing.None? then None else Some(With(editing.value, f, v))
  }

  /** Saving hands the edited book to the update callback and closes the dialog. */
  function SaveEdit(editing: Option<Book>): (r: (Option<Book>, Option<Book>))
    ensures r.0 == editing && r.1.None?
  {
    (editing, None)
  }

  /** Editing a field of an open book and saving it stores the new value in
      every entry with that book's id and closes the dialog; every other
      field of those entries, and every other entry, is as the edited book
      or the store had it. */
  lemma EditThenSaveStores(st: BS.Store, b: Book, f: Field, v: Value)
    requires st.available && Fits(f, v) && f != Id
    ensures var saved := SaveEdit(EditChange(Some(b), f, v));
      && saved.1.None?
      && saved.0.Some?
      && var after := BS.GetBooks(BS.UpdateBook(st, saved.0.value).store);
      && |after| == |BS.GetBooks(st)|
      && forall i :: 0 <= i < |after| ==>
           if BS.GetBooks(st)[i].id == b.id
           then Get(after[i], f) == v && forall g :: g != f ==> Get(after[i], g) == Get(b, g)
           else after[i] == BS.GetBooks(st)[i]
  {
    var e := EditChange(Some(b), f, v).value;
    assert e.id == b.id by {
      assert Get(e, Id) == Get(b, Id);
    }
  }

  /** Choosing a cover sets it on the edited book and clears the results. */
  function SelectCover(editing: Option<Book>, results: seq<string>, url: string): (r: (Option<Book>, seq<string>))
    ensures editing.None? ==> r == (editing, results)
    ensures editing.Some? ==>
      && r.1 == []
      && r.0 == Some(editing.value.(coverUrl := Some(url)))
      && Get(r.0.value, CoverUrl) == Str(url)
  {
    if editing.None? then (editing, results) else (Some(editing.value.(coverUrl := Some(url))), [])
  }

  /** The cover search: nothing without an open book, otherwise the covers
      found for its title and author. */
  function CoverResults(editing: Option<Book>, results: seq<string>,
                        resp: Option<Option<seq<Option<string>>>>): (r: seq<string>)
    ensures editing.None? ==> r == results
    ensures editing.Some? && (resp.None? || resp.value.None?) ==> r == []
    ensures editing.Some? && resp.Some? && resp.value.Some? ==>
      r == Seqs.Filter(BookSearch.NonEmpty, BookSearch.ThumbnailTexts(resp.value.value))
    ensures editing.Some? && resp.Some? && resp.value.Some? ==>
      forall u :: u in r <==> u != "" && Some(u) in resp.value.value
  {
    if editing.None? then results else BookSearch.SearchBookCovers(resp)
  }

  // ------------------------------------------------------------ file import

  /** What `JSON.parse` of the file gave. */
  datatype Parsed = ParseError | NotArray | Array(books: seq<Book>)

  /** What the import handler does: an alert, nothing, or one update call per book. */
  datatype ImportAction = Alert(message: string) | Cancelled | Updates(books: seq<Book>)

  const NoBooksAlert := "Le fichier ne contient pas de données de livres valides."
  const ParseAlert := "Erreur lors de l'importation du fichier. Vérifiez que le format est correct."

  /** An imported book with an id: its own if it has one, else `freshId`. */
  function WithId(b: Book, freshId: string): (r: Book)
    ensures b.id != "" ==> r == b
    ensures b.id == "" ==> r.id == freshId
    ensures r == b.(id := r.id)
  {
    if b.id != "" then b else b.(id := freshId)
  }

  /** Each imported book with an id, keeping the one it has. */
  function WithIds(books: seq<Book>, freshIds: seq<string>): (r: seq<Book>)
    requires |freshIds| == |books|
    ensures |r| == |books|
    ensures forall i :: 0 <= i < |books| ==> r[i] == WithId(books[i], freshIds[i])
  {
    seq(|books|, i requires 0 <= i < |books| => WithId(books[i], freshIds[i]))
  }

  /** The file-import handler: a non-empty array, once confirmed, becomes a
      run of update calls; anything else is an alert. */
  function HandleImport(parsed: Parsed, confirmed: bool, freshIds: seq<string>): (r: ImportAction)
    requires parsed.Array? ==> |freshIds| == |parsed.books|
    ensures parsed.ParseError? ==> r == Alert(ParseAlert)
    ensures parsed.NotArray? || parsed == Array([]) ==> r == Alert(NoBooksAlert)
    ensures parsed.Array? && parsed.books != [] && !confirmed ==> r == Cancelled
    ensures r.Updates? ==> parsed.Array? && |r.books| == |parsed.books| > 0 && confirmed
    ensures r.Updates? ==> forall i :: 0 <= i < |r.books| ==>
      r.books[i] == WithId(parsed.books[i], freshIds[i])
  {
    match parsed
    case ParseError => Alert(ParseAlert)
    case NotArray => Alert(NoBooksAlert)
    case Array(bs) =>
      if bs == [] then Alert(NoBooksAlert)
      else if !confirmed then Cancelled
      else Updates(WithIds(bs, freshIds))
  }

  /** The update calls applied in turn to the store, each finishing before
      the next starts. The list keeps its length, and every entry ends as it
      was or as an update carrying its id. */
  function UpdateAll(st: BS.Store, us: seq<Book>): (r: BS.Store)
    ensures !st.available ==> r == st
    ensures |BS.GetBooks(r)| == |BS.GetBooks(st)|
    ensures forall i :: 0 <= i < |BS.GetBooks(r)| ==>
      BS.GetBooks(r)[i] == BS.GetBooks(st)[i] || (BS.GetBooks(r)[i] in us && BS.GetBooks(r)[i].id == BS.GetBooks(st)[i].id)
    decreases |us|
  {
    if us == [] then st
    else
      var r := UpdateAll(BS.UpdateBook(st, us[0]).store, us[1..]);
      assert forall x :: x in us[1..] ==> x in us;
      r
  }

  /** Importing a file never adds a book: the stored ids stay exactly as
      they were, so books whose ids are not already stored are dropped. */
  lemma {:induction false} ImportNeverAdds(st: BS.Store, us: seq<Book>)
    ensures BS.Ids(BS.GetBooks(UpdateAll(st, us))) == BS.Ids(BS.GetBooks(st))
    decreases |us|
  {
    if us != [] {
      var next := BS.UpdateBook(st, us[0]).store;
      if st.available {
        BS.ReplaceKeepsIds(BS.GetBooks(st), us[0]);
      }
      ImportNeverAdds(next, us[1..]);
    }
  }

  /** Importing a book whose id is not stored leaves the list untouched. */
  lemma ImportUnknownBookDropped(st: BS.Store, b: Book)
    requires b.id !in BS.Ids(BS.GetBooks(st))
    ensures BS.GetBooks(UpdateAll(st, [b])) == BS.GetBooks(st)
  {
    if st.available {
      BS.ReplaceUnknownId(BS.GetBooks(st), b);
    }
  }

  // ------------------------------------------------ overlapping update calls

  /** The in-memory list after each update's `setBooks(prev => prev.map(...))`:
      functional updates queue, so every replacement applies in turn. */
  function ReplaceAll(books: seq<Book>, us: seq<Book>): (r: seq<Book>)
    ensures |r| == |books|
    decreases |us|
  {
    if us == [] then books else ReplaceAll(BS.ReplaceById(books, us[0]), us[1..])
  }

  /** The import as written: `forEach` starts every update without awaiting
      it. Each service call reads storage before its first `await`, so all of
      them read the list as it was; their writes then land in call order,
      each replacing one book in that old list, and the last write wins. The
      hook's list applies every replacement. */
  function ImportUpdatesAsWritten(st: BS.Store, m: UB.Mirror, us: seq<Book>): (r: (BS.Store, UB.Mirror))
    ensures us == [] ==> r == (st, m)
    ensures !st.available && us != [] ==> r.0 == st && r.1 == m.(error := Some(UB.UpdateError))
    ensures st.available && us != [] ==>
      && BS.GetBooks(r.0) == BS.ReplaceById(BS.GetBooks(st), us[|us| - 1])
      && r.1 == m.(books := ReplaceAll(m.books, us))
    ensures BS.Ids(BS.GetBooks(r.0)) == BS.Ids(BS.GetBooks(st))
  {
    if us == [] then (st, m)
    else if !st.available then (st, m.(error := Some(UB.UpdateError)))
    else
      BS.ReplaceKeepsIds(BS.GetBooks(st), us[|us| - 1]);
      (BS.Write(st, BS.ReplaceById(BS.GetBooks(st), us[|us| - 1])), m.(books := ReplaceAll(m.books, us)))
  }

  /** Importing two edited books into a store holding exactly those two:
      storage keeps only the second edit while the list shown has both, and
      the two no longer agree. */
  lemma ImportOverlapLosesUpdate(st: BS.Store, a: Book, a2: Book, b: Book, b2: Book)
    requires st.available && BS.GetBooks(st) == [a, b]
    requires a.id == "1" && a2.id == "1" && b.id == "2" && b2.id == "2" && a2 != a
    ensures var r := ImportUpdatesAsWritten(st, UB.Load(st), [a2, b2]);
      && BS.GetBooks(r.0) == [a, b2]
      && r.1.books == [a2, b2]
      && !UB.InSync(r.0, r.1)
  {
    var r := ImportUpdatesAsWritten(st, UB.Load(st), [a2, b2]);
    assert BS.ReplaceById([a, b], a2) == [a2, b];
    assert BS.ReplaceById([a2, b], b2) == [a2, b2];
    assert ReplaceAll([a, b], [a2, b2]) == [a2, b2] by {
      assert [a2, b2][1..] == [b2];
      assert ReplaceAll([a2, b], [b2]) == ReplaceAll([a2, b2], []);
    }
    assert BS.GetBooks(r.0) == [a, b2];
    assert BS.GetBooks(r.0)[0] != r.1.books[0];
  }

  /** The import as evidently intended: each update awaited before the next
      starts, through the hook. */
  function ImportUpdatesAwaited(st: BS.Store, m: UB.Mirror, us: seq<Book>): (r: (BS.Store, UB.Mirror))
    ensures r.0 == UpdateAll(st, us)
    ensures UB.InSync(st, m) ==> UB.InSync(r.0, r.1)
    decreases |us|
  {
    if us == [] then (st, m)
    else
      var e := UB.UpdateBook(st, m, us[0]);
      ImportUpdatesAwaited(e.store, e.mirror, us[1..])
  }

  /** With the updates awaited, the same two edits both reach storage and the
      list shown agrees with it. */
  lemma ImportAwaitedKeepsEveryUpdate(st: BS.Store, a: Book, a2: Book, b: Book, b2: Book)
    requires st.available && BS.GetBooks(st) == [a, b]
    requires a.id == "1" && a2.id == "1" && b.id == "2" && b2.id == "2"
    ensures var r := ImportUpdatesAwaited(st, UB.Load(st), [a2, b2]);
      BS.GetBooks(r.0) == [a2, b2] && UB.InSync(r.0, r.1)
  {
    var st1 := BS.UpdateBook(st, a2).store;
    var st2 := BS.UpdateBook(st1, b2).store;
    assert [a2, b2][1..] == [b2] && [b2][1..] == [];
    assert UpdateAll(st, [a2, b2]) == UpdateAll(st1, [b2]);
    assert UpdateAll(st1, [b2]) == st2;
    assert BS.GetBooks(st1) == [a2, b];
    assert BS.GetBooks(st2) == [a2, b2];
  }
}

=== FILE: book_search.dfy ===
/** ISBN lookup against four remote catalogues, tried in a fixed order,
    and the cover search. The HTTP responses are parameters: `None` stands
    for a request that threw (network error, unparsable body), which each
    source turns into "no result". The timestamp the source reads for the
    new record's id is a parameter too. */
module BookSearch {
  import opened Wrappers
  import opened Text
  import opened Books
  import Seqs

  /** `n || 0` on an optional number. */
  function OrZero(n: Option<int>): int {
    n.GetOr(0)
  }

  const UnknownTitle := "Titre inconnu"
  const UnknownAuthor := "Auteur inconnu"
  const UnknownPublisher := "Éditeur inconnu"
  const UnknownDate := "Date inconnue"
  const UnknownGenre := "Genre non spécifié"

  /** A found record carries the queried ISBN, the caller's timestamp as
      its id and the "unread" status. */
  predicate Stamped(b: Book, isbn: string, stamp: string) {
    b.isbn == Some(isbn) && b.readingStatus == Some(Unread) && b.id == stamp
  }

  /** The record every source builds; the fields no source fills stay unset. */
  function Found(stamp: string, isbn: string, title: string, author: string, publisher: string,
                 date: string, cover: string, description: string, pages: int, genre: string): (b: Book)
    ensures Stamped(b, isbn, stamp)
    ensures b.title == title && b.author == author && b.genre == genre
    ensures b.publisher == Some(publisher) && b.publishedDate == Some(date)
    ensures b.coverUrl == Some(cover) && b.description == Some(description) && b.pageCount == Some(pages)
    ensures b.language.None? && b.rating.None? && b.notes.None? && b.tags.None?
    ensures b.dateAdded.None? && b.dateModified.None?
  {
    Book(stamp, title, author, genre, Some(publisher), Some(date), Some(isbn), Some(cover),
         Some(description), Some(pages), Some(Unread), None, None, None, None, None, None)
  }

  // --------------------------------------------------------- Google Books

  datatype GoogleVolume = GoogleVolume(
    title: Option<string>,
    authors: Option<seq<string>>,
    publisher: Option<string>,
    publishedDate: Option<string>,
    thumbnail: Option<string>,
    description: Option<string>,
    pageCount: Option<int>,
    categories: Option<seq<string>>)

  datatype GoogleData = GoogleData(items: Option<seq<GoogleVolume>>)

  /** The Google Books mapping: the first item, with a fallback for each
      missing field. An author list that is present but empty joins to "". */
  function SearchGoogle(resp: Option<GoogleData>, isbn: string, stamp: string): (r: Option<Book>)
    ensures r.Some? ==> Stamped(r.value, isbn, stamp)
    ensures r.Some? <==> resp.Some? && resp.value.items.Some? && |resp.value.items.value| > 0
    ensures r.Some? ==>
      var v := resp.value.items.value[0];
      && r.value.title == Or(v.title, UnknownTitle)
      && r.value.author == (if v.authors.Some? then Join(v.authors.value, ", ") else UnknownAuthor)
      && r.value.genre == (if v.categories.Some? && |v.categories.value| > 0
                           then Join(v.categories.value, ", ") else UnknownGenre)
      && r.value.publisher == Some(Or(v.publisher, UnknownPublisher))
      && r.value.publishedDate == Some(Or(v.publishedDate, UnknownDate))
      && r.value.coverUrl == Some(Or(v.thumbnail, ""))
      && r.value.description == Some(Or(v.description, ""))
      && r.value.pageCount == Some(OrZero(v.pageCount))
  {
    if resp.None? || resp.value.items.None? || |resp.value.items.value| == 0 then None
    else
      var v := resp.value.items.value[0];
      Some(Found(stamp, isbn,
                 Or(v.title, UnknownTitle),
                 if v.authors.Some? then Join(v.authors.value, ", ") else UnknownAuthor,
                 Or(v.publisher, UnknownPublisher),
                 Or(v.publishedDate, UnknownDate),
                 Or(v.thumbnail, ""),
                 Or(v.description, ""),
                 OrZero(v.pageCount),
                 if v.categories.Some? && |v.categories.value| > 0 then Join(v.categories.value, ", ")
                 else UnknownGenre))
  }

  /** An empty author array is truthy: the author becomes the empty string,
      not the "unknown author" fallback. */
  lemma GoogleEmptyAuthors(v: GoogleVolume, isbn: string, stamp: string)
    requires v.authors == Some([])
    ensures SearchGoogle(Some(GoogleData(Some([v]))), isbn, stamp).value.author == ""
  {
  }

  // --------------------------------------------------------- Open Library

  /** An author or publisher entry; a missing `name` joins as "". */
  datatype Named = Named(name: Option<string>)

  /** A subject is either an object with a `name` or a bare string. */
  datatype Subject = SubjectObject(name: Option<string>) | SubjectString(s: string)

  datatype Cover = Cover(small: Option<string>, medium: Option<string>, large: Option<string>)

  datatype OpenLibraryRecord = OpenLibraryRecord(
    title: Option<string>,
    authors: Option<seq<Named>>,
    publishers: Option<seq<Named>>,
    publishDate: Option<string>,
    cover: Option<Cover>,
    notes: Option<string>,
    excerpts: Option<seq<Option<string>>>,
    numberOfPages: Option<int>,
    subjects: Option<seq<Subject>>)

  /** The response body: the object keyed by `ISBN:<isbn>`. */
  type OpenLibraryData = map<string, OpenLibraryRecord>

  function NameText(n: Named): string {
    n.name.GetOr("")
  }

  function NamesText(ns: seq<Named>): (r: seq<string>)
    ensures |r| == |ns| && forall i :: 0 <= i < |ns| ==> r[i] == NameText(ns[i])
  {
    if ns == [] then [] else [NameText(ns[0])] + NamesText(ns[1..])
  }

  /** `s.name || s`, then string conversion: an object without a usable
      name prints as "[object Object]". */
  function SubjectText(s: Subject): (r: string)
    ensures s.SubjectString? ==> r == s.s
    ensures s.SubjectObject? && s.name.Some? && s.name.value != "" ==> r == s.name.value
    ensures s.SubjectObject? && (s.name.None? || s.name.value == "") ==> r == "[object Object]"
  {
    match s
    case SubjectString(t) => t
    case SubjectObject(n) => Or(n, "[object Object]")
  }

  function SubjectsText(ss: seq<Subject>): (r: seq<string>)
    ensures |r| == |ss| && forall i :: 0 <= i < |ss| ==> r[i] == SubjectText(ss[i])
  {
    if ss == [] then [] else [SubjectText(ss[0])] + SubjectsText(ss[1..])
  }

  /** `cover?.medium || cover?.large || cover?.small || ""`. */
  function CoverUrl(c: Option<Cover>): (r: string)
    ensures c.None? ==> r == ""
    ensures c.Some? && r != "" ==> Some(r) in [c.value.medium, c.value.large, c.value.small]
    ensures c.Some? && c.value.medium.Some? && c.value.medium.value != "" ==> r == c.value.medium.value
    ensures c.Some? ==> (r == "" <==> forall o :: o in [c.value.medium, c.value.large, c.value.small] ==> o.None? || o == Some(""))
  {
    if c.None? then "" else Or(c.value.medium, Or(c.value.large, Or(c.value.small, "")))
  }

  /** `notes || excerpts?.[0]?.text || ""`. */
  function OpenLibraryDescription(rec: OpenLibraryRecord): (r: string)
    ensures rec.notes.Some? && rec.notes.value != "" ==> r == rec.notes.value
    ensures r != "" && r !in [rec.notes.GetOr("")] ==>
      rec.excerpts.Some? && |rec.excerpts.value| > 0 && rec.excerpts.value[0] == Some(r)
  {
    Or(rec.notes, if rec.excerpts.Some? && |rec.excerpts.value| > 0 then Or(rec.excerpts.value[0], "") else "")
  }

  function OpenLibraryKey(isbn: string): string {
    "ISBN:" + isbn
  }

  /** The Open Library mapping: the record under `ISBN:<isbn>`; at most the
      first three subjects make the genre. */
  function SearchOpenLibrary(resp: Option<OpenLibraryData>, isbn: string, stamp: string): (r: Option<Book>)
    ensures r.Some? ==> Stamped(r.value, isbn, stamp)
    ensures r.Some? <==> resp.Some? && OpenLibraryKey(isbn) in resp.value
    ensures r.Some? ==>
      var rec := resp.value[OpenLibraryKey(isbn)];
      && r.value.title == Or(rec.title, UnknownTitle)
      && r.value.author == (if rec.authors.Some? && |rec.authors.value| > 0
                            then Join(NamesText(rec.authors.value), ", ") else UnknownAuthor)
      && (rec.subjects.Some? && |rec.subjects.value| > 0 ==>
            r.value.genre == Join(SubjectsText(rec.subjects.value[..Min(3, |rec.subjects.value|)]), ", "))
      && (rec.subjects.None? || rec.subjects.value == [] ==> r.value.genre == UnknownGenre)
      && r.value.publisher == Some(if rec.publishers.Some? && |rec.publishers.value| > 0
                                   then Join(NamesText(rec.publishers.value), ", ") else UnknownPublisher)
      && r.value.publishedDate == Some(Or(rec.publishDate, UnknownDate))
      && r.value.coverUrl == Some(CoverUrl(rec.cover))
      && r.value.description == Some(OpenLibraryDescription(rec))
      && r.value.pageCount == Some(OrZero(rec.numberOfPages))
  {
    if resp.None? || OpenLibraryKey(isbn) !in resp.value then None
    else
      var rec := resp.value[OpenLibraryKey(isbn)];
      Some(Found(stamp, isbn,
                 Or(rec.title, UnknownTitle),
                 if rec.authors.Some? && |rec.authors.value| > 0 then Join(NamesText(rec.authors.value), ", ")
                 else UnknownAuthor,
                 if rec.publishers.Some? && |rec.publishers.value| > 0 then Join(NamesText(rec.publishers.value), ", ")
                 else UnknownPublisher,
                 Or(rec.publishDate, UnknownDate),
                 CoverUrl(rec.cover),
                 OpenLibraryDescription(rec),
                 OrZero(rec.numberOfPages),
                 if rec.subjects.Some? && |rec.subjects.value| > 0
                 then Join(SubjectsText(rec.subjects.value[..Min(3, |rec.subjects.value|)]), ", ")
                 else UnknownGenre))
  }

  function Min(a: int, b: int): int {
    if a < b then a else b
  }

  // ------------------------------------------------------------------ BNF

  function OpenTag(tag: string): string { "<" + tag + ">" }
  function CloseTag(tag: string): string { "</" + tag + ">" }

  /** `<tag>(.*?)</tag>` with the dot matching newlines matches `xml`
      with the opening tag at `i` and the closing tag at `j`. */
  ghost predicate TagMatch(xml: string, tag: string, i: int, j: int) {
    OccursAt(xml, OpenTag(tag), i) && i + |OpenTag(tag)| <= j && OccursAt(xml, CloseTag(tag), j)
  }

  /** The match a regular-expression search returns: the leftmost start,
      and from it the shortest (lazy) body. */
  function XmlMatch(xml: string, tag: string): (r: Option<(nat, nat)>)
    ensures r.None? ==> forall i, j :: !TagMatch(xml, tag, i, j)
    ensures r.Some? ==> TagMatch(xml, tag, r.value.0, r.value.1)
    ensures r.Some? ==> forall i, j :: i < r.value.0 ==> !TagMatch(xml, tag, i, j)
    ensures r.Some? ==> forall j :: j < r.value.1 ==> !TagMatch(xml, tag, r.value.0, j)
  {
    var o := OpenTag(tag);
    match IndexOf(xml, o, 0)
    case None => None
    case Some(i) =>
      match IndexOf(xml, CloseTag(tag), i + |o|)
      case None => None
      case Some(j) => Some((i, j))
  }

  /** `getXmlValue`: the text between the tags of the regex match, or "". */
  function GetXmlValue(xml: string, tag: string): (r: string)
    ensures XmlMatch(xml, tag).None? ==> r == ""
    ensures XmlMatch(xml, tag).Some? ==>
      var (i, j) := XmlMatch(xml, tag).value;
      r == xml[i + |OpenTag(tag)|..j]
  {
    match XmlMatch(xml, tag)
    case None => ""
    case Some((i, j)) => xml[i + |OpenTag(tag)|..j]
  }

  /** No tag occurs in a stretch without '<'. */
  lemma NoTagWithoutBracket(xml: string, t: string, from: int, to: int)
    requires 0 <= from && to <= |xml| && t != [] && t[0] == '<'
    requires forall k :: from <= k < to ==> xml[k] != '<'
    ensures forall k :: from <= k < to ==> !OccursAt(xml, t, k)
  {
    forall k | from <= k < to
      ensures !OccursAt(xml, t, k)
    {
      assert xml[k] != '<';
    }
  }

  /** In `pre <tag>body</tag> post`, where `pre` and `body` hold no '<',
      the extracted value is `body`. */
  lemma GetXmlValueSingle(pre: string, body: string, post: string, tag: string)
    requires forall i :: 0 <= i < |pre| ==> pre[i] != '<'
    requires forall i :: 0 <= i < |body| ==> body[i] != '<'
    ensures GetXmlValue(pre + OpenTag(tag) + body + CloseTag(tag) + post, tag) == body
  {
    var o, c := OpenTag(tag), CloseTag(tag);
    var xml := pre + o + body + c + post;
    var i := |pre|;
    var j := |pre| + |o| + |body|;
    assert xml[..i] == pre;
    assert xml[i..i + |o|] == o;
    assert xml[i + |o|..j] == body;
    assert xml[j..j + |c|] == c;
    NoTagWithoutBracket(xml, o, 0, i);
    NoTagWithoutBracket(xml, c, i + |o|, j);
    XmlMatchAt(xml, tag, i, j);
  }

  /** The match is at `i` and `j` when no opening tag comes before `i` and no
      closing tag between the opening one and `j`. */
  lemma XmlMatchAt(xml: string, tag: string, i: nat, j: nat)
    requires TagMatch(xml, tag, i, j)
    requires forall k :: 0 <= k < i ==> !OccursAt(xml, OpenTag(tag), k)
    requires forall k :: i + |OpenTag(tag)| <= k < j ==> !OccursAt(xml, CloseTag(tag), k)
    ensures XmlMatch(xml, tag) == Some((i, j))
  {
  }

  const NoRecords := "numberOfRecords>0<"

  /** The BNF mapping: a response mentioning a title element and not
      reporting zero records is taken as a hit, whatever the extraction
      then finds. */
  function SearchBnf(resp: Option<string>, isbn: string, stamp: string): (r: Option<Book>)
    ensures r.Some? ==> Stamped(r.value, isbn, stamp)
    ensures r.Some? <==> resp.Some? && Contains(resp.value, OpenTag("dc:title")) && !Contains(resp.value, NoRecords)
    ensures r.Some? ==>
      && r.value.title == Or(Some(GetXmlValue(resp.value, "dc:title")), UnknownTitle)
      && r.value.author == Or(Some(GetXmlValue(resp.value, "dc:creator")), UnknownAuthor)
      && r.value.genre == Or(Some(GetXmlValue(resp.value, "dc:subject")), UnknownGenre)
      && r.value.publisher == Some(Or(Some(GetXmlValue(resp.value, "dc:publisher")), UnknownPublisher))
      && r.value.publishedDate == Some(Or(Some(GetXmlValue(resp.value, "dc:date")), UnknownDate))
      && r.value.description == Some(GetXmlValue(resp.value, "dc:description"))
      && r.value.coverUrl == Some("") && r.value.pageCount == Some(0)
  {
    if resp.None? || !Contains(resp.value, OpenTag("dc:title")) || Contains(resp.value, NoRecords) then None
    else
      var x := resp.value;
      Some(Found(stamp, isbn,
                 Or(Some(GetXmlValue(x, "dc:title")), UnknownTitle),
                 Or(Some(GetXmlValue(x, "dc:creator")), UnknownAuthor),
                 Or(Some(GetXmlValue(x, "dc:publisher")), UnknownPublisher),
                 Or(Some(GetXmlValue(x, "dc:date")), UnknownDate),
                 "",
                 GetXmlValue(x, "dc:description"),
                 0,
                 Or(Some(GetXmlValue(x, "dc:subject")), UnknownGenre)))
  }

  /** An opening title tag that is never closed still counts as a hit, with
      the unknown-title fallback. */
  lemma BnfUnclosedTitle(text: string, isbn: string, stamp: string)
    requires Contains(text, OpenTag("dc:title")) && !Contains(text, NoRecords)
    requires !Contains(text, CloseTag("dc:title"))
    ensures SearchBnf(Some(text), isbn, stamp).Some?
    ensures SearchBnf(Some(text), isbn, stamp).value.title == UnknownTitle
  {
    assert forall k :: !OccursAt(text, CloseTag("dc:title"), k);
    assert XmlMatch(text, "dc:title").None?;
  }

  // ------------------------------------------------------------- WorldCat

  const WorldCatTitle := "Livre trouvé sur WorldCat"
  const WorldCatSeeDetails := "Voir détails sur WorldCat"
  const WorldCatGenre := "Non spécifié"

  const WorldCatNote := "Ce livre a été trouvé sur WorldCat. Pour plus d'informations, consultez: "
  const WorldCatSearch := "https://www.worldcat.org/search?q=bn:"

  /** The placeholder description: a sentence, then the search-page URL. */
  function WorldCatDescription(isbn: string): string {
    WorldCatNote + WorldCatSearch + isbn
  }

  /** The WorldCat fallback: any successful HTTP status yields a placeholder
      record pointing at the search page. `ok` is false as well when the
      request throws. */
  function SearchWorldCat(ok: bool, isbn: string, stamp: string): (r: Option<Book>)
    ensures r.Some? ==> Stamped(r.value, isbn, stamp)
    ensures r.Some? <==> ok
    ensures r.Some? ==>
      && r.value.title == WorldCatTitle
      && r.value.author == WorldCatSeeDetails
      && r.value.publisher == Some(WorldCatSeeDetails)
      && r.value.publishedDate == Some("")
      && r.value.coverUrl == Some("")
      && r.value.genre == WorldCatGenre
      && r.value.description == Some(WorldCatDescription(isbn))
      && r.value.pageCount == Some(0)
  {
    if !ok then None
    else Some(Found(stamp, isbn, WorldCatTitle, WorldCatSeeDetails, WorldCatSeeDetails, "", "",
                    WorldCatDescription(isbn), 0, WorldCatGenre))
  }

  // ------------------------------------------------------- the lookup chain

  /** What each catalogue would answer for this ISBN. */
  datatype Responses = Responses(
    google: Option<GoogleData>,
    openLibrary: Option<OpenLibraryData>,
    bnf: Option<string>,
    worldCatOk: bool)

  /** The catalogues' answers in the order they are tried. */
  function Answers(resp: Responses, isbn: string, stamp: string): (r: seq<Option<Book>>)
    ensures |r| == 4
    ensures r[0] == SearchGoogle(resp.google, isbn, stamp)
    ensures r[1] == SearchOpenLibrary(resp.openLibrary, isbn, stamp)
    ensures r[2] == SearchBnf(resp.bnf, isbn, stamp)
    ensures r[3] == SearchWorldCat(resp.worldCatOk, isbn, stamp)
    ensures forall k :: 0 <= k < 4 && r[k].Some? ==> Stamped(r[k].value, isbn, stamp)
  {
    [SearchGoogle(resp.google, isbn, stamp), SearchOpenLibrary(resp.openLibrary, isbn, stamp),
     SearchBnf(resp.bnf, isbn, stamp), SearchWorldCat(resp.worldCatOk, isbn, stamp)]
  }

  function NotFound(isbn: string): string {
    "Aucun livre trouvé avec l'ISBN " + isbn
  }

  /** The outcome of `searchByIsbn` and how many catalogues it queried. */
  datatype Lookup = Lookup(result: Result<Book, string>, consulted: nat)

  /** Trying the answers from index `from` on: the first present one wins
      and the later ones are not consulted. */
  function FirstHit(answers: seq<Option<Book>>, from: nat, isbn: string): (r: Lookup)
    requires from < |answers|
    ensures from < r.consulted <= |answers|
    ensures forall k :: from <= k < r.consulted - 1 ==> answers[k].None?
    ensures r.result.Success? ==> answers[r.consulted - 1] == Some(r.result.value)
    ensures r.result.Failure? <==> forall k :: from <= k < |answers| ==> answers[k].None?
    ensures r.result.Failure? ==> r.consulted == |answers| && r.result.error == NotFound(isbn)
    decreases |answers| - from
  {
    if answers[from].Some? then Lookup(Success(answers[from].value), from + 1)
    else if from + 1 == |answers| then Lookup(Failure(NotFound(isbn)), |answers|)
    else FirstHit(answers, from + 1, isbn)
  }

  /** `searchByIsbn`: Google Books, Open Library, the BNF, then WorldCat;
      the first catalogue to answer wins and the later ones are not
      queried; when none answers, the search fails. */
  function SearchByIsbn(isbn: string, resp: Responses, stamp: string): (r: Lookup)
    ensures 1 <= r.consulted <= 4
    ensures forall k :: 0 <= k < r.consulted - 1 ==> Answers(resp, isbn, stamp)[k].None?
    ensures r.result.Success? ==> Answers(resp, isbn, stamp)[r.consulted - 1] == Some(r.result.value)
    ensures r.result.Failure? <==> forall k :: 0 <= k < 4 ==> Answers(resp, isbn, stamp)[k].None?
    ensures r.result.Failure? ==> r.consulted == 4 && r.result.error == NotFound(isbn)
    ensures r.result.Success? ==> Stamped(r.result.value, isbn, stamp)
  {
    FirstHit(Answers(resp, isbn, stamp), 0, isbn)
  }

  /** A successful WorldCat request means the search never fails. */
  lemma WorldCatOkNeverFails(isbn: string, resp: Responses, stamp: string)
    requires resp.worldCatOk
    ensures SearchByIsbn(isbn, resp, stamp).result.Success?
  {
    assert Answers(resp, isbn, stamp)[3].Some?;
  }

  // --------------------------------------------------------- cover search

  /** `${title} ${author}` with every space replaced by "+". */
  function CoverQuery(title: string, author: string): (r: string)
    ensures |r| == |title| + 1 + |author|
    ensures forall i :: 0 <= i < |r| ==> r[i] != ' '
    ensures forall i :: 0 <= i < |r| ==> r[i] == if (title + " " + author)[i] == ' ' then '+' else (title + " " + author)[i]
  {
    SpacesToPlus(title + " " + author)
  }

  function SpacesToPlus(s: string): (r: string)
    ensures |r| == |s|
    ensures forall i :: 0 <= i < |s| ==> r[i] == if s[i] == ' ' then '+' else s[i]
  {
    if s == [] then [] else [if s[0] == ' ' then '+' else s[0]] + SpacesToPlus(s[1..])
  }

  /** `thumbnail || null` for one result item: a missing link and an empty
      one are equally falsy, both become "". */
  function ThumbnailText(item: Option<string>): string {
    item.GetOr("")
  }

  /** The `.map` step over all result items. */
  function ThumbnailTexts(items: seq<Option<string>>): (r: seq<string>)
    ensures |r| == |items|
  {
    seq(|items|, i requires 0 <= i < |items| => ThumbnailText(items[i]))
  }

  /** `filter(Boolean)` on strings. */
  function NonEmpty(x: string): bool {
    x != ""
  }

  /** The thumbnails of the result items that are present and non-empty,
      in order: the `.map(... || null)` result filtered by `Boolean`. */
  function Thumbnails(items: seq<Option<string>>): (r: seq<string>)
    ensures r == Seqs.Filter(NonEmpty, ThumbnailTexts(items))
    ensures forall x :: x in r <==> x != "" && Some(x) in items
  {
    if items == [] then []
    else
      var rest := Thumbnails(items[1..]);
      var texts := ThumbnailTexts(items);
      assert texts[0] == ThumbnailText(items[0]) && texts[1..] == ThumbnailTexts(items[1..]);
      var first := ThumbnailText(items[0]);
      var r := if first != "" then [first] + rest else rest;
      assert r == Seqs.Filter(NonEmpty, texts);
      ThumbnailTextsHave(items);
      r
  }

  /** A non-empty text comes out of the `.map` step exactly when some item carries it. */
  lemma ThumbnailTextsHave(items: seq<Option<string>>)
    ensures forall x :: x != "" ==> (x in ThumbnailTexts(items) <==> Some(x) in items)
  {
    var texts := ThumbnailTexts(items);
    forall x | x != ""
      ensures x in texts <==> Some(x) in items
    {
      if x in texts {
        var i :| 0 <= i < |texts| && texts[i] == x;
        assert items[i] == Some(x);
      }
      if Some(x) in items {
        var i :| 0 <= i < |items| && items[i] == Some(x);
        assert texts[i] == x;
      }
    }
  }

  /** The covers keep the order of the result items, one per usable thumbnail. */
  lemma ThumbnailsInOrder(items: seq<Option<string>>)
    ensures Seqs.Subsequence(Thumbnails(items), ThumbnailTexts(items))
    ensures |Thumbnails(items)| == Seqs.Count(NonEmpty, ThumbnailTexts(items))
  {
    Seqs.FilterCount(NonEmpty, ThumbnailTexts(items));
  }

  /** `searchBookCovers`: no items, or a request that threw, yields no covers. */
  function SearchBookCovers(resp: Option<Option<seq<Option<string>>>>): (r: seq<string>)
    ensures resp.None? || resp.value.None? ==> r == []
    ensures resp.Some? && resp.value.Some? ==> r == Seqs.Filter(NonEmpty, ThumbnailTexts(resp.value.value))
    ensures resp.Some? && resp.value.Some? ==> forall x :: x in r <==> x != "" && Some(x) in resp.value.value
  {
    if resp.None? || resp.value.None? || |resp.value.value| == 0 then [] else Thumbnails(resp.value.value)
  }
}

=== FILE: book_service.dfy ===
/** The persistence service: the book list kept in one browser-storage
    slot. The slot is modelled as a value, `None` when the key is absent
    or its content does not parse; `available` is false where no browser
    window exists. Every mutating call reads the list, transforms it and
    writes the whole list back. */
module BookService {
  import opened Wrappers
  import opened Books
  import Seqs

  /** The storage slot under the key "books". */
  datatype Store = Store(available: bool, slot: Option<seq<Book>>)

  /** The error every mutating operation throws without a browser window. */
  const Unavailable := "Opération non disponible"

  /** The store after a call, and what the call returned or threw. */
  datatype Step<T> = Step(store: Store, result: Result<T, string>)

  /** `getBooks`: the stored list; `[]` when storage is unavailable, the key
      is absent or the content is corrupt. It never fails. */
  function GetBooks(st: Store): (r: seq<Book>)
    ensures st.available && st.slot.Some? ==> r == st.slot.value
    ensures !st.available || st.slot.None? ==> r == []
  {
    if !st.available then [] else st.slot.GetOr([])
  }

  /** The write every successful mutation ends with. */
  function Write(st: Store, books: seq<Book>): (r: Store)
    requires st.available
    ensures r.available && GetBooks(r) == books
  {
    st.(slot := Some(books))
  }

  // ------------------------------------------------------------- defaults

  /** `{ ...book, id: book.id || fresh, readingStatus: book.readingStatus || "unread" }`:
      only the id (when empty) and the reading status (when missing) change. */
  function WithDefaults(b: Book, freshId: string): (r: Book)
    requires freshId != ""
    ensures r.id != ""
    ensures b.id != "" ==> r.id == b.id
    ensures b.id == "" ==> r.id == freshId
    ensures r.readingStatus == if b.readingStatus.Some? then b.readingStatus else Some(Unread)
  {
    b.(id := if b.id != "" then b.id else freshId,
       readingStatus := Some(b.readingStatus.GetOr(Unread)))
  }

  /** Defaulting touches no field but the id and the reading status, and
      leaves a book that already has both as it is. */
  lemma WithDefaultsKeepsRest(b: Book, freshId: string)
    requires freshId != ""
    ensures WithDefaults(b, freshId).(id := b.id, readingStatus := b.readingStatus) == b
    ensures b.id != "" && b.readingStatus.Some? ==> WithDefaults(b, freshId) == b
  {
  }

  // ------------------------------------------------------------ add

  /** `addBook`: appends the defaulted book to the stored list and returns it.
      No check is made that its id is not already present. */
  function AddBook(st: Store, book: Book, freshId: string): (r: Step<Book>)
    requires freshId != ""
    ensures r.result.Failure? <==> !st.available
    ensures r.result.Failure? ==> r.store == st && r.result.error == Unavailable
    ensures r.result.Success? ==>
      && r.result.value == WithDefaults(book, freshId)
      && GetBooks(r.store) == GetBooks(st) + [r.result.value]
      && r.store.available
  {
    if !st.available then Step(st, Failure(Unavailable))
    else
      var nb := WithDefaults(book, freshId);
      Step(Write(st, GetBooks(st) + [nb]), Success(nb))
  }

  /** The ids of a list, in order. */
  function Ids(l: seq<Book>): (r: seq<string>)
    ensures |r| == |l|
    ensures forall i :: 0 <= i < |l| ==> r[i] == l[i].id
  {
    if l == [] then [] else [l[0].id] + Ids(l[1..])
  }

  ghost predicate DistinctIds(l: seq<Book>) {
    forall i, j :: 0 <= i < j < |l| ==> l[i].id != l[j].id
  }

  /** Adding a book whose id is already stored yields two entries with that id. */
  lemma AddBookAllowsDuplicateIds(st: Store, book: Book, freshId: string)
    requires freshId != "" && st.available
    requires book.id != "" && book.id in Ids(GetBooks(st))
    ensures !DistinctIds(GetBooks(AddBook(st, book, freshId).store))
  {
    var l := GetBooks(st);
    var i :| 0 <= i < |l| && Ids(l)[i] == book.id;
    var r := GetBooks(AddBook(st, book, freshId).store);
    assert r[i].id == r[|l|].id;
  }

  // ------------------------------------------------------------ update

  /** `books.map(b => b.id === u.id ? u : b)`: every entry with `u`'s id
      becomes `u`; every other entry stays where and what it was. */
  function ReplaceById(l: seq<Book>, u: Book): (r: seq<Book>)
    ensures |r| == |l|
    ensures forall i :: 0 <= i < |l| ==> r[i] == if l[i].id == u.id then u else l[i]
  {
    if l == [] then [] else [if l[0].id == u.id then u else l[0]] + ReplaceById(l[1..], u)
  }

  /** Updating an id that is not stored changes nothing: there is no upsert. */
  lemma ReplaceUnknownId(l: seq<Book>, u: Book)
    requires u.id !in Ids(l)
    ensures ReplaceById(l, u) == l
  {
    assert forall i :: 0 <= i < |l| ==> l[i].id == Ids(l)[i];
  }

  /** Replacement keeps the id sequence and is idempotent. */
  lemma ReplaceKeepsIds(l: seq<Book>, u: Book)
    ensures Ids(ReplaceById(l, u)) == Ids(l)
    ensures ReplaceById(ReplaceById(l, u), u) == ReplaceById(l, u)
  {
  }

  /** `updateBook`: replaces every stored entry with the argument's id and
      returns the argument. */
  function UpdateBook(st: Store, u: Book): (r: Step<Book>)
    ensures r.result.Failure? <==> !st.available
    ensures r.result.Failure? ==> r.store == st && r.result.error == Unavailable
    ensures r.result.Success? ==>
      && r.result.value == u
      && r.store.available
      && |GetBooks(r.store)| == |GetBooks(st)|
      && (forall i :: 0 <= i < |GetBooks(st)| ==>
            GetBooks(r.store)[i] == if GetBooks(st)[i].id == u.id then u else GetBooks(st)[i])
  {
    if !st.available then Step(st, Failure(Unavailable))
    else Step(Write(st, ReplaceById(GetBooks(st), u)), Success(u))
  }

  // ------------------------------------------------------------ remove

  function IdIsNot(id: string): Book -> bool {
    (b: Book) => b.id != id
  }

  /** `books.filter(b => b.id !== id)`: every entry with that id goes, the
      others stay in order. */
  function RemoveById(l: seq<Book>, id: string): (r: seq<Book>)
    ensures Seqs.Subsequence(r, l)
    ensures forall b :: b in r <==> b in l && b.id != id
    ensures id !in Ids(r)
  {
    var r := Seqs.Filter(IdIsNot(id), l);
    assert forall i :: 0 <= i < |r| ==> Ids(r)[i] == r[i].id;
    r
  }

  /** Removing an id that is not stored changes nothing. */
  lemma RemoveUnknownId(l: seq<Book>, id: string)
    requires id !in Ids(l)
    ensures RemoveById(l, id) == l
  {
    assert forall b :: b in l ==> b.id != id by {
      forall b | b in l
        ensures b.id != id
      {
        var i :| 0 <= i < |l| && l[i] == b;
        assert Ids(l)[i] == b.id;
      }
    }
    Seqs.FilterAll(IdIsNot(id), l);
  }

  /** Removal deletes exactly the entries carrying the id. */
  lemma RemoveCount(l: seq<Book>, id: string)
    ensures |RemoveById(l, id)| == Seqs.Count(IdIsNot(id), l)
  {
    Seqs.FilterCount(IdIsNot(id), l);
  }

  /** `removeBook`. */
  function RemoveBook(st: Store, id: string): (r: Step<()>)
    ensures r.result.Failure? <==> !st.available
    ensures r.result.Failure? ==> r.store == st && r.result.error == Unavailable
    ensures r.result.Success? ==>
      && r.store.available
      && GetBooks(r.store) == RemoveById(GetBooks(st), id)
      && (forall b :: b in GetBooks(r.store) <==> b in GetBooks(st) && b.id != id)
  {
    if !st.available then Step(st, Failure(Unavailable))
    else Step(Write(st, RemoveById(GetBooks(st), id)), Success(()))
  }

  // ------------------------------------------- insertion-ordered id map

  /** `map.set(b.id, b)` on a JavaScript `Map` kept as its entry list: an
      existing key keeps its position and takes the new value, a new key is
      appended. */
  function Upsert(m: seq<Book>, b: Book): (r: seq<Book>)
  {
    if m == [] then [b]
    else if m[0].id == b.id then [b] + m[1..]
    else [m[0]] + Upsert(m[1..], b)
  }

  /** `forEach(b => map.set(b.id, b))`. */
  function UpsertAll(m: seq<Book>, l: seq<Book>): seq<Book>
    decreases |l|
  {
    if l == [] then m else UpsertAll(Upsert(m, l[0]), l[1..])
  }

  /** The key order of a `Map` after `set(k, …)`. */
  function AddKey(ks: seq<string>, k: string): (r: seq<string>)
    ensures k in r
    ensures forall x :: x in r <==> x in ks || x == k
  {
    if k in ks then ks else ks + [k]
  }

  /** The key order after setting each key of `l` in turn. */
  function AddKeys(ks: seq<string>, l: seq<string>): (r: seq<string>)
    ensures forall x :: x in r <==> x in ks || x in l
    ensures |ks| <= |r| && r[..|ks|] == ks
    decreases |l|
  {
    if l == [] then ks
    else
      var r := AddKeys(AddKey(ks, l[0]), l[1..]);
      assert AddKey(ks, l[0])[..|ks|] == ks;
      assert r[..|AddKey(ks, l[0])|][..|ks|] == r[..|ks|];
      r
  }

  /** `map.get(k)`: the first entry with id `k`. */
  function Lookup(m: seq<Book>, k: string): (r: Option<Book>)
    ensures r.Some? <==> k in Ids(m)
    ensures r.Some? ==> r.value in m && r.value.id == k
  {
    if m == [] then None
    else if m[0].id == k then Some(m[0])
    else
      assert Ids(m) == [m[0].id] + Ids(m[1..]);
      Lookup(m[1..], k)
  }

  /** Index `i` holds the last entry of `l` with id `k`. */
  ghost predicate LastAt(l: seq<Book>, k: string, i: int) {
    0 <= i < |l| && l[i].id == k && forall j :: i < j < |l| ==> l[j].id != k
  }

  /** The last entry of `l` with id `k`: the one a run of `set` leaves behind. */
  function LastWithId(l: seq<Book>, k: string): (r: Option<Book>)
    ensures r.Some? <==> k in Ids(l)
    ensures r.Some? ==> exists i :: LastAt(l, k, i) && l[i] == r.value
  {
    if l == [] then None
    else
      var t := LastWithId(l[1..], k);
      LastWithIdStep(l, k, t);
      if t.Some? then t else if l[0].id == k then Some(l[0]) else None
  }

  /** The last entry of `l` is the last of its tail, else possibly its head. */
  lemma LastWithIdStep(l: seq<Book>, k: string, t: Option<Book>)
    requires l != []
    requires t.Some? <==> k in Ids(l[1..])
    requires t.Some? ==> exists i :: LastAt(l[1..], k, i) && l[1..][i] == t.value
    ensures t.Some? ==> exists i :: LastAt(l, k, i) && l[i] == t.value
    ensures t.None? && l[0].id == k ==> LastAt(l, k, 0)
    ensures (t.Some? || l[0].id == k) <==> k in Ids(l)
  {
    assert Ids(l) == [l[0].id] + Ids(l[1..]);
    if t.Some? {
      var i :| LastAt(l[1..], k, i) && l[1..][i] == t.value;
      assert LastAt(l, k, i + 1);
    } else {
      assert forall j :: 0 < j < |l| ==> l[j].id == Ids(l[1..])[j - 1];
    }
  }

  lemma {:induction false} UpsertIds(m: seq<Book>, b: Book)
    ensures Ids(Upsert(m, b)) == AddKey(Ids(m), b.id)
  {
    if m != [] {
      assert [m[0]] + m[1..] == m;
      IdsCons(m[0], m[1..]);
      if m[0].id == b.id {
        IdsCons(b, m[1..]);
      } else {
        UpsertIds(m[1..], b);
        IdsCons(m[0], Upsert(m[1..], b));
        AddKeyCons(m[0].id, Ids(m[1..]), b.id);
      }
    }
  }

  lemma IdsCons(x: Book, l: seq<Book>)
    ensures Ids([x] + l) == [x.id] + Ids(l)
  {
    assert ([x] + l)[1..] == l;
  }

  lemma AddKeyCons(a: string, ks: seq<string>, k: string)
    requires a != k
    ensures AddKey([a] + ks, k) == [a] + AddKey(ks, k)
  {
    assert k in [a] + ks <==> k in ks;
  }

  lemma {:induction false} UpsertLookup(m: seq<Book>, b: Book, k: string)
    ensures Lookup(Upsert(m, b), k) == if k == b.id then Some(b) else Lookup(m, k)
  {
    if m != [] && m[0].id != b.id {
      UpsertLookup(m[1..], b, k);
    }
  }

  /** The key order of the merged list follows `Map` semantics. */
  lemma {:induction false} UpsertAllIds(m: seq<Book>, l: seq<Book>)
    ensures Ids(UpsertAll(m, l)) == AddKeys(Ids(m), Ids(l))
    decreases |l|
  {
    if l != [] {
      UpsertIds(m, l[0]);
      UpsertAllIds(Upsert(m, l[0]), l[1..]);
      assert Ids(l) == [l[0].id] + Ids(l[1..]);
    }
  }

  /** The value under each key is the last one set for it, or the old one. */
  lemma {:induction false} UpsertAllLookup(m: seq<Book>, l: seq<Book>, k: string)
    ensures Lookup(UpsertAll(m, l), k) ==
      if LastWithId(l, k).Some? then LastWithId(l, k) else Lookup(m, k)
    decreases |l|
  {
    if l != [] {
      UpsertAllLookup(Upsert(m, l[0]), l[1..], k);
      UpsertLookup(m, l[0], k);
    }
  }

  /** Keys set one by one stay pairwise distinct. */
  lemma {:induction false} AddKeysDistinct(ks: seq<string>, l: seq<string>)
    requires forall i, j :: 0 <= i < j < |ks| ==> ks[i] != ks[j]
    ensures forall i, j :: 0 <= i < j < |AddKeys(ks, l)| ==> AddKeys(ks, l)[i] != AddKeys(ks, l)[j]
    decreases |l|
  {
    if l != [] {
      AddKeysDistinct(AddKey(ks, l[0]), l[1..]);
    }
  }

  lemma DistinctIdsOfKeys(l: seq<Book>)
    requires forall i, j :: 0 <= i < j < |Ids(l)| ==> Ids(l)[i] != Ids(l)[j]
    ensures DistinctIds(l)
  {
    assert forall i :: 0 <= i < |l| ==> Ids(l)[i] == l[i].id;
  }

  /** Entries whose ids are new are simply appended. */
  lemma {:induction false} UpsertAllFresh(m: seq<Book>, l: seq<Book>)
    requires DistinctIds(m + l)
    ensures UpsertAll(m, l) == m + l
    decreases |l|
  {
    if l != [] {
      assert Upsert(m, l[0]) == m + [l[0]] by {
        forall i | 0 <= i < |m|
          ensures m[i].id != l[0].id
        {
          assert (m + l)[i] == m[i] && (m + l)[|m|] == l[0];
        }
        UpsertFresh(m, l[0]);
      }
      assert m + [l[0]] + l[1..] == m + l;
      UpsertAllFresh(m + [l[0]], l[1..]);
    }
  }

  lemma {:induction false} UpsertFresh(m: seq<Book>, b: Book)
    requires forall i :: 0 <= i < |m| ==> m[i].id != b.id
    ensures Upsert(m, b) == m + [b]
  {
    if m != [] {
      UpsertFresh(m[1..], b);
      assert m == [m[0]] + m[1..];
    }
  }

  /** Setting every entry of a list with distinct ids into itself changes nothing. */
  lemma {:induction false} UpsertAllSelf(m: seq<Book>, l: seq<Book>)
    requires DistinctIds(m)
    requires forall b :: b in l ==> b in m
    ensures UpsertAll(m, l) == m
    decreases |l|
  {
    if l != [] {
      UpsertSelf(m, l[0]);
      UpsertAllSelf(m, l[1..]);
    }
  }

  lemma {:induction false} UpsertSelf(m: seq<Book>, b: Book)
    requires DistinctIds(m)
    requires b in m
    ensures Upsert(m, b) == m
  {
    if m[0] != b {
      var k :| 0 <= k < |m| && m[k] == b;
      assert k != 0 && m[0].id != m[k].id;
      assert b in m[1..] by {
        assert m[1..][k - 1] == b;
      }
      UpsertSelf(m[1..], b);
      assert m == [m[0]] + m[1..];
    }
  }

  // ------------------------------------------------------------ import

  /** Each imported book with its id and reading status defaulted. */
  function Prepare(l: seq<Book>, freshIds: seq<string>): (r: seq<Book>)
    requires |freshIds| == |l|
    requires forall i :: 0 <= i < |freshIds| ==> freshIds[i] != ""
    ensures |r| == |l|
    ensures forall i :: 0 <= i < |l| ==> r[i] == WithDefaults(l[i], freshIds[i])
  {
    seq(|l|, i requires 0 <= i < |l| => WithDefaults(l[i], freshIds[i]))
  }

  /** The merge `importBooks` performs: the stored list read into a `Map`
      keyed by id, then each prepared import set into it. */
  function Merge(existing: seq<Book>, prepared: seq<Book>): seq<Book> {
    UpsertAll(UpsertAll([], existing), prepared)
  }

  /** `importBooks`: merges the imports into the stored list as an
      insertion-ordered map keyed by id, stores and returns the result. */
  function ImportBooks(st: Store, imported: seq<Book>, freshIds: seq<string>): (r: Step<seq<Book>>)
    requires |freshIds| == |imported|
    requires forall i :: 0 <= i < |freshIds| ==> freshIds[i] != ""
    ensures r.result.Failure? <==> !st.available
    ensures r.result.Failure? ==> r.store == st && r.result.error == Unavailable
    ensures r.result.Success? ==>
      && r.store.available
      && GetBooks(r.store) == r.result.value
      && r.result.value == Merge(GetBooks(st), Prepare(imported, freshIds))
      && DistinctIds(r.result.value)
      && (forall k :: k in Ids(r.result.value) <==> k in Ids(GetBooks(st)) || k in Ids(Prepare(imported, freshIds)))
  {
    if !st.available then Step(st, Failure(Unavailable))
    else
      var merged := Merge(GetBooks(st), Prepare(imported, freshIds));
      MergeOrder(GetBooks(st), Prepare(imported, freshIds));
      Step(Write(st, merged), Success(merged))
  }

  /** The merged list's ids follow `Map` key order: the stored ids first,
      then each new imported id where it first occurs; they are pairwise
      distinct. */
  lemma MergeOrder(existing: seq<Book>, prepared: seq<Book>)
    ensures Ids(Merge(existing, prepared)) == AddKeys(AddKeys([], Ids(existing)), Ids(prepared))
    ensures DistinctIds(Merge(existing, prepared))
  {
    UpsertAllIds([], existing);
    UpsertAllIds(UpsertAll([], existing), prepared);
    AddKeysDistinct([], Ids(existing));
    AddKeysDistinct(AddKeys([], Ids(existing)), Ids(prepared));
    DistinctIdsOfKeys(Merge(existing, prepared));
  }

  /** When the stored ids are already distinct, they keep their positions
      at the front of the merged list. */
  lemma MergeKeepsStoredOrder(existing: seq<Book>, prepared: seq<Book>)
    requires DistinctIds(existing)
    ensures |existing| <= |Merge(existing, prepared)|
    ensures Ids(Merge(existing, prepared))[..|existing|] == Ids(existing)
  {
    assert [] + existing == existing;
    UpsertAllFresh([], existing);
    UpsertAllIds(existing, prepared);
  }

  /** Under each id the merged list holds the last import with that id, or
      else the stored entry. */
  lemma MergeValues(existing: seq<Book>, prepared: seq<Book>, k: string)
    ensures Lookup(Merge(existing, prepared), k) ==
      if LastWithId(prepared, k).Some? then LastWithId(prepared, k) else Lookup(UpsertAll([], existing), k)
  {
    UpsertAllLookup(UpsertAll([], existing), prepared, k);
  }

  /** After an import every imported book's entry has a reading status and
      a non-empty id, and the last import with a given id wins. */
  lemma ImportedEntriesDefaulted(st: Store, imported: seq<Book>, freshIds: seq<string>, i: nat)
    requires st.available
    requires |freshIds| == |imported|
    requires forall j :: 0 <= j < |freshIds| ==> freshIds[j] != ""
    requires i < |imported|
    ensures var merged := GetBooks(ImportBooks(st, imported, freshIds).store);
            var k := Prepare(imported, freshIds)[i].id;
            && k != ""
            && Lookup(merged, k) == LastWithId(Prepare(imported, freshIds), k)
            && Lookup(merged, k).value.readingStatus.Some?
  {
    var prepared := Prepare(imported, freshIds);
    var k := prepared[i].id;
    assert Ids(prepared)[i] == k;
    MergeValues(GetBooks(st), prepared, k);
    var b := LastWithId(prepared, k).value;
    var j :| 0 <= j < |prepared| && prepared[j] == b;
  }

  /** Importing a snapshot of the stored list, when its ids are distinct and
      every entry is already defaulted, leaves the store's list unchanged. */
  lemma ImportSnapshotIdempotent(st: Store, freshIds: seq<string>)
    requires st.available
    requires |freshIds| == |GetBooks(st)|
    requires forall j :: 0 <= j < |freshIds| ==> freshIds[j] != ""
    requires DistinctIds(GetBooks(st))
    requires forall b :: b in GetBooks(st) ==> b.id != "" && b.readingStatus.Some?
    ensures GetBooks(ImportBooks(st, GetBooks(st), freshIds).store) == GetBooks(st)
  {
    var l := GetBooks(st);
    var p := Prepare(l, freshIds);
    assert p == l by {
      forall i | 0 <= i < |l|
        ensures p[i] == l[i]
      {
        assert l[i] in l;
      }
    }
    assert [] + l == l;
    UpsertAllFresh([], l);
    UpsertAllSelf(l, l);
  }
}

=== FILE: book_utils.dfy ===
/** Pure helpers over books: ISBN cleaning, validation and hyphenation,
    and the generic sort, filter and group-by of the utilities file. */
module BookUtils {
  import opened Wrappers
  import opened Text
  import opened Books
  import Seqs

  // ---------------------------------------------------------------- ISBN

  /** Characters kept by `isbn.replace(/[-\s]/g, "")`. */
  predicate KeptInIsbn(c: char) {
    c != '-' && !IsWhitespace(c)
  }

  /** The ISBN with every hyphen and whitespace character removed: the kept
      characters, all of them, in their original order. */
  function CleanIsbn(s: string): (r: string)
    ensures forall i :: 0 <= i < |r| ==> KeptInIsbn(r[i])
    ensures |r| <= |s|
  {
    if s == [] then []
    else (if KeptInIsbn(s[0]) then [s[0]] else []) + CleanIsbn(s[1..])
  }

  /** Cleaning is the order-preserving filter that keeps exactly the
      characters other than hyphens and whitespace. */
  lemma {:induction false} CleanIsbnIsFilter(s: string)
    ensures CleanIsbn(s) == Seqs.Filter(KeptInIsbn, s)
  {
    if s != [] {
      CleanIsbnIsFilter(s[1..]);
    }
  }

  /** Cleaning is a homomorphism for concatenation. */
  lemma {:induction false} CleanAppend(a: string, b: string)
    ensures CleanIsbn(a + b) == CleanIsbn(a) + CleanIsbn(b)
  {
    if a == [] {
      assert a + b == b;
    } else {
      assert (a + b)[1..] == a[1..] + b;
      CleanAppend(a[1..], b);
    }
  }

  /** A string with nothing to remove is its own cleaning. */
  lemma {:induction false} CleanClean(s: string)
    requires forall i :: 0 <= i < |s| ==> KeptInIsbn(s[i])
    ensures CleanIsbn(s) == s
  {
    if s != [] {
      CleanClean(s[1..]);
    }
  }

  /** Characters of the class `[\dX]`. */
  predicate DigitOrX(c: char) {
    IsDigit(c) || c == 'X'
  }

  /** `/^[…]{n}$/.test(s)` for a one-character class `p` and `n == |s|`. */
  function AllChars(p: char -> bool, s: string): (r: bool)
    ensures r <==> forall i :: 0 <= i < |s| ==> p(s[i])
  {
    if s == [] then true else p(s[0]) && AllChars(p, s[1..])
  }

  /** `isValidIsbn`: after cleaning, ten characters from `[\dX]` or thirteen
      decimal digits. No check digit is computed. */
  function IsValidIsbn(s: string): (r: bool)
    ensures r ==> |CleanIsbn(s)| == 10 || |CleanIsbn(s)| == 13
    ensures |CleanIsbn(s)| == 10 ==>
      (r <==> forall i :: 0 <= i < 10 ==> IsDigit(CleanIsbn(s)[i]) || CleanIsbn(s)[i] == 'X')
    ensures |CleanIsbn(s)| == 13 ==>
      (r <==> forall i :: 0 <= i < 13 ==> IsDigit(CleanIsbn(s)[i]))
  {
    var c := CleanIsbn(s);
    if |c| != 10 && |c| != 13 then false
    else if |c| == 10 then AllChars(DigitOrX, c)
    else AllChars(IsDigit, c)
  }

  /** The source comment says only the last character of an ISBN-10 may be
      'X', but the pattern `[\dX]{10}` accepts it anywhere: an 'X' followed by
      nine digits passes the check. */
  lemma IsValidIsbnAcceptsLeadingX(s: string)
    requires |s| == 10 && s[0] == 'X'
    requires forall i :: 1 <= i < 10 ==> IsDigit(s[i])
    ensures IsValidIsbn(s)
  {
    CleanClean(s);
  }

  /** ISBN shape check with 'X' allowed in the last position of an ISBN-10 only. */
  function IsValidIsbnStrict(s: string): (r: bool)
    ensures r <==>
      || (|CleanIsbn(s)| == 10 && (forall i :: 0 <= i < 9 ==> IsDigit(CleanIsbn(s)[i])) && DigitOrX(CleanIsbn(s)[9]))
      || (|CleanIsbn(s)| == 13 && forall i :: 0 <= i < 13 ==> IsDigit(CleanIsbn(s)[i]))
    ensures r ==> IsValidIsbn(s)
  {
    var c := CleanIsbn(s);
    if |c| == 10 then AllChars(IsDigit, c[..9]) && DigitOrX(c[9])
    else if |c| == 13 then AllChars(IsDigit, c)
    else false
  }

  /** The strict check refuses an 'X' anywhere but last. */
  lemma StrictRejectsLeadingX(s: string)
    requires |s| == 10 && s[0] == 'X'
    requires forall i :: 1 <= i < 10 ==> IsDigit(s[i])
    ensures !IsValidIsbnStrict(s)
  {
    CleanClean(s);
  }

  /** `formatIsbn`: a cleaned ISBN-10 in groups 1-3-5-1, an ISBN-13 in groups
      3-1-3-5-1; anything else comes back exactly as given. Cleaning the
      formatted text recovers the cleaned input. */
  function FormatIsbn(s: string): (r: string)
    ensures |CleanIsbn(s)| == 10 ==>
      |r| == 13 && r[1] == '-' && r[5] == '-' && r[11] == '-' && CleanIsbn(r) == CleanIsbn(s)
    ensures |CleanIsbn(s)| == 13 ==>
      |r| == 17 && r[3] == '-' && r[5] == '-' && r[9] == '-' && r[15] == '-' && CleanIsbn(r) == CleanIsbn(s)
    ensures |CleanIsbn(s)| != 10 && |CleanIsbn(s)| != 13 ==> r == s
  {
    var c := CleanIsbn(s);
    if |c| == 10 then
      var r := c[0..1] + "-" + c[1..4] + "-" + c[4..9] + "-" + c[9..];
      Rejoin10(c);
      r
    else if |c| == 13 then
      var r := c[0..3] + "-" + c[3..4] + "-" + c[4..7] + "-" + c[7..12] + "-" + c[12..];
      Rejoin13(c);
      r
    else s
  }

  /** A hyphen between two pieces disappears on cleaning. */
  lemma CleanHyphen(a: string, b: string)
    ensures CleanIsbn(a + "-" + b) == CleanIsbn(a) + CleanIsbn(b)
  {
    assert CleanIsbn("-") == [] by {
      assert !KeptInIsbn('-');
      assert "-"[1..] == [];
    }
    CleanAppend(a, "-");
    CleanAppend(a + "-", b);
  }

  /** Appending a hyphen and a clean piece to text that cleans to `cx`. */
  lemma CleanJoin(x: string, cx: string, p: string)
    requires CleanIsbn(x) == cx
    requires forall i :: 0 <= i < |p| ==> KeptInIsbn(p[i])
    ensures CleanIsbn(x + "-" + p) == cx + p
  {
    CleanHyphen(x, p);
    CleanClean(p);
  }

  lemma Rejoin10(c: string)
    requires |c| == 10 && forall i :: 0 <= i < |c| ==> KeptInIsbn(c[i])
    ensures CleanIsbn(c[0..1] + "-" + c[1..4] + "-" + c[4..9] + "-" + c[9..]) == c
  {
    var x1 := c[0..1] + "-" + c[1..4];
    var x2 := x1 + "-" + c[4..9];
    CleanClean(c[0..1]);
    CleanJoin(c[0..1], c[0..1], c[1..4]);
    assert c[0..1] + c[1..4] == c[..4];
    CleanJoin(x1, c[..4], c[4..9]);
    assert c[..4] + c[4..9] == c[..9];
    CleanJoin(x2, c[..9], c[9..]);
    assert c[..9] + c[9..] == c;
  }

  lemma Rejoin13(c: string)
    requires |c| == 13 && forall i :: 0 <= i < |c| ==> KeptInIsbn(c[i])
    ensures CleanIsbn(c[0..3] + "-" + c[3..4] + "-" + c[4..7] + "-" + c[7..12] + "-" + c[12..]) == c
  {
    var x1 := c[0..3] + "-" + c[3..4];
    var x2 := x1 + "-" + c[4..7];
    var x3 := x2 + "-" + c[7..12];
    CleanClean(c[0..3]);
    CleanJoin(c[0..3], c[0..3], c[3..4]);
    assert c[0..3] + c[3..4] == c[..4];
    CleanJoin(x1, c[..4], c[4..7]);
    assert c[..4] + c[4..7] == c[..7];
    CleanJoin(x2, c[..7], c[7..12]);
    assert c[..7] + c[7..12] == c[..12];
    CleanJoin(x3, c[..12], c[12..]);
    assert c[..12] + c[12..] == c;
  }

  /** Formatting an already formatted ISBN changes nothing, for every input. */
  lemma FormatIsbnIdempotent(s: string)
    ensures FormatIsbn(FormatIsbn(s)) == FormatIsbn(s)
  {
  }

  /** Formatting neither creates nor destroys a valid ISBN shape. */
  lemma FormatIsbnKeepsValidity(s: string)
    ensures IsValidIsbn(FormatIsbn(s)) == IsValidIsbn(s)
  {
  }

  // ------------------------------------------------------------ filtering

  /** A filter value that `filterBooks` ignores: `undefined`, `null` or `""`. */
  predicate Ignored(v: Value) {
    v == Undefined || v == Null || v == Str("")
  }

  /** `===` between a book property and a filter value. Arrays are compared
      by reference, and a filter never holds the book's own array. */
  predicate StrictEquals(a: Value, b: Value) {
    !a.StrList? && !b.StrList? && a == b
  }

  /** One `[key, value]` entry of the filter accepts a book property. */
  predicate EntryMatches(bookValue: Value, v: Value) {
    if Ignored(v) then true
    else if bookValue.Str? && v.Str? then Contains(Lower(bookValue.s), Lower(v.s))
    else StrictEquals(bookValue, v)
  }

  /** Every entry of the filter accepts the book. */
  predicate MatchesAll(filters: map<Field, Value>, b: Book) {
    forall f :: f in filters ==> EntryMatches(Get(b, f), filters[f])
  }

  function Matcher(filters: map<Field, Value>): Book -> bool {
    b => MatchesAll(filters, b)
  }

  /** `filterBooks`: the books every filter entry accepts, in input order. */
  function FilterBooks(books: seq<Book>, filters: map<Field, Value>): (r: seq<Book>)
    ensures Seqs.Subsequence(r, books)
    ensures forall b :: b in r <==> b in books && MatchesAll(filters, b)
    ensures |r| == Seqs.Count(Matcher(filters), books)
  {
    Seqs.FilterCount(Matcher(filters), books);
    Seqs.Filter(Matcher(filters), books)
  }

  /** A filter whose values are all `undefined`, `null` or `""` keeps everything. */
  lemma FilterBooksIgnoredKeepsAll(books: seq<Book>, filters: map<Field, Value>)
    requires forall f :: f in filters ==> Ignored(filters[f])
    ensures FilterBooks(books, filters) == books
  {
    Seqs.FilterAll(Matcher(filters), books);
  }

  /** A single non-empty string entry keeps a book exactly when the property is
      a string containing the value, ignoring case; any other entry keeps it
      exactly when the property is strictly equal to the value. */
  lemma FilterBooksSingleEntry(books: seq<Book>, f: Field, v: Value, b: Book)
    requires !Ignored(v)
    requires b in books
    ensures v.Str? && Get(b, f).Str? ==>
      (b in FilterBooks(books, map[f := v]) <==> Contains(Lower(Get(b, f).s), Lower(v.s)))
    ensures !(v.Str? && Get(b, f).Str?) ==>
      (b in FilterBooks(books, map[f := v]) <==> StrictEquals(Get(b, f), v))
  {
    assert MatchesAll(map[f := v], b) <==> EntryMatches(Get(b, f), v);
  }

  /** Because matching is by substring, a reading-status filter of "read" also
      keeps books whose status is "unread". */
  lemma FilterBooksReadMatchesUnread(books: seq<Book>, b: Book)
    requires b in books && b.readingStatus == Some(Unread)
    ensures b in FilterBooks(books, map[Status := Str("read")])
  {
    GetStatus(b);
    ReadEntryMatchesUnread();
    SingleEntryMatch(Status, Str("read"), b);
  }

  /** A one-entry filter accepts a book exactly when its entry does. */
  lemma SingleEntryMatch(f: Field, v: Value, b: Book)
    ensures MatchesAll(map[f := v], b) <==> EntryMatches(Get(b, f), v)
  {
    assert f in map[f := v];
  }

  lemma ReadEntryMatchesUnread()
    ensures EntryMatches(Str("unread"), Str("read"))
  {
    LowerPlain("unread");
    LowerPlain("read");
    assert "unread"[2..6] == "read";
    assert OccursAt("unread", "read", 2);
  }

  /** The filter entry with enumerated reading statuses compared exactly. */
  predicate EntryMatchesExact(f: Field, bookValue: Value, v: Value) {
    if f == Status && !Ignored(v) then bookValue == v else EntryMatches(bookValue, v)
  }

  predicate MatchesAllExact(filters: map<Field, Value>, b: Book) {
    forall f :: f in filters ==> EntryMatchesExact(f, Get(b, f), filters[f])
  }

  function MatcherExact(filters: map<Field, Value>): Book -> bool {
    b => MatchesAllExact(filters, b)
  }

  /** `filterBooks` with the reading status matched exactly. Other fields
      behave as before. */
  function FilterBooksExact(books: seq<Book>, filters: map<Field, Value>): (r: seq<Book>)
    ensures Seqs.Subsequence(r, books)
    ensures forall b :: b in r <==> b in books && MatchesAllExact(filters, b)
    ensures |r| == Seqs.Count(MatcherExact(filters), books)
    ensures Status !in filters ==> r == FilterBooks(books, filters)
  {
    ExactAgreesWithoutStatus(books, filters);
    Seqs.FilterCount(MatcherExact(filters), books);
    Seqs.Filter(MatcherExact(filters), books)
  }

  /** A status filter keeps only books in exactly that status. */
  lemma FilterBooksExactStatus(books: seq<Book>, filters: map<Field, Value>, st: ReadingStatus, b: Book)
    requires Status in filters && filters[Status] == Str(StatusName(st))
    requires b in FilterBooksExact(books, filters)
    ensures b.readingStatus == Some(st)
  {
    GetStatus(b);
    assert EntryMatchesExact(Status, Get(b, Status), filters[Status]);
    assert ParseStatus(StatusName(st)) == Some(st);
  }

  lemma ExactAgreesWithoutStatus(books: seq<Book>, filters: map<Field, Value>)
    ensures Status !in filters ==>
      Seqs.Filter(MatcherExact(filters), books) == Seqs.Filter(Matcher(filters), books)
  {
    if Status !in filters {
      assert forall b :: MatchesAllExact(filters, b) == MatchesAll(filters, b);
      Seqs.FilterSame(MatcherExact(filters), Matcher(filters), books);
    }
  }

  // ------------------------------------------------------------- grouping

  /** The label of the group a book falls in: the field's value as a string,
      or "Non spécifié" when the value is falsy. */
  function GroupKey(b: Book, f: Field): (k: string)
    ensures !Truthy(Get(b, f)) ==> k == "Non spécifié"
    ensures Get(b, f).Str? && Truthy(Get(b, f)) ==> k == Get(b, f).s
  {
    var v := Get(b, f);
    if !Truthy(v) then "Non spécifié"
    else match v
      case Str(s) => s
      case Num(n) => IntToString(n)
      case StrList(items) => Join(items, ",")
      case _ => "Non spécifié"
  }

  /** The key function `groupBooksByField` uses for field `f`. */
  function KeyOf(f: Field): Book -> string {
    b => GroupKey(b, f)
  }

  function KeyIs(key: Book -> string, k: string): Book -> bool {
    b => key(b) == k
  }

  /** A record of groups in key-insertion order. */
  type Groups = seq<(string, seq<Book>)>

  /** `groups[key].push(book)`, creating the group at the end when new. */
  function AddToGroup(gs: Groups, k: string, b: Book): (r: Groups)
    ensures |r| == |gs| || |r| == |gs| + 1
  {
    if gs == [] then [(k, [b])]
    else if gs[0].0 == k then [(k, gs[0].1 + [b])] + gs[1..]
    else [gs[0]] + AddToGroup(gs[1..], k, b)
  }

  /** The reduce loop of `groupBooksByField`, from the groups built so far. */
  function GroupFrom(gs: Groups, books: seq<Book>, key: Book -> string): Groups
    decreases |books|
  {
    if books == [] then gs
    else GroupFrom(AddToGroup(gs, key(books[0]), books[0]), books[1..], key)
  }

  /** No group is empty. */
  ghost predicate NonEmptyGroups(gs: Groups) {
    forall i :: 0 <= i < |gs| ==> gs[i].1 != []
  }

  /** A push creates a group with its book in it, so no group is ever empty. */
  lemma {:induction false} AddToGroupNonEmpty(gs: Groups, k: string, b: Book)
    requires NonEmptyGroups(gs)
    ensures NonEmptyGroups(AddToGroup(gs, k, b))
  {
    if gs != [] && gs[0].0 != k {
      AddToGroupNonEmpty(gs[1..], k, b);
      var r := AddToGroup(gs, k, b);
      forall i | 0 <= i < |r|
        ensures r[i].1 != []
      {
        if i > 0 {
          assert r[i] == AddToGroup(gs[1..], k, b)[i - 1];
        }
      }
    }
  }

  lemma {:induction false} GroupFromNonEmpty(gs: Groups, books: seq<Book>, key: Book -> string)
    requires NonEmptyGroups(gs)
    ensures NonEmptyGroups(GroupFrom(gs, books, key))
    decreases |books|
  {
    if books != [] {
      AddToGroupNonEmpty(gs, key(books[0]), books[0]);
      GroupFromNonEmpty(AddToGroup(gs, key(books[0]), books[0]), books[1..], key);
    }
  }

  /** The keys of the groups, in order. */
  function KeysOf(gs: Groups): (ks: seq<string>)
    ensures |ks| == |gs|
    ensures forall i :: 0 <= i < |gs| ==> ks[i] == gs[i].0
  {
    if gs == [] then [] else [gs[0].0] + KeysOf(gs[1..])
  }

  predicate HasKey(gs: Groups, k: string) {
    k in KeysOf(gs)
  }

  ghost predicate DistinctKeys(gs: Groups) {
    forall i, j :: 0 <= i < j < |gs| ==> gs[i].0 != gs[j].0
  }

  /** `gs` is the grouping of `seen`: distinct keys, one per key present, each
      holding exactly the books of that key in order. */
  ghost predicate GroupsOf(gs: Groups, seen: seq<Book>, key: Book -> string) {
    && DistinctKeys(gs)
    && (forall i :: 0 <= i < |gs| ==> gs[i].1 == Seqs.Filter(KeyIs(key, gs[i].0), seen))
    && (forall j :: 0 <= j < |seen| ==> HasKey(gs, key(seen[j])))
  }

  /** Sum of the group sizes. */
  function TotalSize(gs: Groups): nat {
    if gs == [] then 0 else |gs[0].1| + TotalSize(gs[1..])
  }

  lemma {:induction false} AddToGroupSize(gs: Groups, k: string, b: Book)
    ensures TotalSize(AddToGroup(gs, k, b)) == TotalSize(gs) + 1
  {
    if gs != [] && gs[0].0 != k {
      AddToGroupSize(gs[1..], k, b);
      assert AddToGroup(gs, k, b)[1..] == AddToGroup(gs[1..], k, b);
    }
  }

  /** Adding keeps every existing key in place and appends a new key last. */
  lemma {:induction false} AddToGroupKeys(gs: Groups, k: string, b: Book)
    ensures |AddToGroup(gs, k, b)| == if HasKey(gs, k) then |gs| else |gs| + 1
    ensures forall i :: 0 <= i < |gs| ==> AddToGroup(gs, k, b)[i].0 == gs[i].0
    ensures !HasKey(gs, k) ==> AddToGroup(gs, k, b)[|gs|] == (k, [b])
  {
    if gs != [] && gs[0].0 != k {
      AddToGroupKeys(gs[1..], k, b);
      var r := AddToGroup(gs, k, b);
      var t := AddToGroup(gs[1..], k, b);
      assert r == [gs[0]] + t;
      assert KeysOf(gs) == [gs[0].0] + KeysOf(gs[1..]);
    } else if gs != [] {
      assert KeysOf(gs)[0] == k;
    }
  }

  /** Adding appends the book to the group of its key and to no other. */
  lemma {:induction false} AddToGroupValues(gs: Groups, k: string, b: Book)
    requires DistinctKeys(gs)
    ensures |AddToGroup(gs, k, b)| >= |gs|
    ensures forall i :: 0 <= i < |gs| ==>
      AddToGroup(gs, k, b)[i].1 == if gs[i].0 == k then gs[i].1 + [b] else gs[i].1
  {
    if gs != [] && gs[0].0 != k {
      AddToGroupValues(gs[1..], k, b);
      var r := AddToGroup(gs, k, b);
      assert r == [gs[0]] + AddToGroup(gs[1..], k, b);
      forall i | 0 <= i < |gs|
        ensures r[i].1 == if gs[i].0 == k then gs[i].1 + [b] else gs[i].1
      {
        if i > 0 {
          assert r[i] == AddToGroup(gs[1..], k, b)[i - 1];
          assert gs[1..][i - 1] == gs[i];
        }
      }
    } else if gs != [] {
      forall i | 0 < i < |gs|
        ensures gs[i].0 != k
      {
        assert gs[0].0 != gs[i].0;
      }
    }
  }

  /** After adding, every group still holds exactly the books of its key. */
  lemma AddToGroupContents(gs: Groups, seen: seq<Book>, b: Book, key: Book -> string, next: seq<Book>)
    requires GroupsOf(gs, seen, key)
    requires next == seen + [b]
    ensures forall i :: 0 <= i < |AddToGroup(gs, key(b), b)| ==>
      AddToGroup(gs, key(b), b)[i].1 == Seqs.Filter(KeyIs(key, AddToGroup(gs, key(b), b)[i].0), next)
  {
    var k := key(b);
    var r := AddToGroup(gs, k, b);
    AddToGroupKeys(gs, k, b);
    AddToGroupValues(gs, k, b);
    forall i | 0 <= i < |r|
      ensures r[i].1 == Seqs.Filter(KeyIs(key, r[i].0), next)
    {
      var p := KeyIs(key, r[i].0);
      Seqs.FilterAppend(p, seen, [b]);
      Seqs.FilterSingle(p, b);
      if i == |gs| {
        NoBookOfNewKey(gs, seen, key, k);
      }
    }
  }

  /** A key without a group has no books among those grouped. */
  lemma NoBookOfNewKey(gs: Groups, seen: seq<Book>, key: Book -> string, k: string)
    requires GroupsOf(gs, seen, key)
    requires !HasKey(gs, k)
    ensures Seqs.Filter(KeyIs(key, k), seen) == []
  {
    var none := Seqs.Filter(KeyIs(key, k), seen);
    forall x | x in seen
      ensures key(x) != k
    {
      var j :| 0 <= j < |seen| && seen[j] == x;
      assert HasKey(gs, key(seen[j]));
    }

  }

  /** After adding, keys stay pairwise distinct. */
  lemma AddToGroupDistinct(gs: Groups, k: string, b: Book)
    requires DistinctKeys(gs)
    ensures DistinctKeys(AddToGroup(gs, k, b))
  {
    var r := AddToGroup(gs, k, b);
    AddToGroupKeys(gs, k, b);
    forall i, j | 0 <= i < j < |r|
      ensures r[i].0 != r[j].0
    {
      if j == |gs| {
        assert KeysOf(gs)[i] != k;
      }
    }
  }

  /** After adding, every book seen so far has a group. */
  lemma AddToGroupCovers(gs: Groups, seen: seq<Book>, b: Book, key: Book -> string, all: seq<Book>)
    requires forall j :: 0 <= j < |seen| ==> HasKey(gs, key(seen[j]))
    requires all == seen + [b]
    ensures forall j :: 0 <= j < |all| ==> HasKey(AddToGroup(gs, key(b), b), key(all[j]))
  {
    var k := key(b);
    var r := AddToGroup(gs, k, b);
    AddToGroupKeys(gs, k, b);
    forall j | 0 <= j < |all|
      ensures HasKey(r, key(all[j]))
    {
      var kj := key(all[j]);
      var i: int;
      if j < |seen| {
        assert all[j] == seen[j];
        i :| 0 <= i < |gs| && KeysOf(gs)[i] == kj;
      } else if HasKey(gs, k) {
        i :| 0 <= i < |gs| && KeysOf(gs)[i] == k;
      } else {
        i := |gs|;
      }
      assert KeysOf(r)[i] == kj;
    }
  }

  /** Adding one book keeps `GroupsOf` for the extended prefix. */
  lemma AddToGroupSpec(gs: Groups, seen: seq<Book>, b: Book, key: Book -> string, next: seq<Book>)
    requires GroupsOf(gs, seen, key)
    requires next == seen + [b]
    ensures GroupsOf(AddToGroup(gs, key(b), b), next, key)
  {
    AddToGroupContents(gs, seen, b, key, next);
    AddToGroupDistinct(gs, key(b), b);
    AddToGroupCovers(gs, seen, b, key, next);
  }

  /** One step of the fold keeps the grouping invariant and the size count. */
  lemma GroupStep(gs: Groups, all: seq<Book>, n: nat, key: Book -> string)
    requires n < |all|
    requires GroupsOf(gs, all[..n], key) && TotalSize(gs) == n
    ensures GroupsOf(AddToGroup(gs, key(all[n]), all[n]), all[..n + 1], key)
    ensures TotalSize(AddToGroup(gs, key(all[n]), all[n])) == n + 1
  {
    assert all[..n + 1] == all[..n] + [all[n]];
    AddToGroupSpec(gs, all[..n], all[n], key, all[..n + 1]);
    AddToGroupSize(gs, key(all[n]), all[n]);
  }

  /** The fold from the `n`-th book on completes the grouping of `all`. */
  lemma {:induction false} GroupFromSpec(gs: Groups, all: seq<Book>, n: nat, key: Book -> string)
    requires n <= |all|
    requires GroupsOf(gs, all[..n], key) && TotalSize(gs) == n
    ensures GroupsOf(GroupFrom(gs, all[n..], key), all, key)
    ensures TotalSize(GroupFrom(gs, all[n..], key)) == |all|
    decreases |all| - n
  {
    if n == |all| {
      assert all[..n] == all;
    } else {
      var next := AddToGroup(gs, key(all[n]), all[n]);
      GroupStep(gs, all, n, key);
      assert all[n..][1..] == all[n + 1..];
      GroupFromSpec(next, all, n + 1, key);
    }
  }

  /** `groupBooksByField`: groups have distinct keys; each holds exactly the
      books of its key, in input order; every book's key has a group; the
      group sizes add up to the number of books. */
  function GroupBooksByField(books: seq<Book>, f: Field): (r: Groups)
    ensures forall i, j :: 0 <= i < j < |r| ==> r[i].0 != r[j].0
    ensures forall i :: 0 <= i < |r| ==> r[i].1 == Seqs.Filter(KeyIs(KeyOf(f), r[i].0), books)
    ensures forall b :: b in books ==> GroupKey(b, f) in KeysOf(r)
    ensures TotalSize(r) == |books|
    ensures forall i :: 0 <= i < |r| ==> r[i].1 != []
  {
    assert books[..0] == [] && books[0..] == books;
    GroupFromNonEmpty([], books, KeyOf(f));
    GroupFromSpec([], books, 0, KeyOf(f));
    var r := GroupFrom([], books, KeyOf(f));
    assert forall b :: b in books ==> exists j :: 0 <= j < |books| && books[j] == b;
    r
  }

  /** A book sits in the group of its own key and in no other. */
  lemma GroupedOnce(books: seq<Book>, f: Field, b: Book, i: nat)
    requires b in books
    requires i < |GroupBooksByField(books, f)|
    ensures b in GroupBooksByField(books, f)[i].1 <==> GroupBooksByField(books, f)[i].0 == GroupKey(b, f)
  {
  }

  /** Property names every plain object inherits from `Object.prototype`.
      Reading any of them on `{}` gives a truthy value that is not an array. */
  const InheritedNames: set<string> := {
    "constructor", "toString", "toLocaleString", "valueOf", "hasOwnProperty",
    "isPrototypeOf", "propertyIsEnumerable", "__proto__", "__defineGetter__",
    "__defineSetter__", "__lookupGetter__", "__lookupSetter__"}

  const PushNotAFunction := "TypeError: groups[key].push is not a function"

  /** The reduce of `groupBooksByField` as written, on a plain object: a key
      naming an inherited property finds a value already there, so no group
      is created, and calling `push` on that value throws. */
  function GroupFromAsWritten(gs: Groups, books: seq<Book>, key: Book -> string): (r: Result<Groups, string>)
    ensures r.Failure? <==> exists i :: 0 <= i < |books| && key(books[i]) in InheritedNames
    ensures r.Success? ==> r.value == GroupFrom(gs, books, key)
    decreases |books|
  {
    if books == [] then Success(gs)
    else if key(books[0]) in InheritedNames then Failure(PushNotAFunction)
    else
      var r := GroupFromAsWritten(AddToGroup(gs, key(books[0]), books[0]), books[1..], key);
      assert forall i :: 0 < i < |books| ==> books[i] == books[1..][i - 1];
      r
  }

  /** `groupBooksByField` as written: it throws as soon as one book's key is
      the name of an inherited property, and otherwise groups as intended. */
  function GroupBooksByFieldAsWritten(books: seq<Book>, f: Field): (r: Result<Groups, string>)
    ensures r.Failure? <==> exists i :: 0 <= i < |books| && GroupKey(books[i], f) in InheritedNames
    ensures r.Success? ==> r.value == GroupBooksByField(books, f)
  {
    GroupFromAsWritten([], books, KeyOf(f))
  }

  /** A book whose genre is "constructor" makes grouping by genre throw. */
  lemma GroupByGenreConstructorThrows(b: Book)
    requires b.genre == "constructor"
    ensures GroupBooksByFieldAsWritten([b], Genre).Failure?
  {
    assert GroupKey([b][0], Genre) == "constructor";
  }

  // -------------------------------------------------------------- sorting

  datatype SortOrder = Asc | Desc

  /** A three-way comparison whose sign flips when the arguments are
      swapped, as `localeCompare` guarantees. */
  ghost predicate SignSymmetric<T(!new)>(cmp: (T, T) -> int) {
    forall x, y :: cmp(x, y) >= 0 ==> cmp(y, x) <= 0
  }

  /** The comparator passed to `sort`: `a[sortBy] || ""` against
      `b[sortBy] || ""`, by `localeCompare` when both are strings, else equal. */
  function CompareBooks(a: Book, b: Book, f: Field, order: SortOrder, cmp: (string, string) -> int): int {
    var va := if Truthy(Get(a, f)) then Get(a, f) else Str("");
    var vb := if Truthy(Get(b, f)) then Get(b, f) else Str("");
    if va.Str? && vb.Str? then
      (if order == Asc then cmp(va.s, vb.s) else cmp(vb.s, va.s))
    else 0
  }

  function Comparator(f: Field, order: SortOrder, cmp: (string, string) -> int): (Book, Book) -> int {
    (a, b) => CompareBooks(a, b, f, order, cmp)
  }

  /** Neighbours of `s` are in comparator order. */
  ghost predicate SortedBy(s: seq<Book>, c: (Book, Book) -> int) {
    forall i :: 0 <= i < |s| - 1 ==> c(s[i], s[i + 1]) <= 0
  }

  /** Prepending an element that is in order with the head keeps a list sorted. */
  lemma ConsSorted(x: Book, t: seq<Book>, c: (Book, Book) -> int)
    requires SortedBy(t, c)
    requires t != [] ==> c(x, t[0]) <= 0
    ensures SortedBy([x] + t, c)
  {
    var r := [x] + t;
    forall i | 0 <= i < |r| - 1
      ensures c(r[i], r[i + 1]) <= 0
    {
      if i > 0 {
        assert r[i] == t[i - 1] && r[i + 1] == t[i];
      }
    }
  }

  /** Stable insertion: `b` goes before the first element it does not
      compare greater than, so it stays ahead of the elements it ties with. */
  function Insert(b: Book, s: seq<Book>, c: (Book, Book) -> int): (r: seq<Book>)
    requires SignSymmetric(c)
    requires SortedBy(s, c)
    ensures SortedBy(r, c)
    ensures |r| == |s| + 1
    ensures r[0] == b || (s != [] && r[0] == s[0])
  {
    if s == [] || c(b, s[0]) <= 0 then
      ConsSorted(b, s, c);
      [b] + s
    else
      var t := Insert(b, s[1..], c);
      assert s == [s[0]] + s[1..];
      ConsSorted(s[0], t, c);
      [s[0]] + t
  }

  /** Insertion adds exactly the inserted element. */
  lemma {:induction false} InsertPermutation(b: Book, s: seq<Book>, c: (Book, Book) -> int)
    requires SignSymmetric(c)
    requires SortedBy(s, c)
    ensures multiset(Insert(b, s, c)) == multiset(s) + multiset{b}
  {
    if s != [] && c(b, s[0]) > 0 {
      InsertPermutation(b, s[1..], c);
      assert s == [s[0]] + s[1..];
      assert Insert(b, s, c) == [s[0]] + Insert(b, s[1..], c);
    }
  }

  /** Ties form classes: two elements tied with a third are tied with each other. */
  ghost predicate TiesTransitive<T(!new)>(c: (T, T) -> int) {
    forall x, y, z {:trigger c(x, y), c(x, z)} :: c(x, y) == 0 && c(x, z) == 0 ==> c(y, z) == 0
  }

  /** The elements tied with `x`. */
  function TiedWith(c: (Book, Book) -> int, x: Book): Book -> bool {
    y => c(x, y) == 0
  }

  /** An element `b` compares greater than is not tied with anything `b` is tied with. */
  lemma NotTiedPast(c: (Book, Book) -> int, x: Book, b: Book, y: Book)
    requires TiesTransitive(c)
    requires c(x, b) == 0 && c(b, y) > 0
    ensures !TiedWith(c, x)(y)
  {
    assert c(x, y) == 0 ==> c(b, y) == 0;
  }

  /** Among the elements tied with `x`, insertion puts `b` in front and
      leaves the others in their order. */
  lemma {:induction false} InsertStable(b: Book, s: seq<Book>, c: (Book, Book) -> int, x: Book)
    requires SignSymmetric(c) && TiesTransitive(c)
    requires SortedBy(s, c)
    ensures Seqs.Filter(TiedWith(c, x), Insert(b, s, c))
         == (if c(x, b) == 0 then [b] else []) + Seqs.Filter(TiedWith(c, x), s)
  {
    var p := TiedWith(c, x);
    var e := if c(x, b) == 0 then [b] else [];
    if s == [] || c(b, s[0]) <= 0 {
      assert Insert(b, s, c) == [b] + s;
      Seqs.FilterAppend(p, [b], s);
      Seqs.FilterSingle(p, b);
    } else {
      InsertStable(b, s[1..], c, x);
      if c(x, b) == 0 {
        NotTiedPast(c, x, b, s[0]);
      }
      var t := Insert(b, s[1..], c);
      assert Insert(b, s, c) == [s[0]] + t;
      assert s == [s[0]] + s[1..];
      Seqs.ConsFilterShift(p, s[0], t, s[1..], e, Insert(b, s, c), s);
    }
  }

  /** Insertion sort under any sign-symmetric comparator. */
  function SortWith(s: seq<Book>, c: (Book, Book) -> int): (r: seq<Book>)
    requires SignSymmetric(c)
    ensures SortedBy(r, c)
    ensures multiset(r) == multiset(s)
  {
    if s == [] then []
    else
      var t := SortWith(s[1..], c);
      InsertPermutation(s[0], t, c);
      Seqs.MultisetCons(s);
      Insert(s[0], t, c)
  }

  /** A list already in comparator order comes back unchanged: ties are
      never swapped. */
  lemma {:induction false} SortWithSorted(s: seq<Book>, c: (Book, Book) -> int)
    requires SignSymmetric(c)
    ensures SortedBy(s, c) ==> SortWith(s, c) == s
  {
    if s != [] && SortedBy(s, c) {
      assert SortedBy(s[1..], c) by {
        forall i | 0 <= i < |s[1..]| - 1
          ensures c(s[1..][i], s[1..][i + 1]) <= 0
        {
          assert s[1..][i] == s[i + 1] && s[1..][i + 1] == s[i + 2];
        }
      }
      SortWithSorted(s[1..], c);
      assert s == [s[0]] + s[1..];
    }
  }

  /** Stability: the elements tied with any `x` keep their input order. */
  lemma {:induction false} SortWithStable(s: seq<Book>, c: (Book, Book) -> int, x: Book)
    requires SignSymmetric(c) && TiesTransitive(c)
    ensures Seqs.Filter(TiedWith(c, x), SortWith(s, c)) == Seqs.Filter(TiedWith(c, x), s)
  {
    if s != [] {
      SortWithStable(s[1..], c, x);
      InsertStable(s[0], SortWith(s[1..], c), c, x);
      assert s == [s[0]] + s[1..];
      Seqs.FilterAppend(TiedWith(c, x), [s[0]], s[1..]);
      Seqs.FilterSingle(TiedWith(c, x), s[0]);
    }
  }

  /** `localeCompare` lifted to books by `CompareBooks` keeps its sign symmetry. */
  lemma ComparatorSignSymmetric(f: Field, order: SortOrder, cmp: (string, string) -> int)
    requires SignSymmetric(cmp)
    ensures SignSymmetric(Comparator(f, order, cmp))
  {
    var c := Comparator(f, order, cmp);
    forall x, y | c(x, y) >= 0
      ensures c(y, x) <= 0
    {
      assert c(x, y) == CompareBooks(x, y, f, order, cmp);
    }
  }

  /** `sortBooks`: a permutation of the input in which neighbours are in
      comparator order, for any `localeCompare` whose sign flips with its
      arguments. */
  function SortBooks(books: seq<Book>, f: Field, order: SortOrder, cmp: (string, string) -> int): (r: seq<Book>)
    requires SignSymmetric(cmp)
    ensures forall i :: 0 <= i < |r| - 1 ==> CompareBooks(r[i], r[i + 1], f, order, cmp) <= 0
    ensures multiset(r) == multiset(books)
    ensures (forall i :: 0 <= i < |books| - 1 ==> CompareBooks(books[i], books[i + 1], f, order, cmp) <= 0) ==> r == books
  {
    var c := Comparator(f, order, cmp);
    ComparatorSignSymmetric(f, order, cmp);
    SortWithSorted(books, c);
    SortWith(books, c)
  }

  /** `Array.prototype.sort` is stable: books the comparator ties keep
      their input order, whenever ties form classes. */
  lemma SortBooksStable(books: seq<Book>, f: Field, order: SortOrder, cmp: (string, string) -> int, x: Book)
    requires SignSymmetric(cmp)
    requires TiesTransitive(Comparator(f, order, cmp))
    ensures Seqs.Filter(TiedWith(Comparator(f, order, cmp), x), SortBooks(books, f, order, cmp))
         == Seqs.Filter(TiedWith(Comparator(f, order, cmp), x), books)
  {
    ComparatorSignSymmetric(f, order, cmp);
    SortWithStable(books, Comparator(f, order, cmp), x);
  }

  /** Sorting by a field no book holds as a truthy string (every value is a
      number, say) leaves the list as it was. */
  lemma SortBooksNonStringKeepsOrder(books: seq<Book>, f: Field, order: SortOrder, cmp: (string, string) -> int)
    requires SignSymmetric(cmp)
    requires forall b :: b in books ==> Truthy(Get(b, f)) && !Get(b, f).Str?
    ensures SortBooks(books, f, order, cmp) == books
  {
    forall i | 0 <= i < |books| - 1
      ensures CompareBooks(books[i], books[i + 1], f, order, cmp) <= 0
    {
      assert books[i] in books && books[i + 1] in books;
    }
  }
}

=== FILE: books.dfy ===
/** The `Book` record shared by both the store and the user interface,
    with field-by-name access as JavaScript's `book[field]` provides it. */
module Books {
  import opened Wrappers

  datatype ReadingStatus = Unread | Reading | Read

  /** The string a reading status is stored as. */
  function StatusName(s: ReadingStatus): string {
    match s
    case Unread => "unread"
    case Reading => "reading"
    case Read => "read"
  }

  /** The reading status a stored string denotes, if any. */
  function ParseStatus(s: string): (r: Option<ReadingStatus>)
    ensures r.Some? ==> StatusName(r.value) == s
    ensures forall st :: StatusName(st) == s ==> r == Some(st)
  {
    if s == "unread" then Some(Unread)
    else if s == "reading" then Some(Reading)
    else if s == "read" then Some(Read)
    else None
  }

  /** A book. Optional properties are `None` when absent (`undefined`). */
  datatype Book = Book(
    id: string,
    title: string,
    author: string,
    genre: string,
    publisher: Option<string>,
    publishedDate: Option<string>,
    isbn: Option<string>,
    coverUrl: Option<string>,
    description: Option<string>,
    pageCount: Option<int>,
    readingStatus: Option<ReadingStatus>,
    language: Option<string>,
    rating: Option<int>,
    notes: Option<string>,
    tags: Option<seq<string>>,
    dateAdded: Option<string>,
    dateModified: Option<string>)

  /** The property names of a book (`keyof Book`). */
  datatype Field =
    | Id | Title | Author | Genre | Publisher | PublishedDate | Isbn | CoverUrl
    | Description | PageCount | Status | Language | Rating | Notes | Tags
    | DateAdded | DateModified

  /** A JavaScript value as far as the model needs to tell them apart. */
  datatype Value = Undefined | Null | Str(s: string) | Num(n: int) | StrList(items: seq<string>)

  /** JavaScript truthiness: `undefined`, `null`, `""` and `0` are falsy; arrays never are. */
  predicate Truthy(v: Value) {
    match v
    case Undefined => false
    case Null => false
    case Str(s) => s != ""
    case Num(n) => n != 0
    case StrList(_) => true
  }

  function OfStr(o: Option<string>): Value {
    match o
    case Some(s) => Str(s)
    case None => Undefined
  }

  function OfNum(o: Option<int>): Value {
    match o
    case Some(n) => Num(n)
    case None => Undefined
  }

  /** `book[field]`. */
  function Get(b: Book, f: Field): Value {
    match f
    case Id => Str(b.id)
    case Title => Str(b.title)
    case Author => Str(b.author)
    case Genre => Str(b.genre)
    case Publisher => OfStr(b.publisher)
    case PublishedDate => OfStr(b.publishedDate)
    case Isbn => OfStr(b.isbn)
    case CoverUrl => OfStr(b.coverUrl)
    case Description => OfStr(b.description)
    case PageCount => OfNum(b.pageCount)
    case Status => if b.readingStatus.Some? then Str(StatusName(b.readingStatus.value)) else Undefined
    case Language => OfStr(b.language)
    case Rating => OfNum(b.rating)
    case Notes => OfStr(b.notes)
    case Tags => if b.tags.Some? then StrList(b.tags.value) else Undefined
    case DateAdded => OfStr(b.dateAdded)
    case DateModified => OfStr(b.dateModified)
  }

  /** The status property of a book: its status name, or `undefined`. */
  lemma GetStatus(b: Book)
    ensures Get(b, Status) == if b.readingStatus.Some? then Str(StatusName(b.readingStatus.value)) else Undefined
  {
  }

  /** The values the declared type of field `f` admits. */
  predicate Fits(f: Field, v: Value) {
    match f
    case Id | Title | Author | Genre => v.Str?
    case PageCount | Rating => v.Undefined? || v.Num?
    case Status => v.Undefined? || (v.Str? && ParseStatus(v.s).Some?)
    case Tags => v.Undefined? || v.StrList?
    case _ => v.Undefined? || v.Str?
  }

  function ToStr(v: Value): Option<string> {
    if v.Str? then Some(v.s) else None
  }

  function ToNum(v: Value): Option<int> {
    if v.Num? then Some(v.n) else None
  }

  /** `{ ...book, [field]: value }`: the named field takes the new value and
      every other field reads as before. */
  function With(b: Book, f: Field, v: Value): (r: Book)
    requires Fits(f, v)
    ensures Get(r, f) == v
    ensures forall g :: g != f ==> Get(r, g) == Get(b, g)
  {
    match f
    case Id => b.(id := v.s)
    case Title => b.(title := v.s)
    case Author => b.(author := v.s)
    case Genre => b.(genre := v.s)
    case Publisher => b.(publisher := ToStr(v))
    case PublishedDate => b.(publishedDate := ToStr(v))
    case Isbn => b.(isbn := ToStr(v))
    case CoverUrl => b.(coverUrl := ToStr(v))
    case Description => b.(description := ToStr(v))
    case PageCount => b.(pageCount := ToNum(v))
    case Status => b.(readingStatus := if v.Str? then ParseStatus(v.s) else None)
    case Language => b.(language := ToStr(v))
    case Rating => b.(rating := ToNum(v))
    case Notes => b.(notes := ToStr(v))
    case Tags => b.(tags := if v.StrList? then Some(v.items) else None)
    case DateAdded => b.(dateAdded := ToStr(v))
    case DateModified => b.(dateModified := ToStr(v))
  }

  /** Writing back the value a field already holds changes nothing. */
  lemma WithOwnValue(b: Book, f: Field)
    ensures Fits(f, Get(b, f))
    ensures With(b, f, Get(b, f)) == b
  {
    if f == Status && b.readingStatus.Some? {
      assert ParseStatus(StatusName(b.readingStatus.value)) == b.readingStatus;
    }
  }
}

=== FILE: print_widget.dfy ===
/** The data logic of the Grist print widget: turning the column-major
    table the document API returns into records, keeping the merchants of
    the selected distributor, and totalling their piggy banks. */
module PrintWidget {
  import opened Wrappers
  import Seqs

  /** A JavaScript value as it appears in a Grist cell or column. */
  datatype Cell = Undefined | Null | Bool(b: bool) | Num(n: int) | Str(s: string) | List(items: seq<Cell>)

  predicate Truthy(c: Cell) {
    match c
    case Undefined => false
    case Null => false
    case Bool(b) => b
    case Num(n) => n != 0
    case Str(s) => s != ""
    case List(_) => true
  }

  /** An object keyed by column or field name. */
  type Object = map<string, Cell>

  // ---------------------------------------------------- convertGristRecords

  /** The row at `index`: every column that is an array longer than the
      index contributes its entry; other columns are absent. */
  function Row(data: Object, index: nat): (r: Object)
    ensures forall k :: k in r <==> k in data && data[k].List? && |data[k].items| > index
    ensures forall k :: k in r ==> r[k] == data[k].items[index]
  {
    map k | k in data && data[k].List? && |data[k].items| > index :: data[k].items[index]
  }

  /** A row keeps its place when its id is defined. */
  predicate HasDefinedId(r: Object) {
    "id" in r && r["id"] != Undefined
  }

  /** Whether the response has an id column that is an array. */
  predicate HasIdColumn(data: Option<Object>) {
    data.Some? && "id" in data.value && data.value["id"].List?
  }

  /** One row per index of the id column, in order. */
  function Rows(data: Object): (r: seq<Object>)
    requires "id" in data && data["id"].List?
    ensures |r| == |data["id"].items|
    ensures forall i :: 0 <= i < |r| ==> r[i] == Row(data, i)
  {
    seq(|data["id"].items|, i requires 0 <= i < |data["id"].items| => Row(data, i))
  }

  /** `convertGristRecords`: the rows of the table with a defined id, in
      index order; nothing when the response has no id array. */
  method ConvertGristRecords(data: Option<Object>) returns (records: seq<Object>)
    ensures !HasIdColumn(data) ==> records == []
    ensures HasIdColumn(data) ==> records == Seqs.Filter(HasDefinedId, Rows(data.value))
    ensures HasIdColumn(data) ==> |records| <= |data.value["id"].items|
    ensures forall r :: r in records ==> HasDefinedId(r)
  {
    if !HasIdColumn(data) {
      return [];
    }
    var rows := Rows(data.value);
    records := [];
    var i := 0;
    while i < |rows|
      invariant 0 <= i <= |rows|
      invariant records == Seqs.Filter(HasDefinedId, rows[..i])
    {
      Seqs.FilterSnoc(HasDefinedId, rows, i);
      if HasDefinedId(rows[i]) {
        records := records + [rows[i]];
      }
      i := i + 1;
    }
    assert rows[..i] == rows;
  }

  /** The row at index `i` is kept exactly when the id column's entry there
      is defined. */
  lemma RowKeptIffIdDefined(data: Object, i: nat)
    requires "id" in data && data["id"].List? && i < |data["id"].items|
    ensures HasDefinedId(Row(data, i)) <==> data["id"].items[i] != Undefined
  {
  }

  // ------------------------------------------------------------ merchants

  /** `Array.prototype.includes` compares with SameValueZero: primitives
      by value, arrays by reference, which a freshly read cell never
      shares with the distributor's id. */
  predicate SameValueZero(a: Cell, b: Cell) {
    !a.List? && !b.List? && a == b
  }

  predicate Includes(items: seq<Cell>, x: Cell) {
    exists i :: 0 <= i < |items| && SameValueZero(items[i], x)
  }

  predicate Assigned(commerce: Object, id: Cell) {
    "Distributeur" in commerce && commerce["Distributeur"].List? && Includes(commerce["Distributeur"].items, id)
  }

  function AssignedToId(id: Cell): Object -> bool {
    (c: Object) => Assigned(c, id)
  }

  /** What the table fetch gave: a rejection, or the response. */
  datatype Fetch = FetchFailed | Fetched(data: Option<Object>)

  /** The distributor has an id when its record is present and its id truthy. */
  predicate HasId(distributor: Option<Object>) {
    distributor.Some? && "id" in distributor.value && Truthy(distributor.value["id"])
  }

  /** The records of a fetched table, empty when it has no id column. */
  function RecordsOf(data: Option<Object>): seq<Object> {
    Seqs.Filter(HasDefinedId, if HasIdColumn(data) then Rows(data.value) else [])
  }

  /** `fetchCommerces`: the merchants assigned to the selected distributor,
      in table order. */
  method FetchCommerces(distributor: Option<Object>, fetch: Fetch) returns (commerces: seq<Object>)
    ensures !HasId(distributor) || fetch.FetchFailed? ==> commerces == []
    ensures HasId(distributor) && fetch.Fetched? ==>
      commerces == Seqs.Filter(AssignedToId(distributor.value["id"]), RecordsOf(fetch.data))
    ensures HasId(distributor) && fetch.Fetched? ==>
      Seqs.Subsequence(commerces, RecordsOf(fetch.data)) &&
      |commerces| == Seqs.Count(AssignedToId(distributor.value["id"]), RecordsOf(fetch.data))
    ensures HasId(distributor) && fetch.Fetched? ==>
      forall c :: c in commerces <==> c in RecordsOf(fetch.data) && Assigned(c, distributor.value["id"])
    ensures forall c :: c in commerces ==> HasDefinedId(c)
  {
    if !HasId(distributor) || fetch.FetchFailed? {
      return [];
    }
    var all := ConvertGristRecords(fetch.data);
    commerces := Seqs.Filter(AssignedToId(distributor.value["id"]), all);
    Seqs.FilterCount(AssignedToId(distributor.value["id"]), all);
  }

  // -------------------------------------------------------------- totals

  /** `Number(x) || 0` for a piggy-bank count. String conversion is a
      parameter; arrays count as 0. */
  function NumberOf(c: Cell, parseStr: string -> Option<int>): int {
    match c
    case Undefined => 0
    case Null => 0
    case Bool(b) => if b then 1 else 0
    case Num(n) => n
    case Str(s) => parseStr(s).GetOr(0)
    case List(_) => 0
  }

  /** The piggy banks of one merchant; a missing field counts 0. */
  function Tirelires(c: Object, parseStr: string -> Option<int>): int {
    if "Tirelires" in c then NumberOf(c["Tirelires"], parseStr) else 0
  }

  /** The `reduce` that totals the piggy banks. */
  function Total(commerces: seq<Object>, parseStr: string -> Option<int>): (r: int)
    ensures commerces == [] ==> r == 0
    ensures (forall i :: 0 <= i < |commerces| ==> Tirelires(commerces[i], parseStr) >= 0) ==>
      forall i :: 0 <= i < |commerces| ==> 0 <= Tirelires(commerces[i], parseStr) <= r
  {
    if commerces == [] then 0
    else
      var init := commerces[..|commerces| - 1];
      assert forall i :: 0 <= i < |init| ==> init[i] == commerces[i];
      Total(init, parseStr) + Tirelires(commerces[|commerces| - 1], parseStr)
  }

  /** The total splits over concatenation. */
  lemma {:induction false} TotalAppend(a: seq<Object>, b: seq<Object>, parseStr: string -> Option<int>)
    ensures Total(a + b, parseStr) == Total(a, parseStr) + Total(b, parseStr)
    decreases |b|
  {
    if b != [] {
      assert (a + b)[..|a + b| - 1] == a + b[..|b| - 1];
      TotalAppend(a, b[..|b| - 1], parseStr);
    } else {
      assert a + b == a;
    }
  }

  /** When every merchant's piggy-bank count is non-negative, so is the total. */
  lemma {:induction false} TotalNonNegative(commerces: seq<Object>, parseStr: string -> Option<int>)
    requires forall i :: 0 <= i < |commerces| ==> Tirelires(commerces[i], parseStr) >= 0
    ensures Total(commerces, parseStr) >= 0
    decreases |commerces|
  {
    if commerces != [] {
      TotalNonNegative(commerces[..|commerces| - 1], parseStr);
    }
  }

  /** The loop the `reduce` performs, left to right. */
  method SumTirelires(commerces: seq<Object>, parseStr: string -> Option<int>) returns (sum: int)
    ensures sum == Total(commerces, parseStr)
  {
    sum := 0;
    var i := 0;
    while i < |commerces|
      invariant 0 <= i <= |commerces|
      invariant sum == Total(commerces[..i], parseStr)
    {
      assert commerces[..i + 1][..i] == commerces[..i];
      sum := sum + Tirelires(commerces[i], parseStr);
      i := i + 1;
    }
    assert commerces[..i] == commerces;
  }

  /** The summary line: no merchant, or the count and the total. */
  datatype Summary = NoMerchants | Counts(merchants: nat, tirelires: int)

  const NoMerchantsText := "Aucun commerce assigné"

  method Summarise(commerces: seq<Object>, parseStr: string -> Option<int>) returns (s: Summary)
    ensures commerces == [] <==> s == NoMerchants
    ensures s.Counts? ==> s.merchants == |commerces| && s.tirelires == Total(commerces, parseStr)
  {
    if |commerces| == 0 {
      return NoMerchants;
    }
    var total := SumTirelires(commerces, parseStr);
    s := Counts(|commerces|, total);
  }
}

=== FILE: scanner.dfy ===
/** The barcode-scanner hook as a state machine. React state updates,
    the scanning library's callbacks, timers and lookup completions are
    events; each handler is a function from state to state. The library
    itself (camera, decoding) is outside the model: its outputs arrive as
    event arguments. */
module Scanner {
  import opened Wrappers
  import opened Text
  import opened Books

  datatype State = State(
    isScanning: bool,
    isLoading: bool,
    error: Option<string>,
    lastScannedCode: Option<string>,
    searchSource: Option<string>,
    scriptLoaded: bool,
    scriptError: bool,
    /** Whether the scanning library is defined on the page. */
    libraryPresent: bool,
    /** The ref recording that the library finished loading. */
    loadedRef: bool,
    /** Camera-start timers (300 ms) not yet fired. */
    pendingStarts: nat,
    /** Lookup timers (100 ms) not yet fired, with their codes, oldest first. */
    pendingLookups: seq<string>,
    /** Lookups started and not yet answered. */
    inFlight: seq<string>,
    /** Every ISBN handed to the lookup, in order. */
    searched: seq<string>,
    /** Every book passed to the found-callback, in order. */
    delivered: seq<Book>)

  function Initial(libraryPresent: bool): (s: State)
    ensures !s.isScanning && s.pendingStarts == 0 && s.pendingLookups == [] && s.inFlight == []
  {
    State(false, false, None, None, None, false, false, libraryPresent, false, 0, [], [], [], [])
  }

  const InitError := "Erreur d'initialisation de la caméra. Veuillez réessayer."
  const InitThrowError := "Erreur lors de l'initialisation du scanner. Veuillez réessayer."
  const NotLoadedError := "La bibliothèque de scan n'est pas chargée. Veuillez rafraîchir la page."
  const NoBarcodeError := "Aucun code-barres détecté dans l'image. Essayez une autre image ou entrez l'ISBN manuellement."
  const ManualError := "Veuillez entrer un ISBN valide (10 ou 13 chiffres)"
  const SimulatedIsbn := "9782253093008"

  /** The message shown when no catalogue knows the ISBN. */
  function NotFoundError(isbn: string): string {
    "Aucun livre trouvé avec l'ISBN " + isbn + ". Vérifiez le numéro ou essayez un autre ISBN."
  }

  /** Codes shorter than this are ignored by live detection and refused by manual entry. */
  const MinCodeLength := 10

  /** What holds in every reachable state: a recorded or pending scanned code
      is at least ten characters long; the camera is only on or about to
      turn on once the library has loaded; no search source is ever set. */
  ghost predicate Inv(s: State) {
    && (s.lastScannedCode.Some? ==> |s.lastScannedCode.value| >= MinCodeLength)
    && (forall i :: 0 <= i < |s.pendingLookups| ==> |s.pendingLookups[i]| >= MinCodeLength)
    && (s.isScanning || s.pendingStarts > 0 ==> s.loadedRef)
    && s.searchSource == None
  }

  /** `r` extends the log of lookups of `s` with codes of at least ten characters only. */
  ghost predicate LongLookupsAdded(s: State, r: State) {
    && s.searched <= r.searched
    && forall k :: |s.searched| <= k < |r.searched| ==> |r.searched[k]| >= MinCodeLength
  }

  /** The mount check: a library already on the page counts as loaded. */
  function Mount(s: State): (r: State)
    ensures Inv(s) ==> Inv(r)
    ensures Inv(s) ==> LongLookupsAdded(s, r)
    ensures s.libraryPresent ==> r.scriptLoaded && r.loadedRef
    ensures !s.libraryPresent ==> r == s
    ensures r.isScanning == s.isScanning && r.error == s.error
    ensures r.searched == s.searched
  {
    if s.libraryPresent then s.(scriptLoaded := true, loadedRef := true) else s
  }

  /** `stopCamera`: whatever the library does, scanning is marked off. */
  function StopCamera(s: State): (r: State)
    ensures Inv(s) ==> Inv(r)
    ensures Inv(s) ==> LongLookupsAdded(s, r)
    ensures !r.isScanning
    ensures r.(isScanning := s.isScanning) == s
  {
    s.(isScanning := false)
  }

  /** The unmount cleanup. */
  function Unmount(s: State): (r: State)
    ensures Inv(s) ==> Inv(r)
    ensures Inv(s) ==> LongLookupsAdded(s, r)
    ensures !r.isScanning && !r.isLoading && r.error == None
    ensures r.lastScannedCode == s.lastScannedCode && r.pendingLookups == s.pendingLookups
    ensures r.searched == s.searched
  {
    StopCamera(s).(isLoading := false, error := None)
  }

  /** `startCamera`: clears the error and stops the camera; then either
      reports that the library is not loaded or schedules the start. */
  function StartCamera(s: State): (r: State)
    ensures Inv(s) ==> Inv(r)
    ensures Inv(s) ==> LongLookupsAdded(s, r)
    ensures !r.isScanning
    ensures s.libraryPresent && s.loadedRef ==> r.error == None && r.pendingStarts == s.pendingStarts + 1
    ensures !(s.libraryPresent && s.loadedRef) ==> r.error == Some(NotLoadedError) && r.pendingStarts == s.pendingStarts
    ensures r.lastScannedCode == s.lastScannedCode && r.searched == s.searched
  {
    var t := StopCamera(s.(error := None));
    if !s.libraryPresent || !s.loadedRef then t.(error := Some(NotLoadedError))
    else t.(pendingStarts := t.pendingStarts + 1)
  }

  /** The 300 ms start timer fires: scanning is switched on. */
  function CameraTimer(s: State): (r: State)
    requires s.pendingStarts > 0
    ensures Inv(s) ==> Inv(r)
    ensures Inv(s) ==> LongLookupsAdded(s, r)
    ensures r.isScanning && r.pendingStarts == s.pendingStarts - 1
    ensures r.searched == s.searched
  {
    s.(isScanning := true, pendingStarts := s.pendingStarts - 1)
  }

  /** Whether the initialisation effect runs: library present, loaded, scanning on. */
  predicate Initialising(s: State) {
    s.libraryPresent && s.isScanning && s.scriptLoaded
  }

  /** The library's init callback reports an error, or init throws. The
      callback is asynchronous (it may wait for the camera permission), so
      it can land after the camera was stopped; it turns scanning off all
      the same. */
  function InitFailed(s: State, threw: bool): (r: State)
    ensures Inv(s) ==> Inv(r)
    ensures Inv(s) ==> LongLookupsAdded(s, r)
    ensures !r.isScanning
    ensures r.error == Some(if threw then InitThrowError else InitError)
    ensures r.searched == s.searched
  {
    s.(isScanning := false, error := Some(if threw then InitThrowError else InitError))
  }

  /** The library reports a detected code. A code of at least ten
      characters stops the camera, is recorded, and is looked up after a
      100 ms timer; a shorter one is ignored. */
  function Detected(s: State, code: string): (r: State)
    ensures Inv(s) ==> Inv(r)
    ensures Inv(s) ==> LongLookupsAdded(s, r)
    ensures |code| >= MinCodeLength ==>
      && !r.isScanning
      && r.lastScannedCode == Some(code)
      && r.pendingLookups == s.pendingLookups + [code]
    ensures |code| < MinCodeLength ==> r == s
    ensures r.searched == s.searched
  {
    if |code| >= MinCodeLength then
      assert forall i :: 0 <= i < |s.pendingLookups| ==> (s.pendingLookups + [code])[i] == s.pendingLookups[i];
      StopCamera(s).(lastScannedCode := Some(code), pendingLookups := s.pendingLookups + [code])
    else s
  }

  /** `fetchBookData` up to its await: loading on, source and error cleared. */
  function FetchStart(s: State, isbn: string): (r: State)
    ensures Inv(s) ==> Inv(r)
    ensures |isbn| >= MinCodeLength ==> LongLookupsAdded(s, r)
    ensures r.isLoading && r.error == None && r.searchSource == None
    ensures r.inFlight == s.inFlight + [isbn] && r.searched == s.searched + [isbn]
    ensures r.lastScannedCode == s.lastScannedCode && r.delivered == s.delivered
  {
    s.(isLoading := true, searchSource := None, error := None,
       inFlight := s.inFlight + [isbn], searched := s.searched + [isbn])
  }

  /** The oldest lookup timer fires and starts its lookup. */
  function LookupTimer(s: State): (r: State)
    requires s.pendingLookups != []
    ensures Inv(s) ==> Inv(r)
    ensures Inv(s) ==> LongLookupsAdded(s, r)
    ensures r.pendingLookups == s.pendingLookups[1..]
    ensures r.searched == s.searched + [s.pendingLookups[0]]
  {
    assert forall i :: 0 <= i < |s.pendingLookups[1..]| ==> s.pendingLookups[1..][i] == s.pendingLookups[i + 1];
    FetchStart(s.(pendingLookups := s.pendingLookups[1..]), s.pendingLookups[0])
  }

  /** Removes the `i`-th element. */
  function Without<T>(q: seq<T>, i: nat): (r: seq<T>)
    requires i < |q|
    ensures |r| == |q| - 1
    ensures forall x :: x in r ==> x in q
  {
    q[..i] + q[i + 1..]
  }

  /** The `i`-th lookup in flight completes. A found book goes to the
      callback and clears the last scanned code; otherwise the not-found
      message is shown. Loading is switched off either way. */
  function LookupDone(s: State, i: nat, answer: Result<Book, string>): (r: State)
    requires i < |s.inFlight|
    ensures Inv(s) ==> Inv(r)
    ensures Inv(s) ==> LongLookupsAdded(s, r)
    ensures !r.isLoading && r.inFlight == Without(s.inFlight, i)
    ensures answer.Success? ==>
      r.delivered == s.delivered + [answer.value] && r.lastScannedCode == None && r.error == s.error
    ensures answer.Failure? ==>
      r.delivered == s.delivered && r.lastScannedCode == s.lastScannedCode
      && r.error == Some(NotFoundError(s.inFlight[i]))
    ensures r.searched == s.searched
  {
    var t := s.(isLoading := false, inFlight := Without(s.inFlight, i));
    if answer.Success? then t.(delivered := s.delivered + [answer.value], lastScannedCode := None)
    else t.(error := Some(NotFoundError(s.inFlight[i])))
  }

  /** The single-image decode answers: a code is looked up as it is, with
      no length check; no code shows an error. Nothing happens when the
      library is absent. */
  function ImageDecoded(s: State, code: Option<string>): (r: State)
    ensures Inv(s) ==> Inv(r)
    ensures !s.libraryPresent ==> r == s
    ensures s.libraryPresent && code.Some? ==> r == FetchStart(s, code.value)
    ensures s.libraryPresent && code.None? ==> r == s.(error := Some(NoBarcodeError))
  {
    if !s.libraryPresent then s
    else if code.Some? then FetchStart(s, code.value)
    else s.(error := Some(NoBarcodeError))
  }

  /** Manual entry: the trimmed input is looked up when it has at least ten
      characters; otherwise an error is shown. The flag is the return value. */
  function ManualSearch(s: State, input: string): (r: (State, bool))
    ensures Inv(s) ==> Inv(r.0)
    ensures LongLookupsAdded(s, r.0)
    ensures r.1 <==> |Trim(input)| >= MinCodeLength
    ensures r.1 ==> r.0 == FetchStart(s, Trim(input))
    ensures !r.1 ==> r.0 == s.(error := Some(ManualError))
  {
    var t := Trim(input);
    if |t| >= MinCodeLength then (FetchStart(s, t), true) else (s.(error := Some(ManualError)), false)
  }

  /** The script tag finished loading; loading it defines the library. */
  function ScriptLoad(s: State): (r: State)
    ensures Inv(s) ==> Inv(r)
    ensures Inv(s) ==> LongLookupsAdded(s, r)
    ensures r.scriptLoaded && r.loadedRef && r.libraryPresent
    ensures r.searched == s.searched
  {
    s.(scriptLoaded := true, loadedRef := true, libraryPresent := true)
  }

  /** The script tag failed. The loaded ref is left as it was. When the
      scanner is on, `scriptLoaded` leaving the effect's dependencies
      runs the effect's cleanup, which stops the camera. */
  function ScriptError(s: State): (r: State)
    ensures Inv(s) ==> Inv(r)
    ensures Inv(s) ==> LongLookupsAdded(s, r)
    ensures r.scriptError && !r.scriptLoaded && r.loadedRef == s.loadedRef
    ensures Initialising(s) ==> !r.isScanning
    ensures !Initialising(s) ==> r.isScanning == s.isScanning
    ensures r.searched == s.searched
  {
    var t := s.(scriptError := true, scriptLoaded := false);
    if Initialising(s) then StopCamera(t) else t
  }

  datatype Event =
    | MountEvent
    | UnmountEvent
    | Start
    | Stop
    | StartTimerFires
    | InitFails(threw: bool)
    | Detect(code: string)
    | LookupTimerFires
    | LookupAnswers(index: nat, answer: Result<Book, string>)
    | Image(decoded: Option<string>)
    | Manual(input: string)
    | Simulate
    | ScriptLoaded
    | ScriptFailed

  /** Whether an event can happen in a state: timers and answers need
      something pending, and an init failure and a detection need the
      library. Neither is tied to scanning being on: the init callback may
      answer after a stop, and detection handlers are never unregistered,
      so a code can arrive after the camera was stopped. */
  predicate Enabled(s: State, e: Event) {
    match e
    case StartTimerFires => s.pendingStarts > 0
    case InitFails(_) => s.libraryPresent
    case Detect(_) => s.libraryPresent
    case LookupTimerFires => s.pendingLookups != []
    case LookupAnswers(i, _) => i < |s.inFlight|
    case _ => true
  }

  /** One step; an event that cannot happen leaves the state as it is.
      Apart from a decoded image, no event looks up a code shorter than ten
      characters. */
  function Next(s: State, e: Event): (r: State)
    ensures Inv(s) ==> Inv(r)
    ensures !Enabled(s, e) ==> r == s
    ensures Inv(s) && !e.Image? ==> LongLookupsAdded(s, r)
  {
    if !Enabled(s, e) then s
    else match e
      case MountEvent => Mount(s)
      case UnmountEvent => Unmount(s)
      case Start => StartCamera(s)
      case Stop => StopCamera(s)
      case StartTimerFires => CameraTimer(s)
      case InitFails(threw) => InitFailed(s, threw)
      case Detect(code) => Detected(s, code)
      case LookupTimerFires => LookupTimer(s)
      case LookupAnswers(i, a) => LookupDone(s, i, a)
      case Image(code) => ImageDecoded(s, code)
      case Manual(input) => ManualSearch(s, input).0
      case Simulate => FetchStart(s, SimulatedIsbn)
      case ScriptLoaded => ScriptLoad(s)
      case ScriptFailed => ScriptError(s)
  }

  function Run(s: State, events: seq<Event>): State
    decreases |events|
  {
    if events == [] then s else Run(Next(s, events[0]), events[1..])
  }

  lemma InitialInv(libraryPresent: bool)
    ensures Inv(Initial(libraryPresent))
  {
  }

  /** The invariant holds after any sequence of events from a state where it holds. */
  lemma {:induction false} RunInv(s: State, events: seq<Event>)
    requires Inv(s)
    ensures Inv(Run(s, events))
    decreases |events|
  {
    if events != [] {
      RunInv(Next(s, events[0]), events[1..]);
    }
  }

  /** Stopping the camera twice is the same as stopping it once. */
  lemma StopCameraIdempotent(s: State)
    ensures Next(Next(s, Stop), Stop) == Next(s, Stop)
  {
  }

  /** An init callback that fails after the user stopped the camera still
      shows its error, and scanning stays off. */
  lemma LateInitFailureShowsError(s: State)
    requires s.libraryPresent
    ensures Next(Next(s, Stop), InitFails(false)).error == Some(InitError)
    ensures !Next(Next(s, Stop), InitFails(false)).isScanning
  {
  }

  /** The simulated scan always looks up the same test ISBN, which is long
      enough to pass every length check. */
  lemma SimulateLooksUpTestIsbn(s: State)
    ensures Next(s, Simulate).searched == s.searched + ["9782253093008"]
    ensures Next(s, Simulate).isLoading && Next(s, Simulate).error == None
    ensures Inv(s) ==> LongLookupsAdded(s, Next(s, Simulate))
  {
  }

  /** Live detection and manual entry only ever look up codes of at least
      ten characters; a decoded image is looked up whatever its length. */
  lemma ImageSkipsLengthCheck(s: State, code: string)
    requires s.libraryPresent && |code| < MinCodeLength
    ensures Next(s, Image(Some(code))).searched == s.searched + [code]
  {
  }

  /** Over any run without decoded images, only codes of at least ten
      characters are looked up. */
  lemma {:induction false} RunLookupsLongEnough(s: State, events: seq<Event>)
    requires Inv(s)
    requires forall i :: 0 <= i < |events| ==> !events[i].Image?
    ensures s.searched <= Run(s, events).searched
    ensures forall k :: |s.searched| <= k < |Run(s, events).searched| ==> |Run(s, events).searched[k]| >= MinCodeLength
    decreases |events|
  {
    if events != [] {
      var n := Next(s, events[0]);
      RunLookupsLongEnough(n, events[1..]);
      var r := Run(s, events);
      assert r == Run(n, events[1..]);
      forall k | |s.searched| <= k < |r.searched|
        ensures |r.searched[k]| >= MinCodeLength
      {
        if k < |n.searched| {
          assert r.searched[k] == n.searched[k];
        }
      }
    }
  }

  /** A lookup answered with a book hands exactly that book to the callback. */
  lemma FoundBookDelivered(s: State, i: nat, b: Book)
    requires Inv(s) && i < |s.inFlight|
    ensures var r := Next(s, LookupAnswers(i, Success(b)));
            r.delivered == s.delivered + [b] && r.lastScannedCode == None && Inv(r)
  {
  }
}

=== FILE: seqs.dfy ===
/** Generic sequence helpers: order-preserving filtering and the
    subsequence relation it establishes. */
module Seqs {

  /** `a` can be obtained from `b` by deleting elements, keeping order. */
  ghost predicate Subsequence<T>(a: seq<T>, b: seq<T>)
    decreases |b|
  {
    if a == [] then true
    else if b == [] then false
    else (a[0] == b[0] && Subsequence(a[1..], b[1..])) || Subsequence(a, b[1..])
  }

  /** `Array.prototype.filter`: the elements of `s` satisfying `p`, in order. */
  function Filter<T(!new)>(p: T -> bool, s: seq<T>): (r: seq<T>)
    ensures |r| <= |s|
    ensures forall x :: x in r <==> x in s && p(x)
    ensures forall i :: 0 <= i < |r| ==> p(r[i])
    ensures Subsequence(r, s)
  {
    if s == [] then []
    else if p(s[0]) then [s[0]] + Filter(p, s[1..])
    else Filter(p, s[1..])
  }

  /** A filter that rejects nothing returns its input unchanged. */
  lemma {:induction false} FilterAll<T(!new)>(p: T -> bool, s: seq<T>)
    requires forall x :: x in s ==> p(x)
    ensures Filter(p, s) == s
  {
    if s != [] {
      FilterAll(p, s[1..]);
    }
  }

  /** Filters by predicates that agree on `s` give the same result. */
  lemma {:induction false} FilterSame<T(!new)>(p: T -> bool, q: T -> bool, s: seq<T>)
    requires forall x :: x in s ==> p(x) == q(x)
    ensures Filter(p, s) == Filter(q, s)
  {
    if s != [] {
      FilterSame(p, q, s[1..]);
    }
  }

  /** Filtering distributes over concatenation. */
  lemma {:induction false} FilterAppend<T(!new)>(p: T -> bool, a: seq<T>, b: seq<T>)
    ensures Filter(p, a + b) == Filter(p, a) + Filter(p, b)
  {
    if a == [] {
      assert a + b == b;
    } else {
      assert (a + b)[1..] == a[1..] + b;
      FilterAppend(p, a[1..], b);
    }
  }

  lemma FilterSingle<T(!new)>(p: T -> bool, x: T)
    ensures Filter(p, [x]) == if p(x) then [x] else []
  {
    assert [x][1..] == [];
  }

  /** Filtering a prefix one element longer adds at most that element. */
  lemma FilterSnoc<T(!new)>(p: T -> bool, s: seq<T>, i: nat)
    requires i < |s|
    ensures Filter(p, s[..i + 1]) == Filter(p, s[..i]) + if p(s[i]) then [s[i]] else []
  {
    assert s[..i + 1] == s[..i] + [s[i]];
    FilterAppend(p, s[..i], [s[i]]);
    FilterSingle(p, s[i]);
  }

  /** Putting the same head `x` on two lists whose filters differ by a
      prefix `e` keeps that difference, as long as `x` is rejected whenever
      `e` is not empty. */
  lemma ConsFilterShift<T(!new)>(p: T -> bool, x: T, t: seq<T>, u: seq<T>, e: seq<T>, xt: seq<T>, xu: seq<T>)
    requires xt == [x] + t && xu == [x] + u
    requires Filter(p, t) == e + Filter(p, u)
    requires e != [] ==> !p(x)
    ensures Filter(p, xt) == e + Filter(p, xu)
  {
    assert xt[0] == x && xt[1..] == t;
    assert xu[0] == x && xu[1..] == u;
    if e == [] {
      assert e + Filter(p, xu) == Filter(p, xu);
    } else {
      assert Filter(p, xt) == Filter(p, t);
      assert Filter(p, xu) == Filter(p, u);
    }
  }

  /** A non-empty sequence's multiset is its head's plus its tail's. */
  lemma MultisetCons<T>(s: seq<T>)
    requires s != []
    ensures multiset(s) == multiset{s[0]} + multiset(s[1..])
  {
    assert s == [s[0]] + s[1..];
  }

  /** Number of elements of `s` satisfying `p`. */
  function Count<T>(p: T -> bool, s: seq<T>): nat
  {
    if s == [] then 0 else (if p(s[0]) then 1 else 0) + Count(p, s[1..])
  }

  /** A filter keeps exactly the counted elements. */
  lemma {:induction false} FilterCount<T(!new)>(p: T -> bool, s: seq<T>)
    ensures |Filter(p, s)| == Count(p, s)
  {
    if s != [] {
      FilterCount(p, s[1..]);
    }
  }
}

=== FILE: text.dfy ===
/** Character and string helpers standing in for the JavaScript string
    built-ins the applications use. Only the ASCII part of Unicode case
    mapping and of the `\s` character class is modelled. */
module Text {
  import opened Wrappers

  /** Characters matched by the regular-expression class `\s` (ASCII part). */
  predicate IsWhitespace(c: char) {
    c == ' ' || c == '\t' || c == '\n' || c == '\r' || c == '\U{000B}' || c == '\U{000C}'
  }

  /** Characters matched by the regular-expression class `\d`. */
  predicate IsDigit(c: char) {
    '0' <= c <= '9'
  }

  /** `String.prototype.toLowerCase` on one character (ASCII letters only). */
  function LowerChar(c: char): (r: char)
    ensures 'A' <= c <= 'Z' ==> 'a' <= r <= 'z' && r as int - c as int == 32
    ensures !('A' <= c <= 'Z') ==> r == c
  {
    if 'A' <= c <= 'Z' then (c as int + 32) as char else c
  }

  /** `String.prototype.toLowerCase`. */
  function Lower(s: string): (r: string)
    ensures |r| == |s|
    ensures forall i :: 0 <= i < |s| ==> r[i] == LowerChar(s[i])
  {
    if s == [] then [] else [LowerChar(s[0])] + Lower(s[1..])
  }

  /** Lower-casing text without capital letters leaves it unchanged. */
  lemma LowerPlain(s: string)
    requires forall i :: 0 <= i < |s| ==> !('A' <= s[i] <= 'Z')
    ensures Lower(s) == s
  {
  }

  /** `needle` occurs in `hay` starting at index `i`. */
  ghost predicate OccursAt(hay: string, needle: string, i: int) {
    0 <= i && i + |needle| <= |hay| && hay[i..i + |needle|] == needle
  }

  /** `hay.includes(needle)`: substring search. The empty needle occurs everywhere. */
  function Contains(hay: string, needle: string): (r: bool)
    ensures r <==> exists i :: OccursAt(hay, needle, i)
    decreases |hay|
  {
    if needle <= hay then
      assert OccursAt(hay, needle, 0);
      true
    else if hay == [] then
      false
    else
      ShiftOccurrence(hay, needle);
      Contains(hay[1..], needle)
  }

  /** JavaScript `s || d` on an optional string. */
  function Or(s: Option<string>, d: string): (r: string)
    ensures s.Some? && s.value != "" ==> r == s.value
    ensures s.None? || s.value == "" ==> r == d
  {
    if s.Some? && s.value != "" then s.value else d
  }

  /** `hay.indexOf(needle, from)`: the first occurrence at or after `from`. */
  function IndexOf(hay: string, needle: string, from: nat): (r: Option<nat>)
    ensures r.Some? ==> from <= r.value && OccursAt(hay, needle, r.value)
    ensures forall k :: from <= k && (r.None? || k < r.value) ==> !OccursAt(hay, needle, k)
    decreases |hay| - from
  {
    if from + |needle| > |hay| then None
    else if hay[from..from + |needle|] == needle then Some(from)
    else IndexOf(hay, needle, from + 1)
  }

  /** An occurrence past index 0 is an occurrence in the tail, and back. */
  lemma ShiftOccurrence(hay: string, needle: string)
    requires hay != [] && !(needle <= hay)
    ensures (exists i :: OccursAt(hay, needle, i)) <==> (exists i :: OccursAt(hay[1..], needle, i))
  {
    if i :| OccursAt(hay, needle, i) {
      assert i != 0;
      assert hay[1..][i - 1..i - 1 + |needle|] == hay[i..i + |needle|];
      assert OccursAt(hay[1..], needle, i - 1);
    }
    if i :| OccursAt(hay[1..], needle, i) {
      assert hay[1..][i..i + |needle|] == hay[i + 1..i + 1 + |needle|];
      assert OccursAt(hay, needle, i + 1);
    }
  }

  /** `Array.prototype.join(sep)` on an array of strings. */
  function Join(parts: seq<string>, sep: string): (r: string)
    ensures parts == [] ==> r == ""
    ensures |parts| == 1 ==> r == parts[0]
  {
    if parts == [] then ""
    else if |parts| == 1 then parts[0]
    else parts[0] + sep + Join(parts[1..], sep)
  }

  /** Number of whitespace characters at the start of `s`. */
  function LeadingSpace(s: string): (n: nat)
    ensures n <= |s|
    ensures forall k :: 0 <= k < n ==> IsWhitespace(s[k])
    ensures n == |s| || !IsWhitespace(s[n])
  {
    if s != [] && IsWhitespace(s[0]) then 1 + LeadingSpace(s[1..]) else 0
  }

  /** Number of whitespace characters at the end of `s`. */
  function TrailingSpace(s: string): (n: nat)
    ensures n <= |s|
    ensures forall k :: |s| - n <= k < |s| ==> IsWhitespace(s[k])
    ensures n == |s| || !IsWhitespace(s[|s| - n - 1])
  {
    if s != [] && IsWhitespace(s[|s| - 1]) then 1 + TrailingSpace(s[..|s| - 1]) else 0
  }

  /** `String.prototype.trim`: `s` without its leading and trailing
      whitespace; what is left starts and ends with a non-space. */
  function Trim(s: string): (r: string)
    ensures exists i :: TrimmedAt(s, r, i)
    ensures r == [] || (!IsWhitespace(r[0]) && !IsWhitespace(r[|r| - 1]))
  {
    var a := LeadingSpace(s);
    var rest := s[a..];
    var b := TrailingSpace(rest);
    var r := rest[..|rest| - b];
    assert r == s[a..a + |r|];
    assert TrimmedAt(s, r, a);
    r
  }

  /** `r` is the slice of `s` at `i`, and only whitespace lies around it. */
  ghost predicate TrimmedAt(s: string, r: string, i: int) {
    && 0 <= i <= |s| - |r|
    && r == s[i..i + |r|]
    && (forall k :: 0 <= k < i ==> IsWhitespace(s[k]))
    && (forall k :: i + |r| <= k < |s| ==> IsWhitespace(s[k]))
  }

  /** Decimal digits of a natural number, most significant first. */
  function NatToString(n: nat): (r: string)
    ensures r != []
    ensures forall i :: 0 <= i < |r| ==> IsDigit(r[i])
    decreases n
  {
    var d := [('0' as int + n % 10) as char];
    if n < 10 then d else NatToString(n / 10) + d
  }

  /** `Number.prototype.toString()` for an integer. */
  function IntToString(n: int): (r: string)
    ensures r != []
  {
    if n < 0 then "-" + NatToString(-n) else NatToString(n)
  }
}

=== FILE: use_books.dfy ===
/** The `useBooks` hook: an in-memory copy of the stored list that each
    operation updates after the service call succeeds. The copy is not
    re-read from storage; it is recomputed from the call's arguments. */
module UseBooks {
  import opened Wrappers
  import opened Books
  import BS = BookService

  /** The hook's state: the in-memory list and the last error message. */
  datatype Mirror = Mirror(books: seq<Book>, error: Option<string>)

  /** The store and the mirror after a call, and what the call returned or re-threw. */
  datatype Effect<T> = Effect(store: BS.Store, mirror: Mirror, result: Result<T, string>)

  const AddError := "Impossible d'ajouter le livre. Veuillez réessayer."
  const UpdateError := "Impossible de mettre à jour le livre. Veuillez réessayer."
  const RemoveError := "Impossible de supprimer le livre. Veuillez réessayer."
  const ImportError := "Impossible d'importer les livres. Veuillez réessayer."

  /** The mirror agrees with storage. */
  predicate InSync(st: BS.Store, m: Mirror) {
    m.books == BS.GetBooks(st)
  }

  /** The mount effect: the mirror takes the stored list. The service's
      read cannot fail, so the hook's load-error branch is never taken. */
  function Load(st: BS.Store): (m: Mirror)
    ensures InSync(st, m) && m.error == None
  {
    Mirror(BS.GetBooks(st), None)
  }

  /** The error path shared by every operation: the list is kept, the
      message is set and the service's error is re-thrown. */
  function Fail<T>(st: BS.Store, m: Mirror, message: string, err: string): (r: Effect<T>)
    ensures r.store == st && r.mirror.books == m.books && r.mirror.error == Some(message)
    ensures r.result == Failure(err)
  {
    Effect(st, m.(error := Some(message)), Failure(err))
  }

  /** `addBook`: appends the book the service returned. */
  function AddBook(st: BS.Store, m: Mirror, book: Book, freshId: string): (r: Effect<Book>)
    requires freshId != ""
    ensures r.result.Failure? <==> !st.available
    ensures r.result.Success? ==> r.mirror == m.(books := m.books + [r.result.value])
    ensures r.result.Failure? ==>
      r.store == st && r.mirror == m.(error := Some(AddError)) && r.result.error == BS.Unavailable
    ensures InSync(st, m) ==> InSync(r.store, r.mirror)
  {
    var s := BS.AddBook(st, book, freshId);
    if s.result.Success? then Effect(s.store, m.(books := m.books + [s.result.value]), s.result)
    else Fail(st, m, AddError, s.result.error)
  }

  /** `updateBook`: the mirror applies the same replacement by id. */
  function UpdateBook(st: BS.Store, m: Mirror, u: Book): (r: Effect<Book>)
    ensures r.result.Failure? <==> !st.available
    ensures r.result.Success? ==> r.mirror == m.(books := BS.ReplaceById(m.books, u)) && r.result.value == u
    ensures r.result.Failure? ==>
      r.store == st && r.mirror == m.(error := Some(UpdateError)) && r.result.error == BS.Unavailable
    ensures InSync(st, m) ==> InSync(r.store, r.mirror)
  {
    var s := BS.UpdateBook(st, u);
    if s.result.Success? then Effect(s.store, m.(books := BS.ReplaceById(m.books, u)), s.result)
    else Fail(st, m, UpdateError, s.result.error)
  }

  /** `removeBook`: the mirror applies the same filter by id. */
  function RemoveBook(st: BS.Store, m: Mirror, id: string): (r: Effect<()>)
    ensures r.result.Failure? <==> !st.available
    ensures r.result.Success? ==> r.mirror == m.(books := BS.RemoveById(m.books, id))
    ensures r.result.Failure? ==>
      r.store == st && r.mirror == m.(error := Some(RemoveError)) && r.result.error == BS.Unavailable
    ensures InSync(st, m) ==> InSync(r.store, r.mirror)
  {
    var s := BS.RemoveBook(st, id);
    if s.result.Success? then Effect(s.store, m.(books := BS.RemoveById(m.books, id)), s.result)
    else Fail(st, m, RemoveError, s.result.error)
  }

  /** `importBooks` as written: the mirror merges the imports as passed in,
      before the service gave them ids and reading statuses. */
  function ImportBooksAsWritten(st: BS.Store, m: Mirror, imported: seq<Book>, freshIds: seq<string>): (r: Effect<seq<Book>>)
    requires |freshIds| == |imported|
    requires forall i :: 0 <= i < |freshIds| ==> freshIds[i] != ""
    ensures r.result.Failure? <==> !st.available
    ensures r.result.Success? ==> r.mirror == m.(books := BS.Merge(m.books, imported))
    ensures r.result.Failure? ==> r.store == st && r.mirror == m.(error := Some(ImportError))
  {
    var s := BS.ImportBooks(st, imported, freshIds);
    if s.result.Success? then Effect(s.store, m.(books := BS.Merge(m.books, imported)), s.result)
    else Fail(st, m, ImportError, s.result.error)
  }

  /** A synced hook importing one book without an id into an empty store
      ends out of sync: storage holds the book under a generated id, the
      mirror holds it under the empty id. */
  lemma ImportAsWrittenDiverges(st: BS.Store, b: Book, freshId: string)
    requires st.available && BS.GetBooks(st) == []
    requires b.id == "" && freshId != ""
    ensures var r := ImportBooksAsWritten(st, Load(st), [b], [freshId]);
            r.result.Success? && !InSync(r.store, r.mirror)
  {
    var r := ImportBooksAsWritten(st, Load(st), [b], [freshId]);
    var p := BS.Prepare([b], [freshId]);
    assert BS.UpsertAll([], []) == [];
    assert BS.UpsertAll([], p) == [p[0]];
    assert BS.UpsertAll([], [b]) == [b];
    assert r.mirror.books[0].id != BS.GetBooks(r.store)[0].id;
  }

  /** Where every import already carries an id and a reading status, the
      as-written mirror stays in sync. */
  lemma ImportAsWrittenSyncsDefaulted(st: BS.Store, m: Mirror, imported: seq<Book>, freshIds: seq<string>)
    requires |freshIds| == |imported|
    requires forall i :: 0 <= i < |freshIds| ==> freshIds[i] != ""
    requires forall i :: 0 <= i < |imported| ==> imported[i].id != "" && imported[i].readingStatus.Some?
    requires InSync(st, m)
    ensures var r := ImportBooksAsWritten(st, m, imported, freshIds);
            InSync(r.store, r.mirror)
  {
    if st.available {
      assert BS.Prepare(imported, freshIds) == imported;
    }
  }

  /** `importBooks` corrected: the mirror takes the list the service stored
      and returned. */
  function ImportBooks(st: BS.Store, m: Mirror, imported: seq<Book>, freshIds: seq<string>): (r: Effect<seq<Book>>)
    requires |freshIds| == |imported|
    requires forall i :: 0 <= i < |freshIds| ==> freshIds[i] != ""
    ensures r.result.Failure? <==> !st.available
    ensures r.result.Success? ==>
      r.mirror == m.(books := BS.Merge(BS.GetBooks(st), BS.Prepare(imported, freshIds)))
    ensures r.result.Failure? ==> r.store == st && r.mirror == m.(error := Some(ImportError))
    ensures InSync(r.store, r.mirror) || r.result.Failure?
    ensures InSync(st, m) ==> InSync(r.store, r.mirror)
  {
    var s := BS.ImportBooks(st, imported, freshIds);
    if s.result.Success? then Effect(s.store, m.(books := s.result.value), s.result)
    else Fail(st, m, ImportError, s.result.error)
  }

  /** One call of the hook, with the ids the service would generate. */
  datatype Call =
    | Add(book: Book, freshId: string)
    | Update(book: Book)
    | Remove(id: string)
    | Import(books: seq<Book>, freshIds: seq<string>)

  predicate WellFormed(c: Call) {
    match c
    case Add(_, fid) => fid != ""
    case Import(bs, fids) => |fids| == |bs| && forall i :: 0 <= i < |fids| ==> fids[i] != ""
    case _ => true
  }

  function Apply(st: BS.Store, m: Mirror, c: Call): (r: (BS.Store, Mirror))
    requires WellFormed(c)
    ensures InSync(st, m) ==> InSync(r.0, r.1)
  {
    match c
    case Add(b, fid) => var e := AddBook(st, m, b, fid); (e.store, e.mirror)
    case Update(b) => var e := UpdateBook(st, m, b); (e.store, e.mirror)
    case Remove(id) => var e := RemoveBook(st, m, id); (e.store, e.mirror)
    case Import(bs, fids) => var e := ImportBooks(st, m, bs, fids); (e.store, e.mirror)
  }

  /** The corrected hook never drifts from storage: from a load, any run of
      calls, failed or not, leaves the mirror equal to the stored list. */
  lemma {:induction false} RunStaysInSync(st: BS.Store, m: Mirror, calls: seq<Call>)
    requires InSync(st, m)
    requires forall i :: 0 <= i < |calls| ==> WellFormed(calls[i])
    ensures var r := Run(st, m, calls); InSync(r.0, r.1)
    decreases |calls|
  {
    if calls != [] {
      var n := Apply(st, m, calls[0]);
      RunStaysInSync(n.0, n.1, calls[1..]);
    }
  }

  function Run(st: BS.Store, m: Mirror, calls: seq<Call>): (BS.Store, Mirror)
    requires forall i :: 0 <= i < |calls| ==> WellFormed(calls[i])
    decreases |calls|
  {
    if calls == [] then (st, m)
    else
      var n := Apply(st, m, calls[0]);
      Run(n.0, n.1, calls[1..])
  }
}

=== FILE: wrappers.dfy ===
/** Failure-carrying values used across the model: an absent value and the
    outcome of an operation that may raise an error. */
module Wrappers {

  /** A value that may be missing (JavaScript `undefined` / `null`). */
  datatype Option<+T> = None | Some(value: T) {

    /** The wrapped value, or `default` when there is none. */
    function GetOr(default: T): T {
      match this
      case Some(v) => v
      case None => default
    }
  }

  /** The outcome of an operation that either returns a value or throws. */
  datatype Result<+R, +E> = Success(value: R) | Failure(error: E)
}
